=== FILE: README.md ===
# SC2Scan fact extraction and weekly report, modelled in Dafny

SC2Scan is a Discord bot for StarCraft II communities. This project models the bot's core in Dafny and proves properties of that model.

**What the bot does**
- It scans a channel for BattleTags (`Name#1234`) and remembers who posted each one.
- It fetches each tagged player's recent ladder matches and rating history.
- It turns those into typed "facts": a mismatched game, a long game, a win or loss streak, a rating peak, a rating climb, a promotion, off-racing, or many games played.
- It scores each fact, picks a shortlist that is spread across players, and posts the top six each week.

**Modules**

| module | file | source |
|---|---|---|
| `Wrappers` | wrappers.dfy | `Option` and `Result`. |
| `Text` | text.dfy | Decimal rendering of integers, ASCII lower-casing, prefix and suffix tests. |
| `Factoids` | factoids.dfy | The eight fact kinds, their raw scores, interest weights, sentences and `__lt__` ordering (modules/factoids.py). |
| `ParseFacts` | parse_facts.dfy | `parse_player_matches` (modules/parse_facts.py). |
| `MatchProperties` | match_properties.dfy | Reference definitions over the matches that pass the skip rules, and the lemmas that tie the extractor to them. |
| `ParseHistory` | parse_history.dfy | `parse_player_history` and the composition `parse_player_facts` (modules/parse_facts.py). |
| `Weekly` | weekly.dfy | The gathering, filtering, diversity selection and message of `post_weekly` (bot.py). |
| `Accounts` | accounts.dfy | The channel scan of `find_accounts` (bot.py). |
| `Traverse` | traverse.dfy | The nested-key lookup `traverse` (modules/traverse.py). |
| `Config` | config.dfy | `normalize_str` and the key-normalising load loop (modules/config.py). |

**How the model is built**

The extractor is one pass over the match list with a running state.
- `ParseFacts.Step` models one processed match.
- `ParseFacts.Fold` models the pass over a prefix of the list.
- `ParseFacts.PassOverMatches` is the imperative loop, proved equal to the functional pass.
- `ParseFacts.ParsePlayerMatches` adds the name check and the end-of-pass facts, and is proved equal to `ExtractMatchFacts`.

Python exceptions abort the caller's `list(...)`, so every fact yielded before the exception is lost. The model therefore returns `Err(reason)` instead. The exceptions modelled are:
- a character name without `#`;
- a null own-team rating;
- a match with a top-level `duration`, because `LongGame` is then built without its required `won` field;
- a padded history row with no date;
- an absent `dateTime` column.

The weekly selection is modelled as the bot writes it:
- `Weekly.SelectFacts` re-sorts the remaining facts on every round with a stable descending sort, takes the head, and damps that player.
- A player's penalty is kept as a pick count `n`. `Weekly.ScaleIsPenalty` proves that the damped score is `score * 0.8^n`.

The `find_accounts` table is a class, `Accounts.AccountBook`, with a `map` field. Its scan method is proved against the functional `Accounts.Scan`. The regular expression `\w+\s*#\d{1,9}` is modelled as a greedy, leftmost search.

**Behaviours of the code that the model keeps as written**

- A match with a top-level `duration` raises, because `LongGame` is then built without its required `won` field. No long game is ever reported (`ParseFacts.Step`, `MatchProperties.NoLongGameFacts`).
- That guard reads the top-level key, not `match.duration`.
- A streak broken by a win is reported as a *won* streak of the preceding losses, and vice versa. The flag carries the breaking match's outcome (`MatchProperties.StreakStep`). A first processed match that is a loss reports `LongStreak(0, lost)` (`MatchProperties.FirstLossReportsEmptyStreak`).
- The end-of-pass facts (`EloHigh`, `EloClimb`) are emitted whenever the match list is non-empty, even if every match was skipped. They then read `EloHigh(0)` and `EloClimb(0, 0)` (`MatchProperties.NothingProcessed`). They are stamped with the last match of the list, processed or not.
- The provider lists matches newest first. A rating that rose over time therefore appears as a drop: the extractor sees the new high first and the old low last (`MatchProperties.NewestFirstClimbReadsAsDrop`).
- The "Dropped" sentence prints `-` before a difference that is already negative, giving `(--50 points)` (`Factoids.EloClimbDropDoubleMinus`).
- A promotion is judged on the player's own league only.
- A rating peak scores `elo / 500`, so a 5000 peak scores 10 on the 0-100 scale (`Factoids.EloHighAtFiveThousand`).
- A promotion to a league outside 0..6 has no name, so rendering it raises. The debug listing renders every gathered fact before the filter. One such fact anywhere in the week therefore aborts the weekly post, whether or not it would have been selected (`Weekly.WeeklyPostOutcome`).

## Model

| member | source | states |
|---|---|---|
| Text.IntToString | modules/factoids.py:165 | The rendering of an integer is non-empty, starts with `-` exactly for negatives, and is otherwise all digits. |
| Text.NatToStringRoundTrip | modules/factoids.py:150 | Reading back the digits of a rendered count gives the count. |
| Text.Lower | modules/parse_facts.py:42 | Lower-casing keeps the length and leaves no upper-case ASCII letter. Every other character is kept, and each capital becomes its small letter, 32 code points above it. |
| Text.LowerIdempotent | modules/parse_facts.py:42 | Lower-casing an already lower-cased text changes nothing. |
| Text.LowerConcat | modules/parse_facts.py:42 | Lower-casing a concatenation lower-cases each part. |
| Factoids.Clamp | modules/factoids.py:4 | `clamp(x, lo, hi)` lies in `[lo, hi]`, is `x` when `x` is already inside, and is `hi` when `x` is above. |
| Factoids.Trunc | modules/factoids.py:93 | `int(x)` of a non-negative real is its floor. |
| Factoids.Interest | modules/factoids.py:52-265 | Every kind's interest weight lies in `(0, 1]`. |
| Factoids.LeagueName | modules/factoids.py:202-210 | A league has a name exactly when it is 0..6. |
| Factoids.PrimaryIndex | modules/factoids.py:238 | The primary race has the most games, and no earlier race has as many (`max` keeps the first maximum). |
| Factoids.LongStreakRaw | modules/factoids.py:141-145 | A streak score lies in `[0, 135]` and is 0 for a streak of at most one game. |
| Factoids.OffraceShare | modules/factoids.py:235-240 | The off-race share lies in `[0, 1)`. |
| Factoids.ManyGamesRaw | modules/factoids.py:269-275 | The many-games score lies in `[0, 100]`, is 0 for no games, and is 100 from 150 games on. |
| Factoids.StandingFollowsChance | modules/factoids.py:90-107 | A better chance of winning never gives a worse standing, and each of the three standings is met by some chance in [0, 1]. |
| Factoids.WithoutRace | modules/factoids.py:252 | The off-race entries are exactly those whose race is not the primary one. |
| Factoids.LongStreakMonotone | modules/factoids.py:141-145 | The streak score never falls as the streak grows. |
| Factoids.LongStreakWonBeatsLost | modules/factoids.py:145 | A won streak scores at least as much as a lost one of the same length. |
| Factoids.LongStreakFiveWins | modules/factoids.py:145 | Five wins in a row score exactly 50421/1250 (about 40.34). |
| Factoids.LongStreakSaturation | modules/factoids.py:145 | The score is capped at 135 exactly for won streaks of 9 or more and for any streak of 10 or more. |
| Factoids.LongGameVeryLong | modules/factoids.py:123-131 | A game is called "very long" exactly when it lasted 20 whole minutes or more, with the won or lost wording. |
| Factoids.PromoteTopLeagues | modules/factoids.py:215-217 | A promotion to Master scores 100 and one to Grandmaster 350/3, above 100, since there is no clamp. |
| Factoids.PromoteRawIncreasing | modules/factoids.py:215-217 | A higher league always scores more. |
| Factoids.EloHighAtFiveThousand | modules/factoids.py:161-162 | A 5000 rating peak scores 10. |
| Factoids.MismatchRawBounds | modules/factoids.py:58-78 | A mismatch score lies in `[0, 90]`, and is 0 when the underdog loses or the favourite wins. |
| Factoids.MismatchBonus | modules/factoids.py:69-71 | The score exceeds 50 exactly when the player won with a chance below 0.3. |
| Factoids.MismatchUnderdogExample | modules/factoids.py:69-71 | A won game at chance 1/11 scores 890/11 (about 80.9). |
| Factoids.MismatchTextAgreesWithScore | modules/factoids.py:58-107 | The sentence's underdog or favourite wording agrees with the branches that give a won or lost game a score. |
| Factoids.EloClimbDirection | modules/factoids.py:186-193 | The climb sentence says "Climbed" exactly when the rating rose, and "Dropped" otherwise. |
| Factoids.EloClimbDropDoubleMinus | modules/factoids.py:188-193 | A drop ends in `(--d points)`, where `d` is the size of the drop. |
| Factoids.PrimaryStrongIff | modules/factoids.py:283 | The primary race is "strong" exactly when it has more than three quarters of the games. |
| Factoids.ManyGamesPrimaryClause | modules/factoids.py:283-290 | The race clause is empty exactly when the primary race is not strong, and says "all of them" exactly when every game was on it. |
| Factoids.ManyGamesWow | modules/factoids.py:291-292 | " (wow!)" ends the sentence exactly when more than 75 games were played. |
| Factoids.SwitchRaceSingleRace | modules/factoids.py:253-254 | A player with a single race gets the plain "Played n games as race" sentence. |
| Factoids.OffraceShareZero | modules/factoids.py:238-240 | The off-race share is 0 exactly when all games were on the primary race. |
| Factoids.ImpressiveFollowsRaw | modules/factoids.py:22-23 | For equal interest weights and an increasing calibration, a higher raw score is at least as impressive. |
| Factoids.LessIsStrictWeakOrder | modules/factoids.py:37-46 | Two facts are unordered by `__lt__` exactly when both their impressiveness and their interest weights are equal, and being unordered is transitive, so `__lt__` is a strict weak order. |
| Factoids.ImpressiveInRange | modules/factoids.py:22-23 | Because `smoid_scaling` lies strictly between 0 and 100 and the interest weights are at most 1, every fact's impressiveness lies strictly between 0 and 100. |
| Factoids.LessIsStrictOrder | modules/factoids.py:37-46 | `__lt__` is irreflexive, asymmetric and transitive. |
| Traverse.Lookup | modules/traverse.py:1-13 | A null root gives null, an empty key list raises, an absent first key gives null, and a single present key gives its value. |
| Traverse.LookupStep | modules/traverse.py:10-11 | A multi-key lookup is the lookup of the remaining keys in the child. |
| Traverse.LookupCompose | modules/traverse.py:1-13 | Looking up `p + q` is looking up `q` in the result of `p`, with null and errors propagating. |
| Config.ReplaceChar | modules/config.py:7-8 | `str.replace` of one character keeps the length. Replacing a character by a different one leaves none of it, and replacing it by itself changes nothing. |
| Config.ReplaceCharCounts | modules/config.py:7-8 | Replacing moves every occurrence of the old character onto the new one, and every other character's count is unchanged. |
| Config.FoldKey | modules/config.py:6-8 | After lower-casing and replacement, no space, hyphen or upper-case ASCII letter remains, and the length is kept. |
| Config.NormalizeStr | modules/config.py:4-9 | A normalised key has the length of its `anyascii` form and contains no space, hyphen or upper-case ASCII letter. |
| Config.FoldKeyIdempotent | modules/config.py:6-8 | Normalising after `anyascii` a second time changes nothing. |
| Config.FoldKeyConcat | modules/config.py:6-8 | The normalisation works character by character, so it distributes over concatenation. |
| Config.LoadConfig | modules/config.py:14-15 | The loaded keys are exactly the normalised raw keys, and each holds the value of the last raw key that normalises to it. |
| ParseFacts.PlayerName | modules/parse_facts.py:80 | The name is the text before the first `#`, with no `#` or line break in it, and is absent exactly when a line break comes before every `#`. |
| ParseFacts.MySide | modules/parse_facts.py:113-118 | The side chosen as the player's own is one of the two participants and has a team with members. Whenever either side lists the player, the chosen side does. |
| ParseFacts.OtherSide | modules/parse_facts.py:113-118 | The opposing side is the other participant and has a team with members. It lists the player only if the player's own side does too. |
| ParseFacts.CrashPersists | modules/parse_facts.py:94-218 | Once the pass has raised, further matches do not change the outcome. |
| ParseFacts.UpdateExtremes | modules/parse_facts.py:125-136 | The in-place update of the rating extremes yields the state `TrackExtremes` describes. |
| ParseFacts.UpdateStreak | modules/parse_facts.py:186-218 | The in-place streak update yields the state and the facts `TrackStreak` describes. |
| ParseFacts.ProcessMatch | modules/parse_facts.py:113-218 | Processing one match yields the state and facts of `Step`, or its exception. |
| ParseFacts.PassOverMatches | modules/parse_facts.py:94-218 | The loop over the matches ends in the state, facts or exception of the functional pass `Fold`. |
| ParseFacts.ParsePlayerMatches | modules/parse_facts.py:74-252 | The extractor's loop returns what `ExtractMatchFacts` describes: the facts, or the exception that aborts them. |
| MatchProperties.Processed | modules/parse_facts.py:96-111 | The processed matches all pass the skip rules, and there are no more of them than matches. |
| MatchProperties.SkippedMatchesAreInvisible | modules/parse_facts.py:96-111 | The pass over the whole list equals the pass over just the matches that survive the skip rules. |
| MatchProperties.RunsIffAllComplete | modules/parse_facts.py:94-183 | Over processed matches, the pass runs to the end exactly when every match has an own rating and no top-level duration. |
| MatchProperties.StepRunsIffCompletes | modules/parse_facts.py:113-183 | One processed match gets through exactly when it has an own rating and no top-level duration. |
| MatchProperties.ExtractionSucceedsIff | modules/parse_facts.py:74-183 | Extraction succeeds exactly when the name has a `#` and every processed match completes. |
| MatchProperties.NoLongGameFacts | modules/parse_facts.py:175-183 | The pass never yields a LongGame fact. |
| MatchProperties.StagesReportNoStreak | modules/parse_facts.py:145-172 | The promotion and mismatch stages of a match add nothing to the streak total. |
| MatchProperties.StreakStep | modules/parse_facts.py:186-218 | A match with the same outcome extends the streak. Otherwise it yields the old streak's length, flagged with the breaking match's outcome, and starts a streak of one. |
| MatchProperties.StreakStage | modules/parse_facts.py:186-218 | The streak stage extends a streak of the same outcome silently, and otherwise yields exactly one LongStreak of the old length with the new outcome. |
| MatchProperties.StreakAccounting | modules/parse_facts.py:186-218 | The streak lengths yielded so far plus the pending count equal the number of processed matches. |
| MatchProperties.AllGamesInStreaks | modules/parse_facts.py:186-230 | Across a successful extraction, the LongStreak lengths sum to the number of processed matches. |
| MatchProperties.FirstLossReportsEmptyStreak | modules/parse_facts.py:82-83 | A loss as the first processed match reports a lost streak of length 0. |
| MatchProperties.ExtremesSnoc | modules/parse_facts.py:125-136 | One more rating keeps the extremes equal to the maximum and minimum, with the flag saying whether the maximum was reached last. |
| MatchProperties.NewHighest | modules/parse_facts.py:130-132 | A new strict maximum becomes the highest rating and is marked as reached last. |
| MatchProperties.NewLowest | modules/parse_facts.py:134-136 | A new strict minimum becomes the lowest rating and is marked as reached last. |
| MatchProperties.ExtremesTracked | modules/parse_facts.py:125-136 | The running extremes are the maximum and minimum of the processed own ratings, and the flag records which came later. |
| MatchProperties.RunningRatingRewinds | modules/parse_facts.py:93 | The running rating is the current rating minus the net rating gained over the processed matches. |
| MatchProperties.StepRating | modules/parse_facts.py:138-143 | A completed match undoes exactly its own rating change on the running rating. |
| MatchProperties.MismatchUsesRewoundRating | modules/parse_facts.py:161-172 | A rated opponent yields a mismatch fact whose own rating is the rewound rating just after this match's adjustment. |
| MatchProperties.StepMismatch | modules/parse_facts.py:161-172 | A completed match against a rated opponent yields a mismatch fact carrying the running rating after this match's change is undone. |
| MatchProperties.PromotionsSnoc | modules/parse_facts.py:146-150 | One more league keeps the promotions strictly increasing, counted by the switch counter and bounded by the running maximum. |
| MatchProperties.StepLeague | modules/parse_facts.py:145-159 | A match yields a promotion exactly when its own league exceeds the running maximum. |
| MatchProperties.PromoteStageLeagues | modules/parse_facts.py:145-159 | The promotion stage yields the own league exactly when a running maximum is already recorded and the league exceeds it, and nothing otherwise. |
| MatchProperties.PromotionsClimb | modules/parse_facts.py:146-159 | The promoted leagues are strictly increasing, one per league switch, and the running maximum is the highest league seen. |
| MatchProperties.FirstMatchNeverPromotes | modules/parse_facts.py:146-147 | The first processed match never yields a promotion. |
| MatchProperties.NothingProcessed | modules/parse_facts.py:85-87 | An empty list yields nothing. A non-empty list with nothing processed yields exactly `EloHigh(0)` and `EloClimb(0, 0)`. |
| MatchProperties.ClimbEndpoints | modules/parse_facts.py:232-252 | The last two facts are the peak and a climb from the minimum to the maximum, or back, by which extreme came later. |
| MatchProperties.EndOfPassLastTwo | modules/parse_facts.py:232-252 | The last two facts of a pass are the peak and the climb, its direction set by the reached-last flag. |
| MatchProperties.NewestFirstClimbReadsAsDrop | modules/parse_facts.py:243-251 | Two wins listed newest first (3000, then 2000) are reported as a climb from 3000 to 2000. |
| ParseHistory.MaxLength | modules/parse_facts.py:39 | `zip_longest` runs to the longest column. |
| ParseHistory.RowCount | modules/parse_facts.py:38-39 | The number of zipped rows is at least the length of every column. |
| ParseHistory.RowAt | modules/parse_facts.py:39-42 | Each cell of row `i` is the column's `i`-th value, or None where the column is shorter or holds a null. The race cell is lower-cased. |
| ParseHistory.KeptRows | modules/parse_facts.py:39-48 | Every kept row has a date and passes the cutoff and queue test. |
| ParseHistory.FilterRows | modules/parse_facts.py:36-48 | The row loop raises when some row has no date, and otherwise keeps exactly the rows `KeptRows` describes. |
| ParseHistory.Bump | modules/parse_facts.py:54 | Counting one more game adds one to that race's entry or appends it with one game; nothing else changes. |
| ParseHistory.BumpRaces | modules/parse_facts.py:54 | Counting a game keeps the race list when the race is known, and otherwise appends the race. |
| ParseHistory.CountRaces | modules/parse_facts.py:54 | The counts name each race once, in first-seen order (`Dedup`). Each count is the number of that race's rows, and the counts sum to the number of rows. |
| ParseHistory.CountRacesFirstSeen | modules/parse_facts.py:54 | With one zerg game followed by one terran game, zerg is listed first, which decides the tie for the primary race. |
| ParseHistory.MaxInt | modules/parse_facts.py:56 | The timestamp is a date of the column and no date is later. |
| ParseHistory.ParsePlayerHistory | modules/parse_facts.py:10-72 | The history parser returns what `ExtractHistoryFacts` describes. |
| ParseHistory.ShortDateColumnRaises | modules/parse_facts.py:39-43 | The history raises exactly when some column is longer than the date column. |
| ParseHistory.KeptRowsExact | modules/parse_facts.py:39-48 | A row survives exactly when it has a date at or after the cutoff and is a ranked 1v1 row. |
| ParseHistory.KeptRacesLowerCase | modules/parse_facts.py:41-42 | Every surviving race is lower case. |
| ParseHistory.HistoryFactsShape | modules/parse_facts.py:50-72 | No surviving rows yield no facts. Otherwise exactly SwitchRace then ManyGames are yielded, sharing counts that sum to the survivors and stamped with the latest date of the whole column. |
| ParseHistory.PlayerFactsComposition | modules/parse_facts.py:256-272 | A player not found yields nothing. Otherwise the result is the match facts followed by the history facts, and it fails when either part raises. |
| Weekly.GatherFacts | bot.py:169-177 | A fact is gathered exactly when it came from an account whose extraction did not raise. |
| Weekly.Eligible | bot.py:184 | The filter keeps exactly the facts scoring above 5. |
| Weekly.EligibleCounts | bot.py:184 | The filter keeps every copy of a fact scoring above 5 and no copy of any other. |
| Weekly.Insert | bot.py:190 | Inserting adds exactly one element. |
| Weekly.SortByKey | bot.py:190 | Sorting is a permutation. It is descending with the first maximum at the head (`SortPutsFirstMaximumFirst`) and stable (`SortIsStable`). |
| Weekly.InsertFilter | bot.py:190 | Inserting a fact puts it in front of every fact with the same key and keeps their order. |
| Weekly.SortIsStable | bot.py:190 | For every key value, the facts with that key appear in the sorted list in the same order as in the input. |
| Weekly.FirstMaxIndex | bot.py:190-192 | The index of the first element with the greatest key. |
| Weekly.InsertKeepsDescending | bot.py:190 | Inserting into a descending list keeps it descending, and an element equal to the head goes before it. |
| Weekly.InsertBounded | bot.py:190 | Inserting an element below a bound into a list below it keeps every element below it. |
| Weekly.SortPutsFirstMaximumFirst | bot.py:190-192 | The sort is descending, and its head is the first maximal element of the input. |
| Weekly.SelectFacts | bot.py:184-195 | Filtering and then the selection loop return the selection `Select` describes for the filtered facts. |
| Weekly.SelectFrom | bot.py:187-195 | The selection loop returns the selection `Select` describes, starting with no penalties. |
| Weekly.SelectRound | bot.py:189-195 | One round of the loop keeps the picks so far followed by the selection of the rest unchanged. |
| Weekly.SelectIsPermutation | bot.py:189-193 | The selected list is a permutation of the filtered list. |
| Weekly.SelectPicksFirstMaximum | bot.py:190-192 | Each round picks the first fact, in current order, with the greatest damped score. |
| Weekly.PickScoresLength | bot.py:189-193 | Every round removes exactly one fact, so there is one pick per fact. |
| Weekly.DampAfterPick | bot.py:195 | After a pick, each player's penalty count is the number of times that player has been picked. |
| Weekly.ScaleIsPenalty | bot.py:188 | Damping a score `n` times is multiplying it by 0.8^n. |
| Weekly.PickScoreIsDecayed | bot.py:188-195 | Each pick's damped score is its score damped once for every earlier pick of the same player. |
| Weekly.PicksAreDecayedPerPlayer | bot.py:188-195 | Starting from no picks, a player's k-th fact is scored at 0.8^k times its impressiveness. |
| Weekly.ScaleNonNegative | bot.py:195 | Damping keeps a non-negative score non-negative and never raises it. |
| Weekly.DampingLowers | bot.py:195 | Picking a player never raises any fact's damped score. |
| Weekly.PickScoresNonIncreasing | bot.py:189-195 | With non-negative scores, the damped scores at selection time never increase. |
| Weekly.BehindHead | bot.py:190-192 | No fact left behind the sorted head has a greater key. |
| Weekly.NextPickNoHigher | bot.py:189-195 | With non-negative scores, the next round's pick scores no more than this round's. |
| Weekly.Mention | bot.py:205-209 | A mention starts with the player's name and adds a tag exactly when the battle tag is a scanned account. |
| Weekly.ComposeReport | bot.py:199-210 | The message loop returns the post `Report` describes. |
| Weekly.ReportShowsFirstSix | bot.py:204 | Only the first six selected facts affect the message. |
| Weekly.ReportLinesFailIff | bot.py:210 | Rendering the lines fails exactly when one rendered fact has no sentence. |
| Weekly.ReportOutcome | bot.py:199-210 | For a given selection, the message is skipped exactly when nothing was selected. Rendering fails exactly when one of the first six is a promotion to an unknown league. A sent message starts with the dated header. |
| Weekly.FactTextFailsOnlyForUnknownLeague | modules/factoids.py:219-220 | A fact has no sentence exactly when it is a promotion outside leagues 0..6. |
| Weekly.Gather | bot.py:169-177 | The gathering loop returns the facts `GatherFacts` describes: every account's facts in order, an account that raised contributing none. |
| Weekly.ListFacts | bot.py:179-181 | The debug listing gets through exactly when every gathered fact has a sentence. |
| Weekly.PostWeekly | bot.py:168-210 | One server's weekly step returns the post `WeeklyPost` describes: gather every account's facts, render each in the debug listing, filter on `impressive() > 5`, select, and report. |
| Weekly.SelectionRenders | bot.py:187-195 | The selection keeps exactly as many facts as were eligible, and it renders whenever the eligible facts do. |
| Weekly.ReportOfRenderable | bot.py:204-210 | A message over facts that all render never fails. |
| Weekly.NothingEligibleIff | bot.py:184 | Nothing is eligible exactly when no gathered fact is more impressive than 5. |
| Weekly.WeeklyPostOutcome | bot.py:168-210 | The week fails exactly when some gathered fact, selected or not, is a promotion to an unknown league. It is skipped exactly when every fact renders and none is more impressive than 5. Otherwise the message starts with the dated header. |
| Weekly.WeeklyPicksNonIncreasing | bot.py:184-195 | For the bot's own score, the damped scores at selection time never increase, with no assumption on the transcendental functions. |
| Accounts.RunIsMaximal | bot.py:136 | A greedy run covers only matching characters and stops at the end or at a non-matching one. |
| Accounts.MatchAt | bot.py:136 | A match at a position stays inside the text. |
| Accounts.MatchAtSound | bot.py:136 | A match consists of word characters, optional whitespace, `#` and one to nine digits. |
| Accounts.MatchAtParts | bot.py:136 | A reported match splits into its word, whitespace, `#` and digit runs, and its length is theirs. |
| Accounts.MatchAtIsLongest | bot.py:136 | When the pattern fits at a position, the greedy match is found there and is at least as long. |
| Accounts.Search | bot.py:136 | A search result lies inside the searched part of the text. |
| Accounts.SearchIsLeftmost | bot.py:136 | The search reports the leftmost position where the pattern matches, and nothing when it matches nowhere. |
| Accounts.SearchFinds | bot.py:136 | If the pattern matches at some position, the search finds a match. |
| Accounts.RemoveSpaces | bot.py:139 | Removing whitespace never lengthens the text. |
| Accounts.RemoveSpacesFilters | bot.py:139 | No whitespace remains, and every other character keeps its count. |
| Accounts.MatchIsAccountName | bot.py:136-139 | A match with its whitespace removed is a well-formed BattleTag. |
| Accounts.AccountShape | bot.py:136-139 | The account a message names is a well-formed BattleTag. |
| Accounts.SearchSound | bot.py:136 | A search result is a greedy match at the reported position. |
| Accounts.MatchedAccountName | bot.py:136-139 | The text of a match, with whitespace removed, is a well-formed BattleTag. |
| Accounts.AccountIff | bot.py:136-137 | A message names an account exactly when the pattern matches somewhere in it. |
| Accounts.Mentions | bot.py:143 | At most one account is counted per message. |
| Accounts.NoMentionIff | bot.py:134-140 | There is no newest mention of a name exactly when no message names it. |
| Accounts.LastMentionIsNewest | bot.py:134-140 | The newest mention is by the author of a message naming the account that no later message names again. |
| Accounts.NewestMention | bot.py:134-140 | The newest mention comes from a message, by its author, that names the account, and no later message names it. |
| Accounts.ScanOverwrites | bot.py:134-140 | After the scan, a named account maps to the author of its newest mention, and every other entry is kept unchanged. |
| Accounts.ScanStoresAccountNames | bot.py:136-140 | Every key the scan stores is a well-formed BattleTag. |
| Accounts.AccountBook.constructor | bot.py:140 | A server's account table starts as the stored one. |
| Accounts.AccountBook.ScanMessages | bot.py:133-144 | The in-place scan leaves the table `Scan` describes and returns the number of messages naming an account. |

## Left out

- Discord, the scheduler, channel history, sending the message and saving server configuration files: these are I/O. The messages and the stored account table are parameters.
- The weekly seven-day guard and `datetime.now`: these depend on the clock. The formatted date is a parameter of `Weekly.PostWeekly`.
- modules/search_player.py (HTTP requests, caches, rate limiting and fuzzy name matching) is not part of this model. The found player and the fetched matches and history are parameters, and a player not found is `None`.
- `dateutil.parse`: dates are already-parsed integers. An unparseable date, which raises in the source, is not represented.
- `yaml` loading and `anyascii`: the parsed mapping is a list of pairs, and `anyascii` is a function parameter of `Config.NormalizeStr`.
- Floating point: the scores are exact `real` arithmetic. The transcendental parts (`10 ** (d/400)`, the logistic `smoid_scaling`, `half_activation`) are function fields of `Factoids.Transcendental`, supplied by the caller.
- The text of the bot's prints, warnings and traceback output. The debug listing of every gathered fact (bot.py:179-181) is modelled only for the exception its `str(fact)` can raise (`Weekly.WeeklyPost`). Its sort order changes only what is printed.
- ParseFacts.Team: the league type is always an integer. A null `league.type` read at modules/parse_facts.py:122 is not represented. On the first processed matches it would leave `max_league` at None, so the promotion baseline would move to the next non-null league (modules/parse_facts.py:146-147). Once a baseline exists, it would raise a TypeError at the comparison (modules/parse_facts.py:148).
- `currentStats.rating` is taken to be an integer. A null current rating, which makes the rating arithmetic raise, is not represented.
- `Text.Lower` and the account pattern cover ASCII only. Python's `str.lower()`, `\w`, `\s` and `\d` also act on other Unicode characters, so a tag written with non-ASCII digits is found by the bot and not by the model.
- JSON numbers in `Traverse.Json` are integers. Floating-point JSON values are not represented.
- Weekly.PicksAreDecayedPerPlayer: the penalty map is kept as a per-player pick count rather than the float `0.8 ** n` itself. `Weekly.ScaleIsPenalty` proves the two agree exactly in real arithmetic, and float rounding is not modelled.
- Weekly.SelectPicksFirstMaximum: ties are broken by current list order, as the stable sort does. Equal-scoring facts from the float multiplications are compared exactly.
- The `__main__` blocks: these are scripts, not part of the core.

=== FILE: accounts.dfy ===
/** The account scan of `find_accounts` (bot.py:114-144): every message of the scan
    channel, oldest first, is searched for a BattleTag with the pattern
    `\w+\s*#\d{1,9}`; the first hit, with its whitespace removed, is bound to the
    message's author in the server's `bnet_accounts` table.

    Fetching the channel history and saving the table are outside the model; the
    character classes are their ASCII members. */
module Accounts {
  import opened Wrappers

  // ---------------------------------------------------------------------------
  // Character classes

  /** `\w`. */
  predicate IsWord(c: char) {
    ('a' <= c <= 'z') || ('A' <= c <= 'Z') || ('0' <= c <= '9') || c == '_'
  }

  /** `\s`: space, tab, line feed, vertical tab, form feed, carriage return and the
      four information separators. */
  predicate IsSpace(c: char) {
    c == ' ' || ('\t' <= c <= '\r') || ('\U{1c}' <= c <= '\U{1f}')
  }

  /** `\d`. */
  predicate IsDigit(c: char) {
    '0' <= c <= '9'
  }

  /** The length of the longest run of characters satisfying `p` that starts at `i`. */
  function Run(s: string, i: nat, p: char -> bool): (n: nat)
    requires i <= |s|
    ensures i + n <= |s|
    decreases |s| - i
  {
    if i == |s| || !p(s[i]) then 0 else 1 + Run(s, i + 1, p)
  }

  /** The run is made of characters satisfying `p` and cannot be extended. */
  lemma {:induction false} RunIsMaximal(s: string, i: nat, p: char -> bool)
    requires i <= |s|
    ensures forall k :: i <= k < i + Run(s, i, p) ==> p(s[k])
    ensures i + Run(s, i, p) == |s| || !p(s[i + Run(s, i, p)])
    decreases |s| - i
  {
    if i < |s| && p(s[i]) {
      RunIsMaximal(s, i + 1, p);
    }
  }

  /** At most nine digits are taken. */
  const MaxDigits: nat := 9

  // ---------------------------------------------------------------------------
  // The pattern

  /** `s[i..]` starts with `w` word characters, `sp` whitespace characters, a `#`
      and `d` digits, with `1 <= w` and `1 <= d <= 9`: one way the pattern can match
      at `i`, of length `w + sp + 1 + d`. */
  predicate PatternParts(s: string, i: nat, w: nat, sp: nat, d: nat) {
    1 <= w && 1 <= d <= MaxDigits && i + w + sp + 1 + d <= |s|
    && (forall k :: i <= k < i + w ==> IsWord(s[k]))
    && (forall k :: i + w <= k < i + w + sp ==> IsSpace(s[k]))
    && s[i + w + sp] == '#'
    && (forall k :: i + w + sp + 1 <= k < i + w + sp + 1 + d ==> IsDigit(s[k]))
  }

  /** The length of the match the regular-expression engine reports at `i`, if any:
      the greedy `\w+`, `\s*` and `\d{1,9}` never need to give anything back. */
  function MatchAt(s: string, i: nat): (r: Option<nat>)
    requires i <= |s|
    ensures r.Some? ==> i + r.value <= |s|
  {
    var w := Run(s, i, IsWord);
    var sp := Run(s, i + w, IsSpace);
    var hash := i + w + sp;
    if w == 0 || hash == |s| || s[hash] != '#' then None
    else
      var d := Run(s, hash + 1, IsDigit);
      if d == 0 then None
      else Some(w + sp + 1 + (if d < MaxDigits then d else MaxDigits))
  }

  /** The three runs of a reported match. */
  lemma MatchAtParts(s: string, i: nat) returns (w: nat, sp: nat, d: nat)
    requires i <= |s| && MatchAt(s, i).Some?
    ensures PatternParts(s, i, w, sp, d) && MatchAt(s, i).value == w + sp + 1 + d
  {
    w := Run(s, i, IsWord);
    sp := Run(s, i + w, IsSpace);
    var hash := i + w + sp;
    var run := Run(s, hash + 1, IsDigit);
    d := if run < MaxDigits then run else MaxDigits;
    assert forall k :: i <= k < i + w ==> IsWord(s[k]) by {
      RunIsMaximal(s, i, IsWord);
    }
    assert forall k :: i + w <= k < hash ==> IsSpace(s[k]) by {
      RunIsMaximal(s, i + w, IsSpace);
    }
    assert forall k :: hash + 1 <= k < hash + 1 + d ==> IsDigit(s[k]) by {
      RunIsMaximal(s, hash + 1, IsDigit);
    }
  }

  /** A reported match is one way the pattern can match. */
  lemma MatchAtSound(s: string, i: nat)
    requires i <= |s|
    ensures MatchAt(s, i).Some? ==> exists w: nat, sp: nat, d: nat :: PatternParts(s, i, w, sp, d) && MatchAt(s, i).value == w + sp + 1 + d
  {
    if MatchAt(s, i).Some? {
      var w, sp, d := MatchAtParts(s, i);
    }
  }

  /** Every way the pattern can match at `i` is found, and the reported match is the
      longest of them. */
  lemma MatchAtIsLongest(s: string, i: nat, w: nat, sp: nat, d: nat)
    requires i <= |s| && PatternParts(s, i, w, sp, d)
    ensures MatchAt(s, i).Some? && w + sp + 1 + d <= MatchAt(s, i).value
  {
    RunIsMaximal(s, i, IsWord);
    assert !IsWord(s[i + w]);
    assert Run(s, i, IsWord) == w;
    RunIsMaximal(s, i + w, IsSpace);
    assert !IsSpace(s[i + w + sp]);
    assert Run(s, i + w, IsSpace) == sp;
    RunIsMaximal(s, i + w + sp + 1, IsDigit);
    assert d <= Run(s, i + w + sp + 1, IsDigit);
  }

  /** `re.search`: the match that starts leftmost, searching from `from`. */
  function Search(s: string, from: nat): (r: Option<(nat, nat)>)
    requires from <= |s|
    ensures r.Some? ==> from <= r.value.0 && r.value.0 + r.value.1 <= |s|
    decreases |s| - from
  {
    match MatchAt(s, from)
    case Some(n) => Some((from, n))
    case None => if from == |s| then None else Search(s, from + 1)
  }

  /** The search reports the leftmost position where the pattern matches, and nothing
      when it matches nowhere. */
  lemma {:induction false} SearchIsLeftmost(s: string, from: nat)
    requires from <= |s|
    ensures var r := Search(s, from);
      (r.Some? ==> MatchAt(s, r.value.0) == Some(r.value.1) && forall j :: from <= j < r.value.0 ==> MatchAt(s, j).None?)
      && (r.None? ==> forall j :: from <= j <= |s| ==> MatchAt(s, j).None?)
    decreases |s| - from
  {
    if MatchAt(s, from).None? && from < |s| {
      SearchIsLeftmost(s, from + 1);
    }
  }

  /** `re.sub(r'\s', '', text)`. */
  function RemoveSpaces(s: string): (r: string)
    ensures |r| <= |s|
  {
    if |s| == 0 then []
    else (if IsSpace(s[0]) then [] else [s[0]]) + RemoveSpaces(s[1..])
  }

  /** No whitespace is left, and every other character is kept as often as it
      occurs. */
  lemma {:induction false} RemoveSpacesFilters(s: string)
    ensures forall k :: 0 <= k < |RemoveSpaces(s)| ==> !IsSpace(RemoveSpaces(s)[k])
    ensures forall c :: !IsSpace(c) ==> multiset(RemoveSpaces(s))[c] == multiset(s)[c]
    decreases |s|
  {
    if |s| > 0 {
      RemoveSpacesFilters(s[1..]);
      assert s == [s[0]] + s[1..];
    }
  }

  lemma {:induction false} RemoveSpacesConcat(a: string, b: string)
    ensures RemoveSpaces(a + b) == RemoveSpaces(a) + RemoveSpaces(b)
    decreases |a|
  {
    if |a| > 0 {
      RemoveSpacesConcat(a[1..], b);
      assert (a + b)[1..] == a[1..] + b;
      var head := if IsSpace(a[0]) then [] else [a[0]];
      assert (a + b)[0] == a[0];
      assert RemoveSpaces(a) == head + RemoveSpaces(a[1..]);
      assert RemoveSpaces(a + b) == head + RemoveSpaces((a + b)[1..]);
      assert RemoveSpaces(a + b) == head + (RemoveSpaces(a[1..]) + RemoveSpaces(b));
      assert head + (RemoveSpaces(a[1..]) + RemoveSpaces(b)) == (head + RemoveSpaces(a[1..])) + RemoveSpaces(b);
    } else {
      assert a + b == b;
    }
  }

  lemma {:induction false} RemoveSpacesAll(s: string)
    requires forall k :: 0 <= k < |s| ==> IsSpace(s[k])
    ensures RemoveSpaces(s) == []
    decreases |s|
  {
    if |s| > 0 {
      RemoveSpacesAll(s[1..]);
    }
  }

  lemma {:induction false} RemoveSpacesNone(s: string)
    requires forall k :: 0 <= k < |s| ==> !IsSpace(s[k])
    ensures RemoveSpaces(s) == s
    decreases |s|
  {
    if |s| > 0 {
      RemoveSpacesNone(s[1..]);
      assert s == [s[0]] + s[1..];
    }
  }

  /** The BattleTag a message names, if any. */
  function AccountIn(content: string): Option<string> {
    match Search(content, 0)
    case None => None
    case Some((i, n)) => Some(RemoveSpaces(content[i..i + n]))
  }

  /** A BattleTag as the scan stores it: one or more word characters, `#` and one to
      nine digits. */
  predicate IsAccountName(a: string) {
    exists w :: 1 <= w && w + 2 <= |a| <= w + 1 + MaxDigits
      && (forall k :: 0 <= k < w ==> IsWord(a[k]))
      && a[w] == '#'
      && (forall k :: w < k < |a| ==> IsDigit(a[k]))
  }

  lemma AccountNameOf(word: string, digits: string)
    requires 1 <= |word| && 1 <= |digits| <= MaxDigits
    requires forall k :: 0 <= k < |word| ==> IsWord(word[k])
    requires forall k :: 0 <= k < |digits| ==> IsDigit(digits[k])
    ensures IsAccountName(word + ("#" + digits))
  {
    var a := word + ("#" + digits);
    var w := |word|;
    assert forall k :: 0 <= k < w ==> a[k] == word[k];
    assert a[w] == '#';
    assert forall k :: w < k < |a| ==> a[k] == digits[k - w - 1];
  }

  /** Appending text without whitespace appends it unchanged. */
  lemma RemoveSpacesAppendKept(x: string, y: string)
    requires forall k :: 0 <= k < |y| ==> !IsSpace(y[k])
    ensures RemoveSpaces(x + y) == RemoveSpaces(x) + y
  {
    RemoveSpacesNone(y);
    RemoveSpacesConcat(x, y);
  }

  /** Appending whitespace appends nothing. */
  lemma RemoveSpacesAppendDropped(x: string, y: string)
    requires forall k :: 0 <= k < |y| ==> IsSpace(y[k])
    ensures RemoveSpaces(x + y) == RemoveSpaces(x)
  {
    RemoveSpacesAll(y);
    RemoveSpacesConcat(x, y);
    assert RemoveSpaces(x) + [] == RemoveSpaces(x);
  }

  /** A word followed by whitespace loses just the whitespace. */
  lemma StripWord(word: string, spaces: string)
    requires forall k :: 0 <= k < |word| ==> IsWord(word[k])
    requires forall k :: 0 <= k < |spaces| ==> IsSpace(spaces[k])
    ensures RemoveSpaces(word + spaces) == word
  {
    RemoveSpacesNone(word);
    RemoveSpacesAll(spaces);
    RemoveSpacesConcat(word, spaces);
    assert word + [] == word;
  }

  /** `#` and digits contain no whitespace. */
  lemma StripNumber(digits: string)
    requires forall k :: 0 <= k < |digits| ==> IsDigit(digits[k])
    ensures RemoveSpaces("#" + digits) == "#" + digits
  {
    var number := "#" + digits;
    assert forall k :: 0 <= k < |number| ==> !IsSpace(number[k]) by {
      assert forall k :: 0 < k < |number| ==> number[k] == digits[k - 1];
    }
    RemoveSpacesNone(number);
  }

  /** Whitespace between a word and `#digits` is all that `re.sub` removes. */
  lemma StripParts(word: string, spaces: string, digits: string)
    requires forall k :: 0 <= k < |word| ==> IsWord(word[k])
    requires forall k :: 0 <= k < |spaces| ==> IsSpace(spaces[k])
    requires forall k :: 0 <= k < |digits| ==> IsDigit(digits[k])
    ensures RemoveSpaces(word + spaces + ("#" + digits)) == word + ("#" + digits)
  {
    StripWord(word, spaces);
    StripNumber(digits);
    RemoveSpacesConcat(word + spaces, "#" + digits);
  }

  /** Removing the whitespace from a match leaves the word, `#` and the digits. */
  lemma StripMatch(t: string, w: nat, sp: nat, d: nat)
    requires PatternParts(t, 0, w, sp, d) && |t| == w + sp + 1 + d
    ensures RemoveSpaces(t) == t[..w] + ("#" + t[w + sp + 1..])
  {
    var word, spaces, digits := t[..w], t[w..w + sp], t[w + sp + 1..];
    assert forall k :: 0 <= k < |word| ==> IsWord(word[k]);
    assert forall k :: 0 <= k < |spaces| ==> IsSpace(spaces[k]);
    assert forall k :: 0 <= k < |digits| ==> IsDigit(digits[k]);
    assert t == word + spaces + ("#" + digits);
    StripParts(word, spaces, digits);
  }

  lemma PatternInSlice(s: string, i: nat, w: nat, sp: nat, d: nat)
    requires PatternParts(s, i, w, sp, d)
    ensures PatternParts(s[i..i + w + sp + 1 + d], 0, w, sp, d)
  {
    var t := s[i..i + w + sp + 1 + d];
    assert forall k :: 0 <= k < |t| ==> t[k] == s[i + k];
  }

  /** The whitespace-free text of any match is a well-formed BattleTag. */
  lemma MatchIsAccountName(s: string, i: nat, w: nat, sp: nat, d: nat)
    requires PatternParts(s, i, w, sp, d)
    ensures IsAccountName(RemoveSpaces(s[i..i + w + sp + 1 + d]))
  {
    var t := s[i..i + w + sp + 1 + d];
    PatternInSlice(s, i, w, sp, d);
    StripMatch(t, w, sp, d);
    var word, digits := t[..w], t[w + sp + 1..];
    assert forall k :: 0 <= k < |word| ==> IsWord(word[k]);
    assert forall k :: 0 <= k < |digits| ==> IsDigit(digits[k]);
    AccountNameOf(word, digits);
  }

  /** A search result is a match at the reported position. */
  lemma {:induction false} SearchSound(s: string, from: nat)
    requires from <= |s| && Search(s, from).Some?
    ensures MatchAt(s, Search(s, from).value.0) == Some(Search(s, from).value.1)
    decreases |s| - from
  {
    if MatchAt(s, from).None? {
      SearchSound(s, from + 1);
    }
  }

  /** The whitespace-free text of the match at `i` is a well-formed BattleTag. */
  lemma MatchedAccountName(s: string, i: nat)
    requires i <= |s| && MatchAt(s, i).Some?
    ensures IsAccountName(RemoveSpaces(s[i..i + MatchAt(s, i).value]))
  {
    MatchAtSound(s, i);
    var w: nat, sp: nat, d: nat :| PatternParts(s, i, w, sp, d) && MatchAt(s, i).value == w + sp + 1 + d;
    MatchIsAccountName(s, i, w, sp, d);
  }

  /** What the scan stores is always a well-formed BattleTag. */
  lemma AccountShape(content: string)
    ensures AccountIn(content).Some? ==> IsAccountName(AccountIn(content).value)
  {
    if Search(content, 0).Some? {
      var (i, n) := Search(content, 0).value;
      SearchSound(content, 0);
      MatchedAccountName(content, i);
    }
  }

  /** A position where the pattern matches is never skipped by the search. */
  lemma {:induction false} SearchFinds(s: string, from: nat, i: nat)
    requires from <= i <= |s| && MatchAt(s, i).Some?
    ensures Search(s, from).Some?
    decreases i - from
  {
    if MatchAt(s, from).None? {
      assert from != i;
      SearchFinds(s, from + 1, i);
    }
  }

  /** A message names a BattleTag exactly when the pattern matches somewhere in it. */
  lemma AccountIff(content: string)
    ensures AccountIn(content).Some? <==>
      exists i: nat, w: nat, sp: nat, d: nat :: i <= |content| && PatternParts(content, i, w, sp, d)
  {
    if AccountIn(content).Some? {
      var (i, n) := Search(content, 0).value;
      SearchIsLeftmost(content, 0);
      MatchAtSound(content, i);
      var w: nat, sp: nat, d: nat :| PatternParts(content, i, w, sp, d) && n == w + sp + 1 + d;
    }
    if exists i: nat, w: nat, sp: nat, d: nat :: i <= |content| && PatternParts(content, i, w, sp, d) {
      var i: nat, w: nat, sp: nat, d: nat :| i <= |content| && PatternParts(content, i, w, sp, d);
      MatchAtIsLongest(content, i, w, sp, d);
      SearchFinds(content, 0, i);
    }
  }


  // ---------------------------------------------------------------------------
  // The scan over the channel history

  datatype Message = Message(content: string, author: int)

  /** The account table after the messages, oldest first, have been scanned. */
  function Scan(accounts: map<string, int>, messages: seq<Message>): map<string, int>
    decreases |messages|
  {
    if |messages| == 0 then accounts
    else
      var before := Scan(accounts, messages[..|messages| - 1]);
      var last := messages[|messages| - 1];
      match AccountIn(last.content)
      case None => before
      case Some(a) => before[a := last.author]
  }

  /** The number of messages that name a BattleTag (`accounts_found`). */
  function Mentions(messages: seq<Message>): (n: nat)
    ensures n <= |messages|
    decreases |messages|
  {
    if |messages| == 0 then 0
    else Mentions(messages[..|messages| - 1]) + (if AccountIn(messages[|messages| - 1].content).Some? then 1 else 0)
  }

  /** The author of the newest message naming `a`. */
  function LastMention(messages: seq<Message>, a: string): Option<int>
    decreases |messages|
  {
    if |messages| == 0 then None
    else if Names(messages[|messages| - 1], a) then Some(messages[|messages| - 1].author)
    else LastMention(messages[..|messages| - 1], a)
  }

  /** The message names the BattleTag `a`. */
  predicate Names(m: Message, a: string) {
    AccountIn(m.content) == Some(a)
  }

  /** There is no newest mention of `a` exactly when no message names `a`. */
  lemma {:induction false} NoMentionIff(messages: seq<Message>, a: string)
    ensures LastMention(messages, a).None? <==> forall i :: 0 <= i < |messages| ==> !Names(messages[i], a)
    decreases |messages|
  {
    if |messages| > 0 {
      var n := |messages| - 1;
      var init := messages[..n];
      NoMentionIff(init, a);
      assert forall i :: 0 <= i < n ==> init[i] == messages[i];
    }
  }

  /** The position of the newest message naming `a`. */
  lemma {:induction false} NewestMention(messages: seq<Message>, a: string) returns (i: nat)
    requires LastMention(messages, a).Some?
    ensures i < |messages| && Names(messages[i], a) && messages[i].author == LastMention(messages, a).value
    ensures forall j :: i < j < |messages| ==> !Names(messages[j], a)
    decreases |messages|
  {
    var n := |messages| - 1;
    if Names(messages[n], a) {
      i := n;
    } else {
      var init := messages[..n];
      assert LastMention(messages, a) == LastMention(init, a);
      i := NewestMention(init, a);
      assert messages[i] == init[i];
      forall j | i < j < |messages| ensures !Names(messages[j], a) {
        if j < n {
          assert messages[j] == init[j];
        }
      }
    }
  }

  /** `LastMention` is the author of a message naming `a` that no later message
      names again. */
  lemma LastMentionIsNewest(messages: seq<Message>, a: string)
    ensures LastMention(messages, a).Some? ==>
      exists i :: 0 <= i < |messages| && Names(messages[i], a) && messages[i].author == LastMention(messages, a).value
        && forall j :: i < j < |messages| ==> !Names(messages[j], a)
  {
    if LastMention(messages, a).Some? {
      var i := NewestMention(messages, a);
    }
  }

  /** The scan adds or overwrites exactly the BattleTags named in the messages, each
      bound to the author of its newest mention; every other entry is kept. */
  lemma {:induction false} ScanOverwrites(accounts: map<string, int>, messages: seq<Message>, a: string)
    ensures var after := Scan(accounts, messages);
      match LastMention(messages, a)
      case Some(author) => a in after && after[a] == author
      case None => (a in after <==> a in accounts) && (a in accounts ==> after[a] == accounts[a])
    decreases |messages|
  {
    if |messages| > 0 {
      ScanOverwrites(accounts, messages[..|messages| - 1], a);
    }
  }

  /** Everything the scan stores is a well-formed BattleTag, as long as the table
      started out that way. */
  lemma {:induction false} ScanStoresAccountNames(accounts: map<string, int>, messages: seq<Message>)
    requires forall a :: a in accounts ==> IsAccountName(a)
    ensures forall a :: a in Scan(accounts, messages) ==> IsAccountName(a)
    decreases |messages|
  {
    if |messages| > 0 {
      ScanStoresAccountNames(accounts, messages[..|messages| - 1]);
      AccountShape(messages[|messages| - 1].content);
    }
  }

  /** The `bnet_accounts` table of one server. */
  class AccountBook {
    var accounts: map<string, int>

    constructor (initial: map<string, int>)
      ensures accounts == initial
    {
      accounts := initial;
    }

    /** The message loop of `find_accounts`; the result is `accounts_found`. */
    method ScanMessages(messages: seq<Message>) returns (found: nat)
      modifies this
      ensures accounts == Scan(old(accounts), messages)
      ensures found == Mentions(messages)
    {
      found := 0;
      for i := 0 to |messages|
        invariant accounts == Scan(old(accounts), messages[..i])
        invariant found == Mentions(messages[..i])
      {
        assert messages[..i + 1][..i] == messages[..i];
        var account := AccountIn(messages[i].content);
        if account.Some? {
          accounts := accounts[account.value := messages[i].author];
          found := found + 1;
        }
      }
      assert messages[..|messages|] == messages;
    }
  }
}

=== FILE: config.dfy ===
/** Configuration-key normalisation and loading (modules/config.py).

    `anyascii` (Unicode transliteration) is not modelled: it is handed in as a function,
    and only the steps after it are defined here. Reading the YAML file is not modelled:
    the loader takes the already-parsed top-level entries in file order. */
module Config {
  import opened Text

  /** `s.replace(old, new)` for single characters. */
  function ReplaceChar(s: string, from: char, to: char): (r: string)
    ensures |r| == |s|
    ensures forall i :: 0 <= i < |s| ==> r[i] == (if s[i] == from then to else s[i])
    ensures from != to ==> from !in r
    ensures from == to ==> r == s
  {
    seq(|s|, i requires 0 <= i < |s| => if s[i] == from then to else s[i])
  }

  /** Replacing moves every occurrence of `from` onto `to` and leaves the count of
      every other character alone. */
  lemma {:induction false} ReplaceCharCounts(s: string, from: char, to: char)
    requires from != to
    ensures multiset(ReplaceChar(s, from, to))[from] == 0
    ensures multiset(ReplaceChar(s, from, to))[to] == multiset(s)[to] + multiset(s)[from]
    ensures forall c :: c != from && c != to ==> multiset(ReplaceChar(s, from, to))[c] == multiset(s)[c]
    decreases |s|
  {
    if |s| > 0 {
      ReplaceCharCounts(s[1..], from, to);
      ReplaceCharSplit(s, from, to);
      MultisetCons(ReplaceChar(s, from, to));
      MultisetCons(s);
    }
  }

  lemma MultisetCons(x: string)
    requires |x| > 0
    ensures multiset(x) == multiset{x[0]} + multiset(x[1..])
  {
    assert x == [x[0]] + x[1..];
  }

  /** Replacing in a non-empty text, split at its first character. */
  lemma ReplaceCharSplit(s: string, from: char, to: char)
    requires |s| > 0
    ensures ReplaceChar(s, from, to)[0] == if s[0] == from then to else s[0]
    ensures ReplaceChar(s, from, to)[1..] == ReplaceChar(s[1..], from, to)
  {
    var r, rest := ReplaceChar(s, from, to), ReplaceChar(s[1..], from, to);
    forall i | 0 <= i < |rest|
      ensures r[1..][i] == rest[i]
    {
      assert s[1..][i] == s[i + 1];
    }
  }

  /** What `normalize_str` does after transliteration: lower-case, then spaces and
      hyphens to underscores. */
  function FoldKey(s: string): (r: string)
    ensures |r| == |s|
    ensures forall i :: 0 <= i < |r| ==> r[i] != ' ' && r[i] != '-' && !IsUpperAscii(r[i])
  {
    ReplaceChar(ReplaceChar(Lower(s), ' ', '_'), '-', '_')
  }

  function NormalizeStr(anyAscii: string -> string, s: string): (r: string)
    ensures |r| == |anyAscii(s)|
    ensures forall i :: 0 <= i < |r| ==> r[i] != ' ' && r[i] != '-' && !IsUpperAscii(r[i])
  {
    FoldKey(anyAscii(s))
  }

  /** Folding a folded key changes nothing. */
  lemma FoldKeyIdempotent(s: string)
    ensures FoldKey(FoldKey(s)) == FoldKey(s)
  {
    var once := FoldKey(s);
    var twice := FoldKey(once);
    forall i | 0 <= i < |s|
      ensures twice[i] == once[i]
    {
      assert Lower(once)[i] == LowerChar(once[i]) == once[i];
    }
  }

  /** Each character is mapped on its own: folding commutes with concatenation. */
  lemma FoldKeyConcat(a: string, b: string)
    ensures FoldKey(a + b) == FoldKey(a) + FoldKey(b)
  {
    var l := FoldKey(a + b);
    var r := FoldKey(a) + FoldKey(b);
    forall i | 0 <= i < |a + b|
      ensures l[i] == r[i]
    {
      if i < |a| {
        assert (a + b)[i] == a[i];
      } else {
        assert (a + b)[i] == b[i - |a|];
      }
    }
  }

  /** Whether entry `i` is the last one whose key normalises to the same string. */
  predicate LastWithKey<V>(anyAscii: string -> string, raw: seq<(string, V)>, i: nat)
    requires i < |raw|
  {
    forall j :: i < j < |raw| ==> NormalizeStr(anyAscii, raw[j].0) != NormalizeStr(anyAscii, raw[i].0)
  }

  /** The module-level loop: `config[normalize_str(k)] = v` for every entry in file order. */
  method LoadConfig<V>(anyAscii: string -> string, raw: seq<(string, V)>) returns (config: map<string, V>)
    ensures config.Keys == set i | 0 <= i < |raw| :: NormalizeStr(anyAscii, raw[i].0)
    ensures forall i :: 0 <= i < |raw| && LastWithKey(anyAscii, raw, i) ==>
      config[NormalizeStr(anyAscii, raw[i].0)] == raw[i].1
  {
    config := map[];
    for n := 0 to |raw|
      invariant config.Keys == set i | 0 <= i < n :: NormalizeStr(anyAscii, raw[i].0)
      invariant forall i :: 0 <= i < n && (forall j :: i < j < n ==> NormalizeStr(anyAscii, raw[j].0) != NormalizeStr(anyAscii, raw[i].0)) ==>
        config[NormalizeStr(anyAscii, raw[i].0)] == raw[i].1
    {
      var (k, v) := raw[n];
      config := config[NormalizeStr(anyAscii, k) := v];
    }
  }
}

=== FILE: factoids.dfy ===
/** The eight kinds of fact ("factoid"), their raw scores, their interest weights,
    their one-sentence renderings and their ordering (modules/factoids.py).

    The floating-point transcendental parts of the scoring (powers of ten in the Elo
    win probability, the logistic squashing and the off-race bump) are not computed
    here: they are fields of a `Transcendental` record handed in by the caller. */
module Factoids {
  import opened Wrappers
  import opened Text

  /** One entry of the ordered race-to-games mapping (a Python `Counter`, which keeps
      first-insertion order). A `None` race is a history row without a race. */
  datatype RaceCount = RaceCount(race: Option<string>, games: nat)

  datatype FactKind =
    | MismatchedGame(won: bool, myElo: int, theirElo: int)
    | LongGame(duration: int, won: bool)
    | LongStreak(streak: int, won: bool)
    | EloHigh(elo: int)
    | EloClimb(eloStart: int, eloEnd: int)
    | Promote(league: int)
    | SwitchRace(gamesByRace: seq<RaceCount>)
    | ManyGames(gamesByRace: seq<RaceCount>)

  /** The fields every factoid carries, and its kind-specific part. */
  datatype Fact = Fact(timestamp: int, playerId: int, battleTag: string, playerName: string, kind: FactKind)

  /** The numeric primitives the source takes from `math.exp` and `**` on floats. */
  datatype Transcendental = Transcendental(
    eloOdds: nat -> real,          // d |-> 1 / (10^(d/400) + 1), the weaker side's chance at a gap of d points
    smoidScaling: real -> real,    // x |-> 100 * logistic(0.1 x - 5)
    halfActivation: real -> real)  // x |-> 200 * logistic(0.1 (x - 50)) * (1 - logistic(0.1 (x - 50)))

  // ---------------------------------------------------------------------------
  // Small arithmetic

  function Abs(x: int): (r: nat)
    ensures r == x || r == -x
  {
    if x < 0 then -x else x
  }

  function RealAbs(x: real): (r: real)
    ensures r >= 0.0 && (r == x || r == -x)
  {
    if x < 0.0 then -x else x
  }

  function RealMin(x: real, y: real): (r: real)
    ensures r <= x && r <= y && (r == x || r == y)
  {
    if x <= y then x else y
  }

  function RealMax(x: real, y: real): (r: real)
    ensures r >= x && r >= y && (r == x || r == y)
  {
    if x >= y then x else y
  }

  /** `clamp(x, lo, hi) = max(lo, min(x, hi))`. */
  function Clamp(x: real, lo: real, hi: real): (r: real)
    ensures lo <= hi ==> lo <= r <= hi
    ensures lo <= x <= hi ==> r == x
    ensures hi <= x && lo <= hi ==> r == hi
  {
    RealMax(lo, RealMin(x, hi))
  }

  function Pow(b: real, n: nat): real
  {
    if n == 0 then 1.0 else b * Pow(b, n - 1)
  }

  lemma {:induction false} PowGrows(b: real, m: nat, n: nat)
    requires b >= 1.0 && m <= n
    ensures 1.0 <= Pow(b, m) <= Pow(b, n)
    decreases n
  {
    if n > m {
      PowGrows(b, m, n - 1);
    } else if m > 0 {
      PowGrows(b, m - 1, m - 1);
    }
  }

  lemma FractionBelowOne(x: real, y: real)
    requires 0.0 <= x < y
    ensures 0.0 <= x / y < 1.0
  {
    assert (x / y) * y == x;
  }

  /** Python `int(x)`: truncation toward zero. */
  function Trunc(x: real): (r: int)
    ensures x >= 0.0 ==> r as real <= x < r as real + 1.0
  {
    if x >= 0.0 then x.Floor else -((-x).Floor)
  }

  // ---------------------------------------------------------------------------
  // Interest weights and league names

  /** The class attribute `interest` of each kind. */
  function Interest(k: FactKind): (r: real)
    ensures 0.0 < r <= 1.0
  {
    match k
    case MismatchedGame(_, _, _) => 0.8
    case LongGame(_, _) => 0.6
    case LongStreak(_, _) => 0.6
    case EloHigh(_) => 0.9
    case EloClimb(_, _) => 0.9
    case Promote(_) => 1.0
    case SwitchRace(_) => 0.7
    case ManyGames(_) => 0.6
  }

  /** `Promote.LEAGUE_NAMES`, whose keys are exactly 0..6. */
  const LeagueNames: seq<string> := ["Bronze", "Silver", "Gold", "Platinum", "Diamond", "Master", "Grandmaster"]

  /** Dictionary lookup in LEAGUE_NAMES; `None` is the KeyError of an unknown league. */
  function LeagueName(league: int): (r: Option<string>)
    ensures r.Some? <==> 0 <= league <= 6
  {
    if 0 <= league < |LeagueNames| then Some(LeagueNames[league]) else None
  }

  /** `GAMES_FOR_MAX_INTEREST`. */
  const GamesForMaxInterest: nat := 150

  // ---------------------------------------------------------------------------
  // Race counts

  function Total(c: seq<RaceCount>): (r: nat)
    ensures |c| == 0 ==> r == 0
  {
    if |c| == 0 then 0 else Total(c[..|c| - 1]) + c[|c| - 1].games
  }

  lemma {:induction false} TotalAtLeastEach(c: seq<RaceCount>, i: nat)
    requires i < |c|
    ensures c[i].games <= Total(c)
    decreases |c|
  {
    if i < |c| - 1 {
      TotalAtLeastEach(c[..|c| - 1], i);
    }
  }

  /** `max(games_by_race, key=games_by_race.get)`: Python's `max` returns the first
      entry, in insertion order, that has the largest count. */
  function PrimaryIndex(c: seq<RaceCount>): (k: nat)
    requires |c| > 0
    ensures k < |c|
    ensures forall j :: 0 <= j < |c| ==> c[j].games <= c[k].games
    ensures forall j :: 0 <= j < k ==> c[j].games < c[k].games
    decreases |c|
  {
    if |c| == 1 then 0
    else
      var k := PrimaryIndex(c[..|c| - 1]);
      if c[|c| - 1].games > c[k].games then |c| - 1 else k
  }

  /** How a race is printed by an f-string: the name itself, or "None". */
  function RaceText(race: Option<string>): string
  {
    match race
    case Some(s) => s
    case None => "None"
  }

  // ---------------------------------------------------------------------------
  // Raw scores (`calc_impressive`)

  /** The chance, from my side, that I win: the weaker side's odds, flipped when I am
      the stronger side. */
  function WinChance(myElo: int, theirElo: int, t: Transcendental): real
  {
    var p := t.eloOdds(Abs(myElo - theirElo));
    if myElo > theirElo then 1.0 - p else p
  }

  function MismatchRaw(won: bool, chance: real): real
  {
    if chance < 0.5 then
      if won then RealMax(0.0, 50.0 - 100.0 * chance) + (if chance < 0.3 then 40.0 else 0.0) else 0.0
    else
      if !won && chance > 0.7 then 50.0 * chance else 0.0
  }

  function LongGameRaw(duration: int, won: bool): real
  {
    duration as real / 300.0 + (if won then 30.0 else 0.0)
  }

  /** `min(135, 5 * 1.4 ** streak * (1 + 0.5 * won))`, zero for streaks of at most one. */
  function LongStreakRaw(streak: int, won: bool): (r: real)
    ensures 0.0 <= r <= 135.0
    ensures streak <= 1 ==> r == 0.0
  {
    if streak <= 1 then 0.0
    else
      PowGrows(7.0 / 5.0, 0, streak);
      RealMin(135.0, 5.0 * Pow(7.0 / 5.0, streak) * (if won then 1.5 else 1.0))
  }

  function EloHighRaw(elo: int): real
  {
    elo as real / 500.0
  }

  function EloClimbRaw(eloStart: int, eloEnd: int, t: Transcendental): real
  {
    var chanceBefore := 1.0 - t.eloOdds(Abs(eloEnd - eloStart));
    RealAbs(chanceBefore - 0.5) * 300.0
  }

  /** `100 * (league + 1) / (len(LEAGUE_NAMES) - 1)`, not clamped. */
  function PromoteRaw(league: int): real
  {
    100.0 * (league + 1) as real / (|LeagueNames| - 1) as real
  }

  /** Off-race share: the fraction of games not played as the primary race. */
  function OffraceShare(c: seq<RaceCount>): (r: real)
    requires Total(c) > 0
    ensures 0.0 <= r < 1.0
  {
    var k := PrimaryIndex(c);
    TotalAtLeastEach(c, k);
    assert c[k].games > 0 by {
      if c[k].games == 0 {
        ZeroMaxMeansZeroTotal(c, k);
      }
    }
    var off := (Total(c) - c[k].games) as real;
    var total := Total(c) as real;
    FractionBelowOne(off, total);
    off / total
  }

  lemma {:induction false} ZeroMaxMeansZeroTotal(c: seq<RaceCount>, k: nat)
    requires k < |c| && forall j :: 0 <= j < |c| ==> c[j].games <= c[k].games
    requires c[k].games == 0
    ensures Total(c) == 0
    decreases |c|
  {
    if |c| > 0 && k < |c| - 1 {
      ZeroMaxMeansZeroTotal(c[..|c| - 1], k);
    } else if |c| > 1 {
      ZeroMaxMeansZeroTotal(c[..|c| - 1], 0);
    }
  }

  function SwitchRaceRaw(c: seq<RaceCount>, t: Transcendental): real
  {
    if Total(c) == 0 then 0.0 else t.halfActivation(OffraceShare(c) * 100.0)
  }

  /** `100 * clamp(total / GAMES_FOR_MAX_INTEREST, 0, 1)`, zero for no games. */
  function ManyGamesRaw(c: seq<RaceCount>): (r: real)
    ensures 0.0 <= r <= 100.0
    ensures Total(c) == 0 ==> r == 0.0
    ensures Total(c) >= GamesForMaxInterest ==> r == 100.0
  {
    var total := Total(c);
    if total == 0 then 0.0
    else 100.0 * Clamp(total as real / GamesForMaxInterest as real, 0.0, 1.0)
  }

  function RawScore(k: FactKind, t: Transcendental): real
  {
    match k
    case MismatchedGame(won, myElo, theirElo) => MismatchRaw(won, WinChance(myElo, theirElo, t))
    case LongGame(duration, won) => LongGameRaw(duration, won)
    case LongStreak(streak, won) => LongStreakRaw(streak, won)
    case EloHigh(elo) => EloHighRaw(elo)
    case EloClimb(s, e) => EloClimbRaw(s, e, t)
    case Promote(league) => PromoteRaw(league)
    case SwitchRace(c) => SwitchRaceRaw(c, t)
    case ManyGames(c) => ManyGamesRaw(c)
  }

  /** `impressive()`: the interest weight times the logistic calibration of the raw score. */
  function Impressive(k: FactKind, t: Transcendental): real
  {
    Interest(k) * t.smoidScaling(RawScore(k, t))
  }

  // ---------------------------------------------------------------------------
  // Ordering (`__lt__`)

  predicate Less(a: Fact, b: Fact, t: Transcendental)
  {
    var ia := Impressive(a.kind, t);
    var ib := Impressive(b.kind, t);
    if ia == ib then Interest(a.kind) < Interest(b.kind) else ia < ib
  }

  // ---------------------------------------------------------------------------
  // Rendering (`__str__`)

  /** Where my chance puts me, by the cut points the text uses. */
  datatype Standing = Underdog | Even | Favoured

  function StandingOf(chance: real): (r: Standing)
    ensures r == Underdog <==> chance < 0.3
    ensures r == Favoured <==> chance > 0.7 && !(chance < 0.3)
  {
    if chance < 0.3 then Underdog else if chance > 0.7 then Favoured else Even
  }

  function StandingRank(s: Standing): nat {
    match s
    case Underdog => 0
    case Even => 1
    case Favoured => 2
  }

  /** A better chance never gives a worse standing, and each standing is met by some
      chance in [0, 1]. */
  lemma StandingFollowsChance(x: real, y: real)
    requires x <= y
    ensures StandingRank(StandingOf(x)) <= StandingRank(StandingOf(y))
    ensures StandingOf(0.0) == Underdog && StandingOf(0.5) == Even && StandingOf(1.0) == Favoured
  {
  }

  /** The six sentence openings: won or lost, against a stronger, similar or weaker opponent. */
  function MismatchOpening(won: bool, s: Standing): string
  {
    match (won, s)
    case (true, Underdog) => "Won against a much stronger opponent "
    case (true, Favoured) => "Won against a much weaker opponent. Impressive. "
    case (true, Even) => "Won against an opponent of similar strength "
    case (false, Underdog) => "Fought hard against much stronger opponent "
    case (false, Favoured) => "Bungled a game against a much weaker opponent. Unfortunate. "
    case (false, Even) => "Lost against an opponent of similar strength "
  }

  function MismatchText(won: bool, chance: real): string
  {
    MismatchOpening(won, StandingOf(chance)) + "(~" + IntToString(Trunc(100.0 * chance)) + "% chance to win)"
  }

  /** Whole minutes of a game, Python `duration // 60` (floor division; Dafny's `/` by a
      positive divisor floors as well). */
  function DurationMinutes(duration: int): int
  {
    duration / 60
  }

  function LongGameText(duration: int, won: bool): string
  {
    var mins := DurationMinutes(duration);
    var very := if mins < 20 then "" else "very ";
    (if won then "Won a " else "Lost a ") + very + "long game (" + IntToString(mins) + " mins)"
  }

  function LongStreakText(streak: int, won: bool): string
  {
    (if won then "Won " else "Lost ") + IntToString(streak) + " games in a row"
  }

  function EloHighText(elo: int): string
  {
    "Peaked at " + IntToString(elo) + " elo"
  }

  /** The "Dropped" branch prints a literal minus sign before the (non-positive)
      difference, as the source's f-string does. */
  function EloClimbText(eloStart: int, eloEnd: int): string
  {
    var diff := eloEnd - eloStart;
    if diff > 0 then
      "Climbed" + (" from " + IntToString(eloStart) + " to " + IntToString(eloEnd) + " elo (+" + IntToString(diff) + " points)")
    else
      "Dropped" + (" from " + IntToString(eloStart) + " to " + IntToString(eloEnd) + " elo (-" + IntToString(diff) + " points)")
  }

  function PromoteText(league: int): Option<string>
  {
    match LeagueName(league)
    case Some(name) => Some("Promoted to " + name + " league")
    case None => None
  }

  /** The off-race part of the SwitchRace sentence: one "<games> as <race> (<pct>%), " per entry. */
  function OffraceList(off: seq<RaceCount>, total: nat): string
    requires total > 0
  {
    if |off| == 0 then ""
    else
      var e := off[0];
      NatToString(e.games) + " as " + RaceText(e.race) + " (" + NatToString(100 * e.games / total) + "%), "
        + OffraceList(off[1..], total)
  }

  /** The entries whose race differs from `primary`, in order. */
  function WithoutRace(c: seq<RaceCount>, primary: Option<string>): (r: seq<RaceCount>)
    ensures |r| <= |c|
    ensures forall e :: e in r <==> e in c && e.race != primary
  {
    if |c| == 0 then []
    else if c[0].race == primary then WithoutRace(c[1..], primary)
    else [c[0]] + WithoutRace(c[1..], primary)
  }

  function SwitchRaceText(c: seq<RaceCount>): string
  {
    var total := Total(c);
    if total == 0 then "Didn't play a single game"
    else
      var p := c[PrimaryIndex(c)];
      var off := WithoutRace(c, p.race);
      if |off| == 0 then "Played " + NatToString(p.games) + " games as " + RaceText(p.race)
      else "Played " + OffraceList(off, total) + "normally " + RaceText(p.race)
  }

  /** Whether the primary race has more than three quarters of all games. */
  predicate PrimaryStrong(c: seq<RaceCount>)
    requires Total(c) > 0
  {
    c[PrimaryIndex(c)].games as real / Total(c) as real > 0.75
  }

  /** The clause about the primary race in the ManyGames sentence. */
  function PrimaryClause(c: seq<RaceCount>): string
    requires Total(c) > 0
  {
    var p := c[PrimaryIndex(c)];
    if !PrimaryStrong(c) then ""
    else if p.games == Total(c) then ", and all of them as " + RaceText(p.race)
    else ", and " + NatToString(p.games) + " of them as " + RaceText(p.race)
  }

  function ManyGamesText(c: seq<RaceCount>): string
  {
    var total := Total(c);
    if total == 0 then "Didn't play a single game"
    else
      "Played a total of " + NatToString(total) + " games" + PrimaryClause(c)
        + (if total > 75 then " (wow!)" else "")
  }

  /** `str(fact)`; `None` is the KeyError raised for a league outside LEAGUE_NAMES. */
  function FactText(k: FactKind, t: Transcendental): Option<string>
  {
    match k
    case MismatchedGame(won, myElo, theirElo) => Some(MismatchText(won, WinChance(myElo, theirElo, t)))
    case LongGame(duration, won) => Some(LongGameText(duration, won))
    case LongStreak(streak, won) => Some(LongStreakText(streak, won))
    case EloHigh(elo) => Some(EloHighText(elo))
    case EloClimb(s, e) => Some(EloClimbText(s, e))
    case Promote(league) => PromoteText(league)
    case SwitchRace(c) => Some(SwitchRaceText(c))
    case ManyGames(c) => Some(ManyGamesText(c))
  }

  // ---------------------------------------------------------------------------
  // Properties of the raw scores

  /** Past the early exit, a longer streak never scores less. */
  lemma LongStreakMonotone(a: int, b: int, won: bool)
    requires 2 <= a <= b
    ensures LongStreakRaw(a, won) <= LongStreakRaw(b, won)
  {
    PowGrows(7.0 / 5.0, a, b);
    var w := if won then 1.5 else 1.0;
    assert 5.0 * Pow(7.0 / 5.0, a) * w <= 5.0 * Pow(7.0 / 5.0, b) * w;
  }

  /** A winning streak scores at least as much as a losing streak of the same length. */
  lemma LongStreakWonBeatsLost(n: int)
    ensures LongStreakRaw(n, true) >= LongStreakRaw(n, false)
  {
    if n > 1 {
      PowGrows(7.0 / 5.0, 0, n);
      assert 5.0 * Pow(7.0 / 5.0, n) * 1.5 >= 5.0 * Pow(7.0 / 5.0, n) * 1.0;
    }
  }

  /** Five straight wins: 5 * 1.4^5 * 1.5 = 40.3368. */
  lemma LongStreakFiveWins()
    ensures LongStreakRaw(5, true) == 50421.0 / 1250.0
  {
    assert Pow(7.0 / 5.0, 5) == 16807.0 / 3125.0 by {
      assert Pow(7.0 / 5.0, 2) == 49.0 / 25.0;
      assert Pow(7.0 / 5.0, 3) == 343.0 / 125.0;
      assert Pow(7.0 / 5.0, 4) == 2401.0 / 625.0;
    }
  }

  lemma PowSevenFifthsValues()
    ensures Pow(7.0 / 5.0, 8) == 5764801.0 / 390625.0
    ensures Pow(7.0 / 5.0, 9) == 40353607.0 / 1953125.0
  {
    assert Pow(7.0 / 5.0, 2) == 49.0 / 25.0;
    assert Pow(7.0 / 5.0, 4) == 2401.0 / 625.0 by {
      assert Pow(7.0 / 5.0, 3) == 343.0 / 125.0;
    }
    assert Pow(7.0 / 5.0, 6) == 117649.0 / 15625.0 by {
      assert Pow(7.0 / 5.0, 5) == 16807.0 / 3125.0;
    }
    assert Pow(7.0 / 5.0, 7) == 823543.0 / 78125.0;
  }

  /** The cap of 135 is reached from nine straight wins or ten straight losses on. */
  lemma LongStreakSaturation(n: int, won: bool)
    ensures LongStreakRaw(n, won) == 135.0 <==> (won && n >= 9) || n >= 10
  {
    PowSevenFifthsValues();
    var p8 := Pow(7.0 / 5.0, 8);
    var p9 := Pow(7.0 / 5.0, 9);
    assert Pow(7.0 / 5.0, 10) == 7.0 / 5.0 * p9;
    if n >= 10 {
      PowGrows(7.0 / 5.0, 10, n);
    } else if n == 9 {
    } else if n >= 2 {
      PowGrows(7.0 / 5.0, n, 8);
    }
  }

  /** LongGame: "very long" exactly from 20 whole minutes on. */
  lemma LongGameVeryLong(duration: int, won: bool)
    ensures StartsWith(LongGameText(duration, won), (if won then "Won a " else "Lost a ") + "very ")
        <==> duration / 60 >= 20
  {
    var head := if won then "Won a " else "Lost a ";
    var text := LongGameText(duration, won);
    if duration / 60 < 20 {
      assert text[|head|] == 'l';
      assert (head + "very ")[|head|] == 'v';
    }
  }

  /** Promote: Master scores exactly 100 and Grandmaster 350/3 (about 116.7), so the
      score is not clamped before calibration. */
  lemma PromoteTopLeagues()
    ensures PromoteRaw(5) == 100.0
    ensures PromoteRaw(6) == 350.0 / 3.0 && PromoteRaw(6) > 100.0
  {
  }

  lemma PromoteRawIncreasing(a: int, b: int)
    requires a < b
    ensures PromoteRaw(a) < PromoteRaw(b)
  {
  }

  /** EloHigh: a rating of 5000 scores 10, not the 100 the source's comment expects. */
  lemma EloHighAtFiveThousand()
    ensures EloHighRaw(5000) == 10.0
  {
  }

  // ---------------------------------------------------------------------------
  // MismatchedGame: score and text share the 0.3 / 0.7 cut points

  lemma MismatchRawBounds(won: bool, chance: real)
    requires 0.0 <= chance <= 1.0
    ensures 0.0 <= MismatchRaw(won, chance) <= 90.0
    ensures (chance < 0.5 && !won) || (chance >= 0.5 && won) ==> MismatchRaw(won, chance) == 0.0
  {
  }

  /** The score exceeds 50 exactly when an underdog with less than a 30% chance wins,
      which is the only case that earns the +40 bonus. */
  lemma MismatchBonus(won: bool, chance: real)
    requires 0.0 <= chance <= 1.0
    ensures MismatchRaw(won, chance) > 50.0 <==> won && chance < 0.3
  {
  }

  /** Worked example: a 2600 player beats a 3000 player, whose odds are 1/11. */
  lemma MismatchUnderdogExample()
    ensures MismatchRaw(true, 1.0 / 11.0) == 890.0 / 11.0
  {
  }

  /** Text and score agree on the cut points: a won game scores above 50 exactly when the
      text calls the opponent much stronger, and a lost game scores at all exactly when the
      text calls the opponent much weaker. */
  lemma MismatchTextAgreesWithScore(won: bool, chance: real)
    requires 0.0 <= chance <= 1.0
    ensures won ==> (MismatchRaw(won, chance) > 50.0 <==> StandingOf(chance) == Underdog)
    ensures !won ==> (MismatchRaw(won, chance) > 0.0 <==> StandingOf(chance) == Favoured)
  {
    MismatchBonus(won, chance);
  }

  // ---------------------------------------------------------------------------
  // EloClimb text

  lemma EloClimbDirection(eloStart: int, eloEnd: int)
    ensures StartsWith(EloClimbText(eloStart, eloEnd), "Climbed") <==> eloEnd > eloStart
    ensures StartsWith(EloClimbText(eloStart, eloEnd), "Dropped") <==> eloEnd <= eloStart
  {
    var diff := eloEnd - eloStart;
    var verb := if diff > 0 then "Climbed" else "Dropped";
    var sign := if diff > 0 then " elo (+" else " elo (-";
    var rest := " from " + IntToString(eloStart) + " to " + IntToString(eloEnd) + sign + IntToString(diff) + " points)";
    assert EloClimbText(eloStart, eloEnd) == verb + rest;
    assert "Climbed" != "Dropped" by {
      assert "Climbed"[0] != "Dropped"[0];
    }
    StartsWithWord(verb, rest, "Climbed");
    StartsWithWord(verb, rest, "Dropped");
  }

  lemma DoubleMinusTail(a: string, n: string)
    ensures EndsWith(a + " elo (-" + ("-" + n) + " points)", "(--" + n + " points)")
  {
    var tail := "(--" + n + " points)";
    assert a + " elo (-" + ("-" + n) + " points)" == (a + " elo ") + tail;
    EndsWithConcat(a + " elo ", tail);
  }

  /** A real drop prints two minus signs: the literal one and the difference's own. */
  lemma EloClimbDropDoubleMinus(eloStart: int, eloEnd: int)
    requires eloEnd < eloStart
    ensures EndsWith(EloClimbText(eloStart, eloEnd), "(--" + NatToString(eloStart - eloEnd) + " points)")
  {
    var a := " from " + IntToString(eloStart) + " to " + IntToString(eloEnd);
    var n := NatToString(eloStart - eloEnd);
    assert IntToString(eloEnd - eloStart) == "-" + n;
    DoubleMinusTail(a, n);
    EndsWithPrepend("Dropped", a + " elo (-" + ("-" + n) + " points)", "(--" + n + " points)");
  }

  // ---------------------------------------------------------------------------
  // ManyGames and SwitchRace texts

  lemma ThreeQuartersIff(g: real, t: real)
    requires t > 0.0
    ensures g / t > 0.75 <==> 4.0 * g > 3.0 * t
  {
    var r := g / t;
    assert r * t == g;
    assert 4.0 * g - 3.0 * t == (4.0 * r - 3.0) * t;
  }

  lemma PrimaryStrongIff(c: seq<RaceCount>)
    requires Total(c) > 0
    ensures PrimaryStrong(c) <==> 4 * c[PrimaryIndex(c)].games > 3 * Total(c)
  {
    ThreeQuartersIff(c[PrimaryIndex(c)].games as real, Total(c) as real);
  }

  /** The primary race is mentioned only when it has more than three quarters of the
      games, and the clause says "all of them" exactly when it has every game. */
  lemma ManyGamesPrimaryClause(c: seq<RaceCount>)
    requires Total(c) > 0
    ensures PrimaryClause(c) == "" <==> 4 * c[PrimaryIndex(c)].games <= 3 * Total(c)
    ensures StartsWith(PrimaryClause(c), ", and all of them as ") <==> c[PrimaryIndex(c)].games == Total(c)
  {
    PrimaryStrongIff(c);
    var k := PrimaryIndex(c);
    var clause := PrimaryClause(c);
    var all := ", and all of them as ";
    if PrimaryStrong(c) && c[k].games != Total(c) {
      assert clause[6] == NatToString(c[k].games)[0];
      assert clause[6] != all[6];
    }
  }

  /** "(wow!)" closes the sentence whenever there were more than 75 games; otherwise the
      sentence is the total followed by the primary-race clause. */
  lemma ManyGamesWow(c: seq<RaceCount>)
    requires Total(c) > 0
    ensures Total(c) > 75 ==> EndsWith(ManyGamesText(c), " (wow!)")
    ensures Total(c) <= 75 ==>
      ManyGamesText(c) == "Played a total of " + NatToString(Total(c)) + " games" + PrimaryClause(c)
  {
  }

  /** With a single race entry, the SwitchRace sentence only counts its games. */
  lemma SwitchRaceSingleRace(e: RaceCount)
    requires e.games > 0
    ensures SwitchRaceText([e]) == "Played " + NatToString(e.games) + " games as " + RaceText(e.race)
  {
    assert Total([e]) == e.games;
    assert WithoutRace([e], e.race) == [];
  }

  /** No off-race share exactly when the primary race has every game. */
  lemma OffraceShareZero(c: seq<RaceCount>)
    requires Total(c) > 0
    ensures OffraceShare(c) == 0.0 <==> c[PrimaryIndex(c)].games == Total(c)
  {
    var k := PrimaryIndex(c);
    TotalAtLeastEach(c, k);
    var off := (Total(c) - c[k].games) as real;
    var t := Total(c) as real;
    assert (off / t) * t == off;
  }

  // ---------------------------------------------------------------------------
  // Scoring and ordering

  ghost predicate Monotone(f: real -> real) {
    forall x: real, y: real :: x <= y ==> f(x) <= f(y)
  }

  /** For a fixed interest weight the calibrated score follows the raw score. */
  lemma ImpressiveFollowsRaw(a: FactKind, b: FactKind, t: Transcendental)
    requires Monotone(t.smoidScaling)
    requires Interest(a) == Interest(b)
    requires RawScore(a, t) <= RawScore(b, t)
    ensures Impressive(a, t) <= Impressive(b, t)
  {
    var fa := t.smoidScaling(RawScore(a, t));
    var fb := t.smoidScaling(RawScore(b, t));
    assert fa <= fb;
    assert Interest(a) * fa <= Interest(a) * fb;
  }

  /** `smoid_scaling` is 100 times a logistic, so strictly between 0 and 100. */
  ghost predicate ScalingInRange(f: real -> real) {
    forall x: real :: 0.0 < f(x) < 100.0
  }

  /** Every fact's impressiveness lies strictly between 0 and 100. */
  lemma ImpressiveInRange(k: FactKind, t: Transcendental)
    requires ScalingInRange(t.smoidScaling)
    ensures 0.0 < Impressive(k, t) < 100.0
  {
    var w := Interest(k);
    var v := t.smoidScaling(RawScore(k, t));
    assert 0.0 < v < 100.0;
    assert w * v <= 1.0 * v by {
      assert (1.0 - w) * v >= 0.0;
    }
    assert 0.0 < w * v;
  }

  /** Neither fact is below the other exactly when both their impressiveness and their
      interest weights agree, and that tie is transitive: `__lt__` is a strict weak
      order, which is what `sorted` needs. */
  lemma LessIsStrictWeakOrder(a: Fact, b: Fact, c: Fact, t: Transcendental)
    ensures !Less(a, b, t) && !Less(b, a, t) <==>
      Impressive(a.kind, t) == Impressive(b.kind, t) && Interest(a.kind) == Interest(b.kind)
    ensures !Less(a, b, t) && !Less(b, a, t) && !Less(b, c, t) && !Less(c, b, t) ==>
      !Less(a, c, t) && !Less(c, a, t)
  {
  }

  /** `__lt__` is a strict order: irreflexive, asymmetric and transitive. */
  lemma LessIsStrictOrder(a: Fact, b: Fact, c: Fact, t: Transcendental)
    ensures !Less(a, a, t)
    ensures Less(a, b, t) ==> !Less(b, a, t)
    ensures Less(a, b, t) && Less(b, c, t) ==> Less(a, c, t)
  {
  }
}

=== FILE: match_properties.dfy ===
/** What the match-event extractor promises about one pass: skipped matches are
    invisible, every processed game is counted in exactly one LongStreak fact, the
    elo extremes and the "which came last" flag are the maximum and minimum of the
    processed ratings, the running rating is the current rating with the processed
    changes undone, promotions climb strictly, and the pass raises exactly when a
    processed match lacks its own rating or carries a top-level duration. */
module MatchProperties {
  import opened Wrappers
  import opened Factoids
  import opened ParseFacts

  // ---------------------------------------------------------------------------
  // Reference definitions over the processed matches

  predicate AllPlayed(q: seq<MatchRecord>, cutoff: int) {
    forall i :: 0 <= i < |q| ==> !Skipped(q[i], cutoff)
  }

  /** The matches that pass the skip rules, in list order. */
  function Processed(ms: seq<MatchRecord>, cutoff: int): (q: seq<MatchRecord>)
    ensures AllPlayed(q, cutoff) && |q| <= |ms|
    decreases |ms|
  {
    if |ms| == 0 then []
    else
      var q := Processed(ms[..|ms| - 1], cutoff);
      if Skipped(ms[|ms| - 1], cutoff) then q else q + [ms[|ms| - 1]]
  }

  /** A processed match the extractor gets through: its own rating is present and it
      has no top-level duration. */
  predicate Completes(p: Player, m: MatchRecord)
    requires Playable(m)
  {
    OwnRating(p, m).Some? && m.duration.None?
  }

  /** The player's own team rating in each processed match. */
  function Ratings(p: Player, q: seq<MatchRecord>, cutoff: int): seq<int>
    requires AllPlayed(q, cutoff)
    decreases |q|
  {
    if |q| == 0 then []
    else Ratings(p, q[..|q| - 1], cutoff) + [OwnRating(p, q[|q| - 1]).GetOr(0)]
  }

  /** The player's own league in each processed match. */
  function Leagues(p: Player, q: seq<MatchRecord>, cutoff: int): seq<int>
    requires AllPlayed(q, cutoff)
    decreases |q|
  {
    if |q| == 0 then []
    else Leagues(p, q[..|q| - 1], cutoff) + [OwnLeague(p, q[|q| - 1])]
  }

  /** The rating the processed matches added up to: a win's change counts up, a
      loss's counts down. */
  function RatingGained(p: Player, q: seq<MatchRecord>, cutoff: int): int
    requires AllPlayed(q, cutoff)
    decreases |q|
  {
    if |q| == 0 then 0
    else
      var m := q[|q| - 1];
      var c := MySide(p, m).ratingChange.GetOr(0);
      RatingGained(p, q[..|q| - 1], cutoff) + (if Won(p, m) then c else -c)
  }

  function Kinds(fs: seq<Fact>): seq<FactKind> {
    seq(|fs|, i requires 0 <= i < |fs| => fs[i].kind)
  }

  /** The sum of the lengths reported by LongStreak facts. */
  function StreakTotal(fs: seq<Fact>): int
    decreases |fs|
  {
    if |fs| == 0 then 0
    else StreakTotal(fs[..|fs| - 1]) + (if fs[|fs| - 1].kind.LongStreak? then fs[|fs| - 1].kind.streak else 0)
  }

  /** The leagues of the Promote facts, in order. */
  function PromoteLeagues(fs: seq<Fact>): seq<int>
    decreases |fs|
  {
    if |fs| == 0 then []
    else PromoteLeagues(fs[..|fs| - 1]) + (if fs[|fs| - 1].kind.Promote? then [fs[|fs| - 1].kind.league] else [])
  }

  predicate StrictlyIncreasing(s: seq<int>) {
    forall i, j :: 0 <= i < j < |s| ==> s[i] < s[j]
  }

  function FirstIndex(s: seq<int>, x: int): (k: nat)
    requires x in s
    ensures k < |s| && s[k] == x && x !in s[..k]
  {
    if s[0] == x then 0 else 1 + FirstIndex(s[1..], x)
  }

  predicate IsMax(s: seq<int>, x: int) { x in s && forall i :: 0 <= i < |s| ==> s[i] <= x }
  predicate IsMin(s: seq<int>, x: int) { x in s && forall i :: 0 <= i < |s| ==> x <= s[i] }

  // ---------------------------------------------------------------------------
  // Plumbing

  lemma FoldSnoc(p: Player, name: string, cutoff: int, q: seq<MatchRecord>, m: MatchRecord)
    ensures Fold(p, name, cutoff, q + [m]) == Advance(p, name, cutoff, Fold(p, name, cutoff, q), m)
  {
    assert (q + [m])[..|q|] == q;
  }

  lemma {:induction false} FirstIndexUnique(s: seq<int>, x: int, k: nat)
    requires k < |s| && s[k] == x && x !in s[..k]
    ensures FirstIndex(s, x) == k
  {
    if k > 0 {
      assert s[..k][0] == s[0];
      assert s[1..][k - 1] == x;
      assert s[1..][..k - 1] == s[..k][1..];
      FirstIndexUnique(s[1..], x, k - 1);
    }
  }

  lemma FirstIndexSnoc(s: seq<int>, e: int, x: int)
    requires x in s + [e]
    ensures FirstIndex(s + [e], x) == if x in s then FirstIndex(s, x) else |s|
  {
    if x in s {
      var j := FirstIndex(s, x);
      assert (s + [e])[..j] == s[..j];
      FirstIndexUnique(s + [e], x, j);
    } else {
      assert (s + [e])[..|s|] == s;
      FirstIndexUnique(s + [e], x, |s|);
    }
  }

  lemma StreakTotalConcat(a: seq<Fact>, b: seq<Fact>)
    ensures StreakTotal(a + b) == StreakTotal(a) + StreakTotal(b)
    decreases |b|
  {
    if |b| > 0 {
      assert (a + b)[..|a + b| - 1] == a + b[..|b| - 1];
      StreakTotalConcat(a, b[..|b| - 1]);
    } else {
      assert a + b == a;
    }
  }

  lemma PromoteLeaguesConcat(a: seq<Fact>, b: seq<Fact>)
    ensures PromoteLeagues(a + b) == PromoteLeagues(a) + PromoteLeagues(b)
    decreases |b|
  {
    if |b| > 0 {
      assert (a + b)[..|a + b| - 1] == a + b[..|b| - 1];
      PromoteLeaguesConcat(a, b[..|b| - 1]);
    } else {
      assert a + b == a;
    }
  }

  /** A completed step: the match completes and the state and facts are the stages'. */
  lemma StepParts(p: Player, name: string, st: ExtractionState, m: MatchRecord)
    requires Playable(m) && Step(p, name, st, m).Running?
    ensures Completes(p, m)
    ensures
      var st2 := Rewind(p, TrackExtremes(st, OwnRating(p, m).value), m);
      var st3 := TrackLeague(st2, OwnLeague(p, m));
      var streak := TrackStreak(p, name, m.info.date, st3, Won(p, m));
      && Step(p, name, st, m).state == streak.0
      && Step(p, name, st, m).facts == PromoteFacts(p, name, st2, m) + MismatchFacts(p, name, st3, m) + streak.1
  {
  }

  lemma StepExtremes(p: Player, name: string, st: ExtractionState, m: MatchRecord)
    requires Playable(m) && Step(p, name, st, m).Running?
    ensures var st' := Step(p, name, st, m).state;
      var st1 := TrackExtremes(st, OwnRating(p, m).value);
      st'.highestElo == st1.highestElo && st'.lowestElo == st1.lowestElo
      && st'.highestAfterLowest == st1.highestAfterLowest
  {
    StepParts(p, name, st, m);
  }

  /** A completed step undoes the match's rating change and nothing else touches the
      running rating. */
  lemma StepRating(p: Player, name: string, st: ExtractionState, m: MatchRecord)
    requires Playable(m) && Step(p, name, st, m).Running?
    ensures Step(p, name, st, m).state.currentElo == Unapply(st.currentElo, Won(p, m), MySide(p, m).ratingChange)
  {
    StepParts(p, name, st, m);
  }

  // ---------------------------------------------------------------------------
  // Skipped matches

  /** The pass over the whole list is the pass over the matches it processes. */
  lemma {:induction false} SkippedMatchesAreInvisible(p: Player, name: string, cutoff: int, ms: seq<MatchRecord>)
    ensures Fold(p, name, cutoff, ms) == Fold(p, name, cutoff, Processed(ms, cutoff))
    decreases |ms|
  {
    if |ms| > 0 {
      var init, m := ms[..|ms| - 1], ms[|ms| - 1];
      SkippedMatchesAreInvisible(p, name, cutoff, init);
      if !Skipped(m, cutoff) {
        FoldSnoc(p, name, cutoff, Processed(init, cutoff), m);
      }
    }
  }

  /** One match gets through exactly when it completes. */
  lemma StepRunsIffCompletes(p: Player, name: string, st: ExtractionState, m: MatchRecord)
    requires Playable(m)
    ensures Step(p, name, st, m).Running? <==> Completes(p, m)
  {
  }

  /** Every match of `q` completes exactly when every earlier one and the last do. */
  lemma AllCompleteSnoc(p: Player, cutoff: int, q: seq<MatchRecord>, init: seq<MatchRecord>)
    requires AllPlayed(q, cutoff) && |q| > 0 && init == q[..|q| - 1]
    ensures AllPlayed(init, cutoff)
    ensures (forall i :: 0 <= i < |q| ==> Completes(p, q[i])) <==>
      (forall i :: 0 <= i < |init| ==> Completes(p, init[i])) && Completes(p, q[|q| - 1])
  {
    assert forall i :: 0 <= i < |init| ==> init[i] == q[i];
  }

  /** The pass gets through exactly when every processed match completes. */
  lemma {:induction false} RunsIffAllComplete(p: Player, name: string, cutoff: int, q: seq<MatchRecord>)
    requires AllPlayed(q, cutoff)
    ensures Fold(p, name, cutoff, q).Running? <==> forall i :: 0 <= i < |q| ==> Completes(p, q[i])
    decreases |q|
  {
    if |q| > 0 {
      var init, m := q[..|q| - 1], q[|q| - 1];
      AllCompleteSnoc(p, cutoff, q, init);
      RunsIffAllComplete(p, name, cutoff, init);
      assert !Skipped(m, cutoff);
      var pr := Fold(p, name, cutoff, init);
      assert Fold(p, name, cutoff, q) == Advance(p, name, cutoff, pr, m);
      if pr.Running? {
        StepRunsIffCompletes(p, name, pr.state, m);
      }
    }
  }

  /** `list(parse_player_matches(...))` returns exactly when the name has a '#'
      prefix and every processed match has its own rating and no top-level duration;
      in particular one LongGame-eligible match loses every other fact. */
  lemma ExtractionSucceedsIff(p: Player, ms: seq<MatchRecord>, cutoff: int)
    ensures ExtractMatchFacts(p, ms, cutoff).Ok? <==>
      PlayerName(p.characterName).Some? &&
      forall i :: 0 <= i < |Processed(ms, cutoff)| ==> Completes(p, Processed(ms, cutoff)[i])
  {
    if PlayerName(p.characterName).Some? {
      var name := PlayerName(p.characterName).value;
      SkippedMatchesAreInvisible(p, name, cutoff, ms);
      RunsIffAllComplete(p, name, cutoff, Processed(ms, cutoff));
    }
  }

  /** No LongGame fact ever comes out of the extractor. */
  lemma {:induction false} NoLongGameFacts(p: Player, name: string, cutoff: int, ms: seq<MatchRecord>)
    requires Fold(p, name, cutoff, ms).Running?
    ensures forall k :: k in Kinds(Fold(p, name, cutoff, ms).facts) ==> !k.LongGame?
    decreases |ms|
  {
    if |ms| > 0 {
      var init, m := ms[..|ms| - 1], ms[|ms| - 1];
      NoLongGameFacts(p, name, cutoff, init);
      if !Skipped(m, cutoff) {
        var pr := Fold(p, name, cutoff, init);
        StepParts(p, name, pr.state, m);
        var all := Fold(p, name, cutoff, ms).facts;
        forall k | k in Kinds(all) ensures !k.LongGame? {
          var j :| 0 <= j < |all| && all[j].kind == k;
          if j < |pr.facts| {
            assert Kinds(pr.facts)[j] == k;
          }
        }
      }
    }
  }

  // ---------------------------------------------------------------------------
  // Streaks

  /** Promote and MismatchedGame facts contribute nothing to the streak total. */
  lemma StagesReportNoStreak(p: Player, name: string, st2: ExtractionState, st3: ExtractionState, m: MatchRecord)
    requires Playable(m)
    ensures StreakTotal(PromoteFacts(p, name, st2, m) + MismatchFacts(p, name, st3, m)) == 0
  {
    var promote, mismatch := PromoteFacts(p, name, st2, m), MismatchFacts(p, name, st3, m);
    assert StreakTotal(promote) == 0 by {
      if |promote| > 0 { assert promote[..0] == []; }
    }
    assert StreakTotal(mismatch) == 0 by {
      if |mismatch| > 0 { assert mismatch[..0] == []; }
    }
    StreakTotalConcat(promote, mismatch);
  }

  /** The extremes, rating and league stages leave the streak fields alone. */
  lemma EarlyStagesKeepStreak(p: Player, st: ExtractionState, elo: int, m: MatchRecord)
    requires Playable(m)
    ensures var st3 := TrackLeague(Rewind(p, TrackExtremes(st, elo), m), OwnLeague(p, m));
      st3.streakCount == st.streakCount && st3.streakWon == st.streakWon
  {
  }

  /** The streak stage on its own: extend the run, or report it and start anew. */
  lemma StreakStage(p: Player, name: string, date: int, st: ExtractionState, won: bool)
    ensures var (st', fs) := TrackStreak(p, name, date, st, won);
      if won == st.streakWon then
        st'.streakCount == st.streakCount + 1 && st'.streakWon == st.streakWon && StreakTotal(fs) == 0
      else
        st'.streakCount == 1 && st'.streakWon == won
        && |fs| == 1 && fs[0].kind == LongStreak(st.streakCount, won)
        && StreakTotal(fs) == st.streakCount
  {
    var fs := TrackStreak(p, name, date, st, won).1;
    if won != st.streakWon {
      assert fs[..0] == [];
    }
  }

  /** One step either extends the run (no LongStreak fact) or ends it, reporting the
      run's length with the BREAKING match's outcome as its `won` flag. */
  lemma StreakStep(p: Player, name: string, st: ExtractionState, m: MatchRecord)
    requires Playable(m) && Step(p, name, st, m).Running?
    ensures var r := Step(p, name, st, m);
      if Won(p, m) == st.streakWon then
        r.state.streakCount == st.streakCount + 1 && r.state.streakWon == st.streakWon
        && StreakTotal(r.facts) == 0
      else
        r.state.streakCount == 1 && r.state.streakWon == Won(p, m)
        && |r.facts| > 0 && r.facts[|r.facts| - 1].kind == LongStreak(st.streakCount, !st.streakWon)
        && StreakTotal(r.facts) == st.streakCount
  {
    var won := Won(p, m);
    var elo := OwnRating(p, m).value;
    var st2 := Rewind(p, TrackExtremes(st, elo), m);
    var st3 := TrackLeague(st2, OwnLeague(p, m));
    var streak := TrackStreak(p, name, m.info.date, st3, won);
    var promote, mismatch := PromoteFacts(p, name, st2, m), MismatchFacts(p, name, st3, m);
    var r := Step(p, name, st, m);
    assert r.state == streak.0 && r.facts == (promote + mismatch) + streak.1 by {
      StepParts(p, name, st, m);
    }
    EarlyStagesKeepStreak(p, st, elo, m);
    StreakStage(p, name, m.info.date, st3, won);
    assert StreakTotal(r.facts) == StreakTotal(streak.1) by {
      StagesReportNoStreak(p, name, st2, st3, m);
      StreakTotalConcat(promote + mismatch, streak.1);
    }
  }

  /** Every processed game sits in the running streak or in one reported streak. */
  lemma {:induction false} StreakAccounting(p: Player, name: string, cutoff: int, q: seq<MatchRecord>)
    requires AllPlayed(q, cutoff) && Fold(p, name, cutoff, q).Running?
    ensures StreakTotal(Fold(p, name, cutoff, q).facts) + Fold(p, name, cutoff, q).state.streakCount == |q|
    decreases |q|
  {
    if |q| > 0 {
      var init, m := q[..|q| - 1], q[|q| - 1];
      assert AllPlayed(init, cutoff) by {
        assert forall i :: 0 <= i < |init| ==> init[i] == q[i];
      }
      assert !Skipped(m, cutoff);
      StreakAccounting(p, name, cutoff, init);
      var pr := Fold(p, name, cutoff, init);
      StreakStep(p, name, pr.state, m);
      StreakTotalConcat(pr.facts, Step(p, name, pr.state, m).facts);
    }
  }

  /** The LongStreak facts of a successful extraction add up to the number of
      processed games: no game is lost or counted twice. */
  lemma AllGamesInStreaks(p: Player, ms: seq<MatchRecord>, cutoff: int)
    requires ExtractMatchFacts(p, ms, cutoff).Ok?
    ensures StreakTotal(ExtractMatchFacts(p, ms, cutoff).value) == |Processed(ms, cutoff)|
  {
    var name := PlayerName(p.characterName).value;
    SkippedMatchesAreInvisible(p, name, cutoff, ms);
    StreakAccounting(p, name, cutoff, Processed(ms, cutoff));
    if |ms| > 0 {
      var pr := Fold(p, name, cutoff, ms);
      var tail := EndOfPass(p, name, pr.state, ms);
      StreakTotalConcat(pr.facts, tail);
      var head := if pr.state.streakCount > 0 then [MakeFact(p, name, ms[|ms| - 1].info.date,
        LongStreak(pr.state.streakCount, pr.state.streakWon))] else [];
      var peaks := tail[|head|..];
      assert tail == head + peaks;
      StreakTotalConcat(head, peaks);
      assert StreakTotal(head) == pr.state.streakCount by {
        if |head| > 0 { assert head[..0] == []; }
      }
      assert peaks[..1][..0] == [];
      assert peaks[..|peaks| - 1] == peaks[..1];
    }
  }

  /** When the first processed match is a loss, the extractor reports a losing
      streak of length zero for it. */
  lemma FirstLossReportsEmptyStreak(p: Player, name: string, cutoff: int, ms: seq<MatchRecord>, m: MatchRecord)
    requires Processed(ms, cutoff) == [] && !Skipped(m, cutoff) && !Won(p, m)
    requires Fold(p, name, cutoff, ms + [m]).Running?
    ensures var fs := Fold(p, name, cutoff, ms + [m]).facts;
      |fs| > 0 && fs[|fs| - 1].kind == LongStreak(0, false)
  {
    SkippedMatchesAreInvisible(p, name, cutoff, ms);
    FoldSnoc(p, name, cutoff, ms, m);
    StreakStep(p, name, Initial(p), m);
  }

  // ---------------------------------------------------------------------------
  // Elo extremes and the running rating

  /** The extremes part of the state, against the ratings seen so far. */
  predicate ExtremesAgree(r: seq<int>, st: ExtractionState) {
    if |r| == 0 then
      st.highestAfterLowest.None? && st.highestElo == 0 && st.lowestElo == 0
    else
      && st.highestAfterLowest.Some?
      && IsMax(r, st.highestElo) && IsMin(r, st.lowestElo)
      && (st.highestAfterLowest == Some(true) <==> FirstIndex(r, st.highestElo) >= FirstIndex(r, st.lowestElo))
  }

  lemma ExtremesSnoc(r: seq<int>, st: ExtractionState, elo: int)
    requires ExtremesAgree(r, st)
    ensures ExtremesAgree(r + [elo], TrackExtremes(st, elo))
  {
    if |r| == 0 {
      assert r + [elo] == [elo];
    } else if elo > st.highestElo {
      NewHighest(r, st, elo);
    } else if elo < st.lowestElo {
      NewLowest(r, st, elo);
    } else {
      FirstIndexSnoc(r, elo, st.highestElo);
      FirstIndexSnoc(r, elo, st.lowestElo);
    }
  }

  lemma NewHighest(r: seq<int>, st: ExtractionState, elo: int)
    requires |r| > 0 && ExtremesAgree(r, st) && elo > st.highestElo
    ensures ExtremesAgree(r + [elo], TrackExtremes(st, elo))
  {
    var st' := TrackExtremes(st, elo);
    assert st' == st.(highestAfterLowest := Some(true), highestElo := elo);
    assert elo !in r;
    FirstIndexSnoc(r, elo, elo);
    FirstIndexSnoc(r, elo, st.lowestElo);
  }

  lemma NewLowest(r: seq<int>, st: ExtractionState, elo: int)
    requires |r| > 0 && ExtremesAgree(r, st) && st.lowestElo > elo && elo <= st.highestElo
    ensures ExtremesAgree(r + [elo], TrackExtremes(st, elo))
  {
    var st' := TrackExtremes(st, elo);
    assert st' == st.(highestAfterLowest := Some(false), lowestElo := elo);
    assert elo !in r;
    FirstIndexSnoc(r, elo, elo);
    FirstIndexSnoc(r, elo, st.highestElo);
  }

  /** The tracked extremes are the maximum and minimum processed rating, and the
      flag says whether the maximum first occurs no earlier in the list than the
      minimum. Before any processed match they are the initial zeros. */
  lemma {:induction false} ExtremesTracked(p: Player, name: string, cutoff: int, q: seq<MatchRecord>)
    requires AllPlayed(q, cutoff) && Fold(p, name, cutoff, q).Running?
    ensures ExtremesAgree(Ratings(p, q, cutoff), Fold(p, name, cutoff, q).state)
    decreases |q|
  {
    if |q| > 0 {
      var init, m := q[..|q| - 1], q[|q| - 1];
      assert AllPlayed(init, cutoff) by {
        assert forall i :: 0 <= i < |init| ==> init[i] == q[i];
      }
      assert !Skipped(m, cutoff);
      var st0 := Fold(p, name, cutoff, init).state;
      ExtremesTracked(p, name, cutoff, init);
      StepExtremes(p, name, st0, m);
      ExtremesSnoc(Ratings(p, init, cutoff), st0, OwnRating(p, m).value);
    }
  }

  lemma {:induction false} RatingsLength(p: Player, q: seq<MatchRecord>, cutoff: int)
    requires AllPlayed(q, cutoff)
    ensures |Ratings(p, q, cutoff)| == |q|
    decreases |q|
  {
    if |q| > 0 {
      assert AllPlayed(q[..|q| - 1], cutoff) by {
        assert forall i :: 0 <= i < |q| - 1 ==> q[..|q| - 1][i] == q[i];
      }
      RatingsLength(p, q[..|q| - 1], cutoff);
    }
  }

  /** The running rating is the current rating with every processed match's change
      undone. */
  lemma {:induction false} RunningRatingRewinds(p: Player, name: string, cutoff: int, q: seq<MatchRecord>)
    requires AllPlayed(q, cutoff) && Fold(p, name, cutoff, q).Running?
    ensures Fold(p, name, cutoff, q).state.currentElo == p.currentRating - RatingGained(p, q, cutoff)
    decreases |q|
  {
    if |q| > 0 {
      var init, m := q[..|q| - 1], q[|q| - 1];
      assert AllPlayed(init, cutoff) by {
        assert forall i :: 0 <= i < |init| ==> init[i] == q[i];
      }
      assert !Skipped(m, cutoff);
      RunningRatingRewinds(p, name, cutoff, init);
      var pr := Fold(p, name, cutoff, init);
      assert Fold(p, name, cutoff, q) == Advance(p, name, cutoff, pr, m);
      StepRating(p, name, pr.state, m);
    }
  }

  /** A MismatchedGame fact carries the running rating with this match's change
      undone as well, not the match's own team rating. */
  lemma MismatchUsesRewoundRating(p: Player, name: string, cutoff: int, q: seq<MatchRecord>, m: MatchRecord)
    requires AllPlayed(q + [m], cutoff) && Fold(p, name, cutoff, q + [m]).Running?
    requires OtherSide(p, m).team.value.rating.Some?
    ensures MismatchedGame(Won(p, m), p.currentRating - RatingGained(p, q + [m], cutoff),
                           OtherSide(p, m).team.value.rating.value)
            in Kinds(Fold(p, name, cutoff, q + [m]).facts)
  {
    assert AllPlayed(q, cutoff) && !Skipped(m, cutoff) by {
      assert forall i :: 0 <= i < |q| ==> q[i] == (q + [m])[i];
      assert (q + [m])[|q|] == m;
    }
    FoldRunningSnoc(p, name, cutoff, q, m);
    var pr := Fold(p, name, cutoff, q);
    var step := Step(p, name, pr.state, m);
    var elo := p.currentRating - RatingGained(p, q + [m], cutoff);
    assert elo == Unapply(pr.state.currentElo, Won(p, m), MySide(p, m).ratingChange) by {
      RunningRatingRewinds(p, name, cutoff, q);
      var c := MySide(p, m).ratingChange.GetOr(0);
      assert (q + [m])[..|q|] == q;
      assert RatingGained(p, q + [m], cutoff) == RatingGained(p, q, cutoff) + (if Won(p, m) then c else -c);
    }
    var mismatch := MismatchedGame(Won(p, m), elo, OtherSide(p, m).team.value.rating.value);
    StepMismatch(p, name, pr.state, m, elo);
    KindsAppend(pr.facts, step.facts, mismatch);
  }

  /** A pass that gets through one more processed match got through the earlier ones,
      and the match's step adds its facts. */
  lemma FoldRunningSnoc(p: Player, name: string, cutoff: int, q: seq<MatchRecord>, m: MatchRecord)
    requires !Skipped(m, cutoff) && Fold(p, name, cutoff, q + [m]).Running?
    ensures Fold(p, name, cutoff, q).Running?
    ensures Step(p, name, Fold(p, name, cutoff, q).state, m).Running?
    ensures Fold(p, name, cutoff, q + [m]).state == Step(p, name, Fold(p, name, cutoff, q).state, m).state
    ensures Fold(p, name, cutoff, q + [m]).facts
      == Fold(p, name, cutoff, q).facts + Step(p, name, Fold(p, name, cutoff, q).state, m).facts
  {
    FoldSnoc(p, name, cutoff, q, m);
  }

  /** A completed match against a rated opponent yields a mismatch fact carrying the
      running rating with this match's change undone. */
  lemma StepMismatch(p: Player, name: string, st: ExtractionState, m: MatchRecord, elo: int)
    requires Playable(m) && Step(p, name, st, m).Running?
    requires OtherSide(p, m).team.value.rating.Some?
    requires elo == Unapply(st.currentElo, Won(p, m), MySide(p, m).ratingChange)
    ensures MismatchedGame(Won(p, m), elo, OtherSide(p, m).team.value.rating.value)
            in Kinds(Step(p, name, st, m).facts)
  {
    StepParts(p, name, st, m);
    var st2 := Rewind(p, TrackExtremes(st, OwnRating(p, m).value), m);
    var st3 := TrackLeague(st2, OwnLeague(p, m));
    var fs := Step(p, name, st, m).facts;
    var j := |PromoteFacts(p, name, st2, m)|;
    assert fs[j] == MismatchFacts(p, name, st3, m)[0];
    assert Kinds(fs)[j] == fs[j].kind;
  }

  lemma KindsAppend(a: seq<Fact>, b: seq<Fact>, k: FactKind)
    requires k in Kinds(b)
    ensures k in Kinds(a + b)
  {
    var j :| 0 <= j < |b| && Kinds(b)[j] == k;
    assert Kinds(a + b)[|a| + j] == k;
  }

  // ---------------------------------------------------------------------------
  // Promotions

  /** The league part of the state, against the leagues seen so far and the
      leagues the Promote facts reported. */
  predicate PromotionsAgree(ls: seq<int>, promos: seq<int>, maxLeague: Option<int>, switches: nat) {
    && StrictlyIncreasing(promos)
    && |promos| == switches
    && (maxLeague.None? <==> |ls| == 0)
    && (maxLeague.None? ==> promos == [])
    && (maxLeague.Some? ==>
          IsMax(ls, maxLeague.value) && forall i :: 0 <= i < |promos| ==> promos[i] <= maxLeague.value)
  }

  lemma PromotionsSnoc(ls: seq<int>, promos: seq<int>, st: ExtractionState, league: int)
    requires PromotionsAgree(ls, promos, st.maxLeague, st.leagueSwitches)
    ensures var st' := TrackLeague(st, league);
      PromotionsAgree(ls + [league], promos + (if Promoted(st, league) then [league] else []),
                      st'.maxLeague, st'.leagueSwitches)
  {
    if |ls| == 0 {
      assert ls + [league] == [league];
    }
  }

  /** The promotion stage reports the own league exactly when it is a promotion. */
  lemma PromoteStageLeagues(p: Player, name: string, st: ExtractionState, m: MatchRecord)
    requires Playable(m)
    ensures PromoteLeagues(PromoteFacts(p, name, st, m))
      == if Promoted(st, OwnLeague(p, m)) then [OwnLeague(p, m)] else []
  {
    var promote := PromoteFacts(p, name, st, m);
    if |promote| > 0 { assert promote[..0] == []; }
  }

  /** The mismatch and streak stages report no promotion. */
  lemma LaterStagesPromoteNothing(p: Player, name: string, st: ExtractionState, m: MatchRecord, won: bool)
    requires Playable(m)
    ensures PromoteLeagues(MismatchFacts(p, name, st, m)) == []
    ensures PromoteLeagues(TrackStreak(p, name, m.info.date, st, won).1) == []
  {
    var mismatch := MismatchFacts(p, name, st, m);
    var streak := TrackStreak(p, name, m.info.date, st, won).1;
    if |mismatch| > 0 { assert mismatch[..0] == []; }
    if |streak| > 0 { assert streak[..0] == []; }
  }

  /** The extremes and rating stages leave the league fields alone. */
  lemma RewindKeepsLeague(p: Player, st: ExtractionState, elo: int, m: MatchRecord)
    requires Playable(m)
    ensures var st2 := Rewind(p, TrackExtremes(st, elo), m);
      st2.maxLeague == st.maxLeague && st2.leagueSwitches == st.leagueSwitches
  {
  }

  /** So does the streak stage. */
  lemma StreakKeepsLeague(p: Player, name: string, date: int, st: ExtractionState, won: bool)
    ensures var st' := TrackStreak(p, name, date, st, won).0;
      st'.maxLeague == st.maxLeague && st'.leagueSwitches == st.leagueSwitches
  {
  }

  /** The league stage depends on nothing but the league fields. */
  lemma TrackLeagueOnlyReadsLeague(a: ExtractionState, b: ExtractionState, league: int)
    requires a.maxLeague == b.maxLeague && a.leagueSwitches == b.leagueSwitches
    ensures TrackLeague(a, league).maxLeague == TrackLeague(b, league).maxLeague
    ensures TrackLeague(a, league).leagueSwitches == TrackLeague(b, league).leagueSwitches
    ensures Promoted(a, league) == Promoted(b, league)
  {
  }

  /** The league fields and the Promote facts of one completed step. */
  lemma StepLeague(p: Player, name: string, st: ExtractionState, m: MatchRecord)
    requires Playable(m) && Step(p, name, st, m).Running?
    ensures var r := Step(p, name, st, m);
      var st3 := TrackLeague(st, OwnLeague(p, m));
      && r.state.maxLeague == st3.maxLeague && r.state.leagueSwitches == st3.leagueSwitches
      && PromoteLeagues(r.facts) == (if Promoted(st, OwnLeague(p, m)) then [OwnLeague(p, m)] else [])
  {
    var l := OwnLeague(p, m);
    var elo := OwnRating(p, m).value;
    var st2 := Rewind(p, TrackExtremes(st, elo), m);
    var st3 := TrackLeague(st2, l);
    var streak := TrackStreak(p, name, m.info.date, st3, Won(p, m));
    var promote, mismatch := PromoteFacts(p, name, st2, m), MismatchFacts(p, name, st3, m);
    var r := Step(p, name, st, m);
    assert r.state == streak.0 && r.facts == promote + mismatch + streak.1 by {
      StepParts(p, name, st, m);
    }
    RewindKeepsLeague(p, st, elo, m);
    TrackLeagueOnlyReadsLeague(st2, st, l);
    StreakKeepsLeague(p, name, m.info.date, st3, Won(p, m));
    assert PromoteLeagues(promote + mismatch + streak.1) == PromoteLeagues(promote) by {
      LaterStagesPromoteNothing(p, name, st3, m, Won(p, m));
      PromoteLeaguesConcat(promote + mismatch, streak.1);
      PromoteLeaguesConcat(promote, mismatch);
    }
    PromoteStageLeagues(p, name, st2, m);
  }

  /** Promotions report strictly rising leagues, one per counted league switch,
      never above the highest league seen, which is the largest processed league. */
  lemma {:induction false} PromotionsClimb(p: Player, name: string, cutoff: int, q: seq<MatchRecord>)
    requires AllPlayed(q, cutoff) && Fold(p, name, cutoff, q).Running?
    ensures var pr := Fold(p, name, cutoff, q);
      PromotionsAgree(Leagues(p, q, cutoff), PromoteLeagues(pr.facts), pr.state.maxLeague, pr.state.leagueSwitches)
    decreases |q|
  {
    if |q| > 0 {
      var init, m := q[..|q| - 1], q[|q| - 1];
      assert AllPlayed(init, cutoff) by {
        assert forall i :: 0 <= i < |init| ==> init[i] == q[i];
      }
      assert !Skipped(m, cutoff);
      PromotionsClimb(p, name, cutoff, init);
      var pr0 := Fold(p, name, cutoff, init);
      StepLeague(p, name, pr0.state, m);
      PromoteLeaguesConcat(pr0.facts, Step(p, name, pr0.state, m).facts);
      PromotionsSnoc(Leagues(p, init, cutoff), PromoteLeagues(pr0.facts), pr0.state, OwnLeague(p, m));
    }
  }

  /** The first processed match only records its league; it never yields Promote. */
  lemma FirstMatchNeverPromotes(p: Player, name: string, cutoff: int, ms: seq<MatchRecord>, m: MatchRecord)
    requires Processed(ms, cutoff) == [] && !Skipped(m, cutoff)
    requires Fold(p, name, cutoff, ms + [m]).Running?
    ensures PromoteLeagues(Fold(p, name, cutoff, ms + [m]).facts) == []
  {
    SkippedMatchesAreInvisible(p, name, cutoff, ms);
    FoldSnoc(p, name, cutoff, ms, m);
    assert AllPlayed([m], cutoff);
    assert [] + [m] == [m];
    FoldSnoc(p, name, cutoff, [], m);
    PromotionsClimb(p, name, cutoff, [m]);
  }

  // ---------------------------------------------------------------------------
  // End of the pass

  /** An empty list yields nothing; a list with no processed match still yields the
      peak and climb facts of the initial state, stamped with the last match's date. */
  lemma NothingProcessed(p: Player, ms: seq<MatchRecord>, cutoff: int)
    requires PlayerName(p.characterName).Some? && Processed(ms, cutoff) == []
    ensures |ms| == 0 ==> ExtractMatchFacts(p, ms, cutoff) == Ok([])
    ensures |ms| > 0 ==>
      var name := PlayerName(p.characterName).value;
      var date := ms[|ms| - 1].info.date;
      ExtractMatchFacts(p, ms, cutoff) ==
        Ok([MakeFact(p, name, date, EloHigh(0)), MakeFact(p, name, date, EloClimb(0, 0))])
  {
    var name := PlayerName(p.characterName).value;
    SkippedMatchesAreInvisible(p, name, cutoff, ms);
    if |ms| > 0 {
      var date := ms[|ms| - 1].info.date;
      assert Fold(p, name, cutoff, ms) == Running(Initial(p), []);
      assert EndOfPass(p, name, Initial(p), ms) ==
        [MakeFact(p, name, date, EloHigh(0)), MakeFact(p, name, date, EloClimb(0, 0))];
      assert [] + EndOfPass(p, name, Initial(p), ms) == EndOfPass(p, name, Initial(p), ms);
    }
  }

  /** The last two facts of a successful pass with a processed match are the peak and
      the climb; the climb runs from the minimum to the maximum when the maximum first
      appears no earlier in the list than the minimum, and from the maximum to the
      minimum otherwise. */
  lemma ClimbEndpoints(p: Player, ms: seq<MatchRecord>, cutoff: int)
    requires ExtractMatchFacts(p, ms, cutoff).Ok? && |Processed(ms, cutoff)| > 0
    ensures var fs := ExtractMatchFacts(p, ms, cutoff).value;
      var r := Ratings(p, Processed(ms, cutoff), cutoff);
      exists hi, lo ::
        && IsMax(r, hi) && IsMin(r, lo)
        && |fs| >= 2 && fs[|fs| - 2].kind == EloHigh(hi)
        && fs[|fs| - 1].kind == (if FirstIndex(r, hi) >= FirstIndex(r, lo) then EloClimb(lo, hi) else EloClimb(hi, lo))
  {
    var name := PlayerName(p.characterName).value;
    var q := Processed(ms, cutoff);
    var pr := Fold(p, name, cutoff, ms);
    assert pr == Fold(p, name, cutoff, q) by {
      SkippedMatchesAreInvisible(p, name, cutoff, ms);
    }
    var st := pr.state;
    var r := Ratings(p, q, cutoff);
    assert ExtremesAgree(r, st) && |r| > 0 by {
      ExtremesTracked(p, name, cutoff, q);
      RatingsLength(p, q, cutoff);
    }
    assert ExtractMatchFacts(p, ms, cutoff).value == pr.facts + EndOfPass(p, name, st, ms);
    EndOfPassLastTwo(p, name, st, ms, pr.facts);
    var hi, lo := st.highestElo, st.lowestElo;
    assert IsMax(r, hi) && IsMin(r, lo);
  }

  /** The last two facts of a pass are the peak and the climb. */
  lemma EndOfPassLastTwo(p: Player, name: string, st: ExtractionState, ms: seq<MatchRecord>, fs: seq<Fact>)
    requires |ms| > 0
    ensures var all := fs + EndOfPass(p, name, st, ms);
      var upward := st.highestAfterLowest == Some(true);
      && |all| >= 2
      && all[|all| - 2].kind == EloHigh(st.highestElo)
      && all[|all| - 1].kind == EloClimb(if upward then st.lowestElo else st.highestElo,
                                         if upward then st.highestElo else st.lowestElo)
  {
  }

  /** A 1v1 ladder match of player 1 against player 2. */
  function Ladder(date: int, won: bool, myRating: int): MatchRecord
  {
    MatchRecord(MatchInfo(date, "_1V1"),
      [Side(if won then "WIN" else "LOSS", None, Some(Team(Some([Member(1)]), Some(myRating), 3))),
       Side(if won then "LOSS" else "WIN", None, Some(Team(Some([Member(2)]), None, 3)))],
      None)
  }

  /** The worked example's name is the text before its `#`. */
  lemma ExampleName()
    ensures PlayerName("Ann#123") == Some("Ann")
  {
    assert PlayerName("#123") == Some("");
    assert ['n'] + "" == "n" && ['n'] + "n" == "nn" && ['A'] + "nn" == "Ann";
    assert "n#123"[1..] == "#123" && PlayerName("n#123") == Some("n");
    assert "nn#123"[1..] == "n#123" && PlayerName("nn#123") == Some("nn");
    assert "Ann#123"[1..] == "nn#123";
  }

  /** The worked example's two matches, one step each. */
  lemma ExampleSteps()
    ensures var p := Player(1, "Ann#123", "Ann#123", 3000);
      var st1 := ExtractionState(1, true, 3000, 3000, Some(true), Some(3), 0, 3000);
      var st2 := ExtractionState(2, true, 3000, 2000, Some(false), Some(3), 0, 3000);
      && Step(p, "Ann", Initial(p), Ladder(20, true, 3000)) == Running(st1, [])
      && Step(p, "Ann", st1, Ladder(10, true, 2000)) == Running(st2, [])
  {
  }

  /** With the provider's newest-first order, a player who went from 2000 to 3000 is
      reported as an EloClimb from 3000 to 2000, i.e. as a drop. */
  lemma NewestFirstClimbReadsAsDrop()
    ensures var p := Player(1, "Ann#123", "Ann#123", 3000);
      var ms := [Ladder(20, true, 3000), Ladder(10, true, 2000)];
      ExtractMatchFacts(p, ms, 0).Ok?
      && Last(ExtractMatchFacts(p, ms, 0).value).kind == EloClimb(3000, 2000)
  {
    var p := Player(1, "Ann#123", "Ann#123", 3000);
    var ms := [Ladder(20, true, 3000), Ladder(10, true, 2000)];
    ExampleName();
    ExampleSteps();
    var st1 := ExtractionState(1, true, 3000, 3000, Some(true), Some(3), 0, 3000);
    var st2 := ExtractionState(2, true, 3000, 2000, Some(false), Some(3), 0, 3000);
    assert ms[..1] == [ms[0]] && ms[..1][..0] == [];
    assert Fold(p, "Ann", 0, ms[..1]) == Running(st1, []);
    assert Fold(p, "Ann", 0, ms) == Running(st2, []);
  }

  function Last(fs: seq<Fact>): Fact
    requires |fs| > 0
  {
    fs[|fs| - 1]
  }
}

=== FILE: parse_facts.dfy ===
/** The match-event extractor `parse_player_matches` (modules/parse_facts.py:74-252):
    one pass over a player's match list, carrying a small running state, that yields
    Promote, MismatchedGame, LongGame and LongStreak facts per match and a final
    LongStreak, EloHigh and EloClimb at the end of the pass.

    Dates are already-parsed integers. The match records are the fields of the
    provider's JSON that the extractor reads; a JSON `null` is `None`. A Python
    exception inside the generator aborts the caller's `list(...)`, so every fact
    yielded before it is lost: the model returns `Err` with the reason instead. */
module ParseFacts {
  import opened Wrappers
  import opened Factoids

  datatype Player = Player(characterId: int, battleTag: string, characterName: string, currentRating: int)

  datatype Member = Member(characterId: int)
  datatype Team = Team(members: Option<seq<Member>>, rating: Option<int>, leagueType: int)
  /** One entry of `participants`: the `participant` object's decision and rating
      change, and the (possibly null) `team` object. */
  datatype Side = Side(decision: string, ratingChange: Option<int>, team: Option<Team>)
  datatype MatchInfo = MatchInfo(date: int, matchType: string)
  /** `duration` is the TOP-LEVEL key the extractor tests, not `match.duration`. */
  datatype MatchRecord = MatchRecord(info: MatchInfo, participants: seq<Side>, duration: Option<int>)

  /** Why extraction raised. */
  datatype Crash =
    | NameWithoutHash          // `re.match(...)` is None, so `.group(1)` raises
    | OwnRatingMissing         // own `team.rating` is null: `None > int` raises
    | LongGameWithoutOutcome   // `LongGame(...)` is built without its required `won`
    | MissingDateTime          // a padded history row: `None < cutoff` raises
    | NoDateTimeColumn         // `history['history']['dateTime']` is absent

  /** `re.match(r"^(.*?)#", name).group(1)`: the text before the first '#', provided no
      line break comes before it (`.` does not match a newline). */
  function PlayerName(name: string): (r: Option<string>)
    ensures r.Some? ==> |r.value| < |name| && name[..|r.value|] == r.value && name[|r.value|] == '#'
    ensures r.Some? ==> '#' !in r.value && '\n' !in r.value
    ensures r.None? ==> forall i :: 0 <= i < |name| && name[i] == '#' ==> '\n' in name[..i]
    decreases |name|
  {
    if |name| == 0 then None
    else if name[0] == '#' then Some("")
    else if name[0] == '\n' then None
    else
      match PlayerName(name[1..])
      case None =>
        assert forall i :: 0 <= i < |name| && name[i] == '#' ==> '\n' in name[..i] by {
          forall i | 0 <= i < |name| && name[i] == '#'
            ensures '\n' in name[..i]
          {
            assert name[1..][i - 1] == '#';
            var j :| 0 <= j < i - 1 && name[1..][..i - 1][j] == '\n';
            assert name[..i][j + 1] == '\n';
          }
        }
        None
      case Some(rest) => Some([name[0]] + rest)
  }

  // ---------------------------------------------------------------------------
  // Which matches are processed

  predicate HasMembers(s: Side) {
    s.team.Some? && s.team.value.members.Some?
  }

  /** Exactly two sides, both with a resolvable team membership. */
  predicate Playable(m: MatchRecord) {
    |m.participants| == 2 && HasMembers(m.participants[0]) && HasMembers(m.participants[1])
  }

  /** The skip rules, in the source's order: not two sides, a side without
      `team.members`, dated before the cutoff, not a 1v1. */
  predicate Skipped(m: MatchRecord, cutoff: int) {
    !Playable(m) || m.info.date < cutoff || m.info.matchType != "_1V1"
  }

  /** The side listing the player is "mine"; otherwise the second side is. */
  function MySide(p: Player, m: MatchRecord): (s: Side)
    requires Playable(m)
    ensures HasMembers(s)
    ensures s == m.participants[0] || s == m.participants[1]
    ensures Member(p.characterId) in m.participants[0].team.value.members.value ||
            Member(p.characterId) in m.participants[1].team.value.members.value
        ==> Member(p.characterId) in s.team.value.members.value
  {
    if Member(p.characterId) in m.participants[0].team.value.members.value
    then m.participants[0] else m.participants[1]
  }

  /** The side that is not "mine"; it lists the player only if both sides do. */
  function OtherSide(p: Player, m: MatchRecord): (s: Side)
    requires Playable(m)
    ensures HasMembers(s)
    ensures (MySide(p, m) == m.participants[0] && s == m.participants[1]) ||
            (MySide(p, m) == m.participants[1] && s == m.participants[0])
    ensures Member(p.characterId) in s.team.value.members.value ==>
      Member(p.characterId) in MySide(p, m).team.value.members.value
  {
    if Member(p.characterId) in m.participants[0].team.value.members.value
    then m.participants[1] else m.participants[0]
  }

  function Won(p: Player, m: MatchRecord): bool
    requires Playable(m)
  {
    MySide(p, m).decision == "WIN"
  }

  function OwnLeague(p: Player, m: MatchRecord): int
    requires Playable(m)
  {
    MySide(p, m).team.value.leagueType
  }

  function OwnRating(p: Player, m: MatchRecord): Option<int>
    requires Playable(m)
  {
    MySide(p, m).team.value.rating
  }

  // ---------------------------------------------------------------------------
  // The running state and one step of the pass

  datatype ExtractionState = ExtractionState(
    streakCount: nat,
    streakWon: bool,
    highestElo: int,
    lowestElo: int,
    highestAfterLowest: Option<bool>,
    maxLeague: Option<int>,
    leagueSwitches: nat,
    currentElo: int)

  function Initial(p: Player): ExtractionState
  {
    ExtractionState(0, true, 0, 0, None, None, 0, p.currentRating)
  }

  /** Either the pass raised, or it is still running with this state and these facts. */
  datatype Progress = Crashed(reason: Crash) | Running(state: ExtractionState, facts: seq<Fact>)

  function MakeFact(p: Player, name: string, timestamp: int, k: FactKind): Fact
  {
    Fact(timestamp, p.characterId, p.battleTag, name, k)
  }

  /** The first rating seeds both extremes; a new strict maximum or minimum replaces it
      and records which of the two moved last. */
  function TrackExtremes(st: ExtractionState, elo: int): ExtractionState
  {
    var seeded := if st.highestAfterLowest.None?
      then st.(highestElo := elo, lowestElo := elo, highestAfterLowest := Some(true)) else st;
    if elo > seeded.highestElo then seeded.(highestAfterLowest := Some(true), highestElo := elo)
    else if elo < seeded.lowestElo then seeded.(highestAfterLowest := Some(false), lowestElo := elo)
    else seeded
  }

  /** Undo one match's rating change to step back to the rating before it. */
  function Unapply(elo: int, won: bool, change: Option<int>): int
  {
    match change
    case None => elo
    case Some(c) => if won then elo - c else elo + c
  }

  /** A strictly higher league than any seen so far is a promotion; the first
      processed match only records its league. */
  function Promoted(st: ExtractionState, league: int): bool
  {
    st.maxLeague.Some? && league > st.maxLeague.value
  }

  function TrackLeague(st: ExtractionState, league: int): ExtractionState
  {
    if st.maxLeague.None? then st.(maxLeague := Some(league))
    else if Promoted(st, league) then st.(leagueSwitches := st.leagueSwitches + 1, maxLeague := Some(league))
    else st
  }

  /** The outcome extends the current run, or ends it and yields its length. */
  function TrackStreak(p: Player, name: string, date: int, st: ExtractionState, won: bool): (ExtractionState, seq<Fact>)
  {
    if won == st.streakWon then (st.(streakCount := st.streakCount + 1), [])
    else (st.(streakCount := 1, streakWon := won), [MakeFact(p, name, date, LongStreak(st.streakCount, won))])
  }

  /** Undo the match's rating change on the running rating. */
  function Rewind(p: Player, st: ExtractionState, m: MatchRecord): ExtractionState
    requires Playable(m)
  {
    st.(currentElo := Unapply(st.currentElo, Won(p, m), MySide(p, m).ratingChange))
  }

  function PromoteFacts(p: Player, name: string, st: ExtractionState, m: MatchRecord): seq<Fact>
    requires Playable(m)
  {
    if Promoted(st, OwnLeague(p, m)) then [MakeFact(p, name, m.info.date, Promote(OwnLeague(p, m)))] else []
  }

  /** A rated opponent makes a MismatchedGame fact carrying the rewound rating. */
  function MismatchFacts(p: Player, name: string, st: ExtractionState, m: MatchRecord): seq<Fact>
    requires Playable(m)
  {
    var theirRating := OtherSide(p, m).team.value.rating;
    if theirRating.Some? then [MakeFact(p, name, m.info.date, MismatchedGame(Won(p, m), st.currentElo, theirRating.value))]
    else []
  }

  /** The facts one processed match yields, and the state after it. */
  function Step(p: Player, name: string, st: ExtractionState, m: MatchRecord): Progress
    requires Playable(m)
  {
    match OwnRating(p, m)
    case None => Crashed(OwnRatingMissing)
    case Some(elo) =>
      if m.duration.Some? then Crashed(LongGameWithoutOutcome)
      else
        var st2 := Rewind(p, TrackExtremes(st, elo), m);
        var st3 := TrackLeague(st2, OwnLeague(p, m));
        var streak := TrackStreak(p, name, m.info.date, st3, Won(p, m));
        Running(streak.0, PromoteFacts(p, name, st2, m) + MismatchFacts(p, name, st3, m) + streak.1)
  }

  /** One iteration of the loop: a skipped match changes nothing, a raise is final. */
  function Advance(p: Player, name: string, cutoff: int, pr: Progress, m: MatchRecord): Progress
  {
    match pr
    case Crashed(c) => Crashed(c)
    case Running(st, fs) =>
      if Skipped(m, cutoff) then pr
      else
        match Step(p, name, st, m)
        case Crashed(c) => Crashed(c)
        case Running(st', more) => Running(st', fs + more)
  }

  /** The pass over a prefix of the match list. */
  function Fold(p: Player, name: string, cutoff: int, ms: seq<MatchRecord>): Progress
    decreases |ms|
  {
    if |ms| == 0 then Running(Initial(p), [])
    else Advance(p, name, cutoff, Fold(p, name, cutoff, ms[..|ms| - 1]), ms[|ms| - 1])
  }

  /** The facts after the loop: the pending streak, the peak and the climb, all stamped
      with the date of the LAST match of the list (processed or not). */
  function EndOfPass(p: Player, name: string, st: ExtractionState, ms: seq<MatchRecord>): seq<Fact>
    requires |ms| > 0
  {
    var date := ms[|ms| - 1].info.date;
    var upward := st.highestAfterLowest == Some(true);
    (if st.streakCount > 0 then [MakeFact(p, name, date, LongStreak(st.streakCount, st.streakWon))] else [])
    + [MakeFact(p, name, date, EloHigh(st.highestElo)),
       MakeFact(p, name, date, EloClimb(if upward then st.lowestElo else st.highestElo,
                                        if upward then st.highestElo else st.lowestElo))]
  }

  /** What `list(parse_player_matches(player, matches, cutoff))` evaluates to. */
  function ExtractMatchFacts(p: Player, ms: seq<MatchRecord>, cutoff: int): Result<seq<Fact>, Crash>
  {
    match PlayerName(p.characterName)
    case None => Err(NameWithoutHash)
    case Some(name) =>
      match Fold(p, name, cutoff, ms)
      case Crashed(c) => Err(c)
      case Running(st, fs) => Ok(if |ms| == 0 then fs else fs + EndOfPass(p, name, st, ms))
  }

  /** Once the pass has raised, longer lists raise too. */
  lemma {:induction false} CrashPersists(p: Player, name: string, cutoff: int, ms: seq<MatchRecord>, k: nat)
    requires k <= |ms| && Fold(p, name, cutoff, ms[..k]).Crashed?
    ensures Fold(p, name, cutoff, ms) == Fold(p, name, cutoff, ms[..k])
    decreases |ms| - k
  {
    if k < |ms| {
      assert ms[..k + 1][..k] == ms[..k];
      CrashPersists(p, name, cutoff, ms, k + 1);
    } else {
      assert ms[..k] == ms;
    }
  }

  // ---------------------------------------------------------------------------
  // The extractor as the source writes it

  /** Seed the extremes with the first rating, then keep the strict maximum and
      minimum and which of them moved last. */
  method UpdateExtremes(st: ExtractionState, elo: int) returns (s: ExtractionState)
    ensures s == TrackExtremes(st, elo)
  {
    s := st;
    if s.highestAfterLowest.None? {
      s := s.(highestElo := elo, lowestElo := elo, highestAfterLowest := Some(true));
    }
    if elo > s.highestElo {
      s := s.(highestAfterLowest := Some(true), highestElo := elo);
    } else if elo < s.lowestElo {
      s := s.(highestAfterLowest := Some(false), lowestElo := elo);
    }
  }

  /** Extend the current run, or end it with a LongStreak fact and start a new one. */
  method UpdateStreak(p: Player, name: string, date: int, st: ExtractionState, won: bool)
    returns (s: ExtractionState, yielded: seq<Fact>)
    ensures s == TrackStreak(p, name, date, st, won).0
    ensures yielded == TrackStreak(p, name, date, st, won).1
  {
    s, yielded := st, [];
    if won {
      if s.streakWon {
        s := s.(streakCount := s.streakCount + 1);
      } else {
        yielded := [MakeFact(p, name, date, LongStreak(s.streakCount, true))];
        s := s.(streakCount := 1, streakWon := true);
      }
    } else {
      if !s.streakWon {
        s := s.(streakCount := s.streakCount + 1);
      } else {
        yielded := [MakeFact(p, name, date, LongStreak(s.streakCount, false))];
        s := s.(streakCount := 1, streakWon := false);
      }
    }
  }

  /** The body of the loop for a match that passed the skip rules: the facts it
      yields, the state it leaves, or the reason it raises. */
  method ProcessMatch(p: Player, name: string, st: ExtractionState, m: MatchRecord) returns (outcome: Progress)
    requires Playable(m)
    ensures outcome == Step(p, name, st, m)
  {
    var s := st;
    var yielded: seq<Fact> := [];

    var teamZero, teamOne := m.participants[0], m.participants[1];
    var myTeam, otherTeam;
    if Member(p.characterId) in teamZero.team.value.members.value {
      myTeam, otherTeam := teamZero, teamOne;
    } else {
      myTeam, otherTeam := teamOne, teamZero;
    }
    assert myTeam == MySide(p, m) && otherTeam == OtherSide(p, m);

    var won := myTeam.decision == "WIN";
    var currDivision := myTeam.team.value.leagueType;
    if myTeam.team.value.rating.None? {
      return Crashed(OwnRatingMissing);
    }
    var elo := myTeam.team.value.rating.value;

    s := UpdateExtremes(s, elo);

    if myTeam.ratingChange.Some? {
      if won {
        s := s.(currentElo := s.currentElo - myTeam.ratingChange.value);
      } else {
        s := s.(currentElo := s.currentElo + myTeam.ratingChange.value);
      }
    }
    ghost var st2 := s;
    assert st2 == Rewind(p, TrackExtremes(st, elo), m);

    if s.maxLeague.None? {
      s := s.(maxLeague := Some(currDivision));
    } else if currDivision > s.maxLeague.value {
      s := s.(leagueSwitches := s.leagueSwitches + 1, maxLeague := Some(currDivision));
      yielded := yielded + [MakeFact(p, name, m.info.date, Promote(s.maxLeague.value))];
    }
    assert s == TrackLeague(st2, currDivision);
    assert yielded == PromoteFacts(p, name, st2, m);

    if otherTeam.team.value.rating.Some? {
      yielded := yielded + [MakeFact(p, name, m.info.date,
        MismatchedGame(won, s.currentElo, otherTeam.team.value.rating.value))];
    }

    if m.duration.Some? {
      return Crashed(LongGameWithoutOutcome);
    }
    ghost var st3 := s;
    assert yielded == PromoteFacts(p, name, st2, m) + MismatchFacts(p, name, st3, m);

    var ended;
    s, ended := UpdateStreak(p, name, m.info.date, s, won);
    yielded := yielded + ended;
    return Running(s, yielded);
  }

  /** The loop of `parse_player_matches` over the match list: skipped matches are
      passed over and the first raise ends the pass. */
  method PassOverMatches(p: Player, name: string, matches: seq<MatchRecord>, cutoff: int) returns (pr: Progress)
    ensures pr == Fold(p, name, cutoff, matches)
  {
    var st := Initial(p);
    var facts: seq<Fact> := [];
    for i := 0 to |matches|
      invariant Fold(p, name, cutoff, matches[..i]) == Running(st, facts)
    {
      var m := matches[i];
      assert Fold(p, name, cutoff, matches[..i + 1]) == Advance(p, name, cutoff, Running(st, facts), m) by {
        assert matches[..i + 1][..i] == matches[..i];
      }
      if |m.participants| != 2 { continue; }
      if !HasMembers(m.participants[0]) { continue; }
      if !HasMembers(m.participants[1]) { continue; }
      if m.info.date < cutoff { continue; }
      if m.info.matchType != "_1V1" { continue; }

      var outcome := ProcessMatch(p, name, st, m);
      if outcome.Crashed? {
        CrashPersists(p, name, cutoff, matches, i + 1);
        return outcome;
      }
      st, facts := outcome.state, facts + outcome.facts;
    }
    assert matches[..|matches|] == matches;
    return Running(st, facts);
  }

  method ParsePlayerMatches(p: Player, matches: seq<MatchRecord>, cutoff: int) returns (r: Result<seq<Fact>, Crash>)
    ensures r == ExtractMatchFacts(p, matches, cutoff)
  {
    var nameMatch := PlayerName(p.characterName);
    if nameMatch.None? {
      return Err(NameWithoutHash);
    }
    var name := nameMatch.value;

    var pass := PassOverMatches(p, name, matches, cutoff);
    if pass.Crashed? {
      return Err(pass.reason);
    }
    var st, facts := pass.state, pass.facts;
    if |matches| > 0 {
      var date := matches[|matches| - 1].info.date;
      var upward := st.highestAfterLowest == Some(true);
      var tail: seq<Fact> := [];
      if st.streakCount > 0 {
        tail := [MakeFact(p, name, date, LongStreak(st.streakCount, st.streakWon))];
      }
      tail := tail + [MakeFact(p, name, date, EloHigh(st.highestElo))];
      tail := tail + [MakeFact(p, name, date, EloClimb(
        if upward then st.lowestElo else st.highestElo,
        if upward then st.highestElo else st.lowestElo))];
      assert tail == EndOfPass(p, name, st, matches);
      facts := facts + tail;
    }
    return Ok(facts);
  }
}

=== FILE: parse_history.dfy ===
/** The history parser `parse_player_history` (modules/parse_facts.py:10-72) and the
    composition `parse_player_facts` (modules/parse_facts.py:256-271).

    The provider's history object holds one column per statistic. The parser zips the
    columns to the length of the longest, padding short ones with `None`, lower-cases
    the race, keeps the rows of the ranked queue (201) dated at or after the cutoff,
    counts the kept rows per race and yields a SwitchRace and a ManyGames fact over
    those counts. Only the race, dateTime and queueType columns are read; the other
    columns matter only through their lengths. */
module ParseHistory {
  import opened Wrappers
  import opened Text
  import opened Factoids
  import opened ParseFacts

  /** The queue type of ranked 1v1 matchmaking. */
  const RankedQueue := 201

  /** The columns the parser reads (an absent column is empty), whether the dateTime
      column is present at all, and the lengths of the other columns. */
  datatype History = History(
    race: seq<Option<string>>,
    dateTime: Option<seq<int>>,
    queueType: seq<Option<int>>,
    otherLengths: seq<nat>)

  /** One zipped row; `None` is a padded or null cell. */
  datatype Row = Row(race: Option<string>, date: Option<int>, queueType: Option<int>)

  function MaxNat(a: nat, b: nat): nat {
    if a >= b then a else b
  }

  function MaxLength(ls: seq<nat>): (n: nat)
    ensures forall i :: 0 <= i < |ls| ==> ls[i] <= n
    ensures |ls| > 0 ==> n in ls
  {
    if |ls| == 0 then 0 else MaxNat(ls[0], MaxLength(ls[1..]))
  }

  /** `zip_longest` runs to the longest column. */
  function RowCount(h: History, dates: seq<int>): (n: nat)
    ensures n >= |h.race| && n >= |dates| && n >= |h.queueType|
    ensures forall i :: 0 <= i < |h.otherLengths| ==> h.otherLengths[i] <= n
  {
    MaxNat(MaxNat(|h.race|, |dates|), MaxNat(|h.queueType|, MaxLength(h.otherLengths)))
  }

  function Cell<T>(column: seq<T>, i: nat): Option<T> {
    if i < |column| then Some(column[i]) else None
  }

  /** Row `i` of the zip, with the race lower-cased. */
  function RowAt(h: History, dates: seq<int>, i: nat): (row: Row)
    ensures row.date.Some? <==> i < |dates|
    ensures row.date.Some? ==> row.date.value == dates[i]
    ensures row.queueType.Some? <==> i < |h.queueType| && h.queueType[i].Some?
    ensures row.queueType.Some? ==> row.queueType == h.queueType[i]
    ensures row.race.Some? <==> i < |h.race| && h.race[i].Some?
    ensures row.race.Some? ==> row.race.value == Lower(h.race[i].value)
  {
    var race := if i < |h.race| then h.race[i] else None;
    Row(if race.Some? then Some(Lower(race.value)) else None,
        Cell(dates, i),
        if i < |h.queueType| then h.queueType[i] else None)
  }

  predicate Keep(row: Row, cutoff: int)
    requires row.date.Some?
  {
    row.date.value >= cutoff && row.queueType == Some(RankedQueue)
  }

  /** The rows among the first `n` that the filter keeps, in order; every one of them
      lies before the end of the dateTime column. */
  function KeptRows(h: History, dates: seq<int>, cutoff: int, n: nat): (kept: seq<Row>)
    requires n <= |dates|
    ensures forall j :: 0 <= j < |kept| ==> kept[j].date.Some? && Keep(kept[j], cutoff)
    ensures |kept| <= n
  {
    if n == 0 then []
    else
      var row := RowAt(h, dates, n - 1);
      KeptRows(h, dates, cutoff, n - 1) + (if Keep(row, cutoff) then [row] else [])
  }

  /** The loop over the zipped rows: either the kept rows, or the raise on the first
      row past the end of the dateTime column. */
  method FilterRows(h: History, dates: seq<int>, cutoff: int) returns (r: Result<seq<Row>, Crash>)
    ensures RowCount(h, dates) > |dates| ==> r == Err(MissingDateTime)
    ensures RowCount(h, dates) <= |dates| ==> r == Ok(KeptRows(h, dates, cutoff, |dates|))
  {
    var n := RowCount(h, dates);
    var kept: seq<Row> := [];
    for i := 0 to n
      invariant i <= |dates|
      invariant kept == KeptRows(h, dates, cutoff, i)
    {
      var row := RowAt(h, dates, i);
      if row.date.None? {
        return Err(MissingDateTime);
      }
      if row.date.value < cutoff {
        continue;
      }
      if row.queueType != Some(RankedQueue) {
        continue;
      }
      kept := kept + [row];
    }
    return Ok(kept);
  }

  // ---------------------------------------------------------------------------
  // Counting races (`collections.Counter`, which keeps first-occurrence order)

  function Races(c: seq<RaceCount>): seq<Option<string>> {
    seq(|c|, i requires 0 <= i < |c| => c[i].race)
  }

  predicate Distinct<T(==)>(s: seq<T>) {
    forall i, j :: 0 <= i < j < |s| ==> s[i] != s[j]
  }

  function Occurrences<T(==)>(s: seq<T>, x: T): nat
    decreases |s|
  {
    if |s| == 0 then 0
    else Occurrences(s[..|s| - 1], x) + (if s[|s| - 1] == x then 1 else 0)
  }

  /** The distinct elements of `s`, each where it first occurs. */
  function Dedup(s: seq<Option<string>>): (d: seq<Option<string>>)
    ensures forall x :: x in d <==> x in s
    ensures Distinct(d)
    decreases |s|
  {
    if |s| == 0 then []
    else
      var init, last := s[..|s| - 1], s[|s| - 1];
      assert forall x :: x in s <==> x in init || x == last by {
        assert s == init + [last];
      }
      Dedup(init) + (if last in init then [] else [last])
  }

  lemma {:induction false} OccurrencesAbsent<T>(s: seq<T>, x: T)
    ensures x !in s ==> Occurrences(s, x) == 0
    decreases |s|
  {
    if |s| > 0 && x !in s {
      assert s[..|s| - 1] <= s;
      OccurrencesAbsent(s[..|s| - 1], x);
    }
  }

  function RaceIndex(c: seq<RaceCount>, r: Option<string>): (k: nat)
    requires r in Races(c)
    ensures k < |c| && c[k].race == r
  {
    if c[0].race == r then 0
    else
      assert Races(c[1..]) == Races(c)[1..];
      1 + RaceIndex(c[1..], r)
  }

  lemma {:induction false} TotalUpdate(c: seq<RaceCount>, k: nat, e: RaceCount)
    requires k < |c|
    ensures Total(c[k := e]) == Total(c) - c[k].games + e.games
    decreases |c|
  {
    var c' := c[k := e];
    if k < |c| - 1 {
      assert c'[..|c'| - 1] == c[..|c| - 1][k := e];
      TotalUpdate(c[..|c| - 1], k, e);
    } else {
      assert c'[..|c'| - 1] == c[..|c| - 1];
    }
  }

  /** Count one more game of race `r`: its entry goes up by one, or a new entry is
      appended at the end. */
  function Bump(c: seq<RaceCount>, r: Option<string>): (c': seq<RaceCount>)
    requires Distinct(Races(c))
    ensures r in Races(c) ==> |c'| == |c|
    ensures r !in Races(c) ==> |c'| == |c| + 1 && c'[|c|] == RaceCount(r, 1)
    ensures forall i :: 0 <= i < |c| ==>
      c'[i].race == c[i].race && c'[i].games == c[i].games + (if c[i].race == r then 1 else 0)
    ensures Total(c') == Total(c) + 1
  {
    assert forall i :: 0 <= i < |c| ==> Races(c)[i] == c[i].race;
    if r in Races(c) then
      var k := RaceIndex(c, r);
      assert forall i :: 0 <= i < |c| && i != k ==> Races(c)[i] != Races(c)[k];
      TotalUpdate(c, k, RaceCount(r, c[k].games + 1));
      c[k := RaceCount(r, c[k].games + 1)]
    else
      assert (c + [RaceCount(r, 1)])[..|c|] == c;
      c + [RaceCount(r, 1)]
  }

  /** The races after counting one more game of `r`: unchanged, or `r` appended. */
  lemma BumpRaces(c: seq<RaceCount>, r: Option<string>)
    requires Distinct(Races(c))
    ensures Races(Bump(c, r)) == if r in Races(c) then Races(c) else Races(c) + [r]
  {
    var c' := Bump(c, r);
    assert forall i :: 0 <= i < |c| ==> Races(c')[i] == Races(c)[i];
  }

  /** One more race keeps the counts right: the invariant of the `Counter` loop. */
  lemma CountStep(rs: seq<Option<string>>, c0: seq<RaceCount>)
    requires |rs| > 0
    requires Distinct(Races(c0))
    requires forall x :: x in rs[..|rs| - 1] <==> x in Races(c0)
    requires forall i :: 0 <= i < |c0| ==> c0[i].games == Occurrences(rs[..|rs| - 1], c0[i].race) && c0[i].games > 0
    requires Total(c0) == |rs| - 1
    ensures var c := Bump(c0, rs[|rs| - 1]);
      && Distinct(Races(c))
      && (forall x :: x in rs <==> x in Races(c))
      && (forall i :: 0 <= i < |c| ==> c[i].games == Occurrences(rs, c[i].race) && c[i].games > 0)
      && Total(c) == |rs|
  {
    var init, r := rs[..|rs| - 1], rs[|rs| - 1];
    var c := Bump(c0, r);
    BumpRaces(c0, r);
    assert forall x :: x in rs <==> x in init || x == r by {
      assert rs == init + [r];
    }
    assert Distinct(Races(c)) by {
      if r !in Races(c0) {
        assert forall i :: 0 <= i < |c0| ==> Races(c)[i] == Races(c0)[i];
      }
    }
    assert forall x :: Occurrences(rs, x) == Occurrences(init, x) + (if x == r then 1 else 0);
    OccurrencesAbsent(init, r);
  }

  /** `Counter(races)`: one entry per distinct race, holding how often it occurs. */
  function CountRaces(rs: seq<Option<string>>): (c: seq<RaceCount>)
    ensures Distinct(Races(c))
    ensures forall r :: r in rs <==> r in Races(c)
    ensures forall i :: 0 <= i < |c| ==> c[i].games == Occurrences(rs, c[i].race) && c[i].games > 0
    ensures Total(c) == |rs|
    ensures Races(c) == Dedup(rs)
    decreases |rs|
  {
    if |rs| == 0 then []
    else
      var c0 := CountRaces(rs[..|rs| - 1]);
      CountStep(rs, c0);
      BumpRaces(c0, rs[|rs| - 1]);
      Bump(c0, rs[|rs| - 1])
  }

  /** With one game each, the race played first is listed first, so it is the one
      `max` picks as the primary race. */
  lemma CountRacesFirstSeen(first: Option<string>, second: Option<string>)
    requires first != second
    ensures CountRaces([first, second]) == [RaceCount(first, 1), RaceCount(second, 1)]
  {
    var rs := [first, second];
    var one := [first];
    assert rs[..1] == one && one[..0] == [];
    assert Dedup(one) == one;
    assert Dedup(rs) == rs;
    assert Occurrences(one, first) == 1 && Occurrences(one, second) == 0;
    assert Occurrences(rs, first) == 1 && Occurrences(rs, second) == 1;
    var c := CountRaces(rs);
    assert |c| == 2 && c[0].race == first && c[1].race == second by {
      assert Races(c) == rs;
    }
  }

  /** The race column of the kept rows. */
  function KeptRaces(rows: seq<Row>): seq<Option<string>> {
    seq(|rows|, i requires 0 <= i < |rows| => rows[i].race)
  }

  function MaxInt(s: seq<int>): (x: int)
    requires |s| > 0
    ensures x in s && forall i :: 0 <= i < |s| ==> s[i] <= x
  {
    if |s| == 1 then s[0]
    else
      var rest := MaxInt(s[1..]);
      if s[0] >= rest then s[0] else rest
  }

  /** The two history facts, stamped with the latest date of the WHOLE dateTime
      column (kept or not); nothing when no row is kept. */
  function HistoryFacts(p: Player, name: string, dates: seq<int>, kept: seq<Row>): (fs: seq<Fact>)
    requires |kept| > 0 ==> |dates| > 0
  {
    if |kept| == 0 then []
    else
      var counts := CountRaces(KeptRaces(kept));
      var date := MaxInt(dates);
      [MakeFact(p, name, date, SwitchRace(counts)), MakeFact(p, name, date, ManyGames(counts))]
  }

  /** What `list(parse_player_history(player, history, cutoff))` evaluates to. */
  function ExtractHistoryFacts(p: Player, h: History, cutoff: int): Result<seq<Fact>, Crash>
  {
    match PlayerName(p.characterName)
    case None => Err(NameWithoutHash)
    case Some(name) =>
      match h.dateTime
      case None => Err(NoDateTimeColumn)
      case Some(dates) =>
        if RowCount(h, dates) > |dates| then Err(MissingDateTime)
        else Ok(HistoryFacts(p, name, dates, KeptRows(h, dates, cutoff, |dates|)))
  }

  method ParsePlayerHistory(p: Player, h: History, cutoff: int) returns (r: Result<seq<Fact>, Crash>)
    ensures r == ExtractHistoryFacts(p, h, cutoff)
  {
    var nameMatch := PlayerName(p.characterName);
    if nameMatch.None? {
      return Err(NameWithoutHash);
    }
    if h.dateTime.None? {
      return Err(NoDateTimeColumn);
    }
    var dates := h.dateTime.value;
    var rows := FilterRows(h, dates, cutoff);
    if rows.Err? {
      return Err(rows.error);
    }
    var kept := rows.value;
    if |kept| == 0 {
      return Ok([]);
    }
    var counts := CountRaces(KeptRaces(kept));
    var date := MaxInt(dates);
    return Ok([MakeFact(p, nameMatch.value, date, SwitchRace(counts)),
               MakeFact(p, nameMatch.value, date, ManyGames(counts))]);
  }

  // ---------------------------------------------------------------------------
  // parse_player_facts

  /** What `list(parse_player_facts(term, cutoff))` evaluates to, given what the
      player search returned (`None` when it found nobody) and the fetched history:
      the match facts, then the history facts; a raise in either loses both. */
  function ExtractPlayerFacts(found: Option<Player>, matches: seq<MatchRecord>, h: History, cutoff: int)
    : Result<seq<Fact>, Crash>
  {
    match found
    case None => Ok([])
    case Some(p) =>
      if PlayerName(p.characterName).None? then Err(NameWithoutHash)
      else
        match ExtractMatchFacts(p, matches, cutoff)
        case Err(e) => Err(e)
        case Ok(fromMatches) =>
          match ExtractHistoryFacts(p, h, cutoff)
          case Err(e) => Err(e)
          case Ok(fromHistory) => Ok(fromMatches + fromHistory)
  }

  // ---------------------------------------------------------------------------
  // Properties

  /** A padded row raises: history extraction fails on the first row beyond the
      dateTime column exactly when some other column is longer than it. */
  lemma ShortDateColumnRaises(p: Player, h: History, cutoff: int)
    requires PlayerName(p.characterName).Some? && h.dateTime.Some?
    ensures var d := |h.dateTime.value|;
      ExtractHistoryFacts(p, h, cutoff) == Err(MissingDateTime) <==>
        |h.race| > d || |h.queueType| > d || exists i :: 0 <= i < |h.otherLengths| && h.otherLengths[i] > d
  {
    var d := |h.dateTime.value|;
    var m := MaxLength(h.otherLengths);
    if m > d {
      var i :| 0 <= i < |h.otherLengths| && h.otherLengths[i] == m;
    }
  }

  /** The filter is exact: a row among the first `n` is kept if and only if it is
      dated at or after the cutoff and belongs to the ranked queue. */
  lemma {:induction false} KeptRowsExact(h: History, dates: seq<int>, cutoff: int, n: nat, i: nat)
    requires n <= |dates| && i < n
    ensures RowAt(h, dates, i) in KeptRows(h, dates, cutoff, n) <==> Keep(RowAt(h, dates, i), cutoff)
    decreases n
  {
    if i < n - 1 {
      KeptRowsExact(h, dates, cutoff, n - 1, i);
    }
  }

  /** Every kept row's race is lower-case. */
  lemma KeptRacesLowerCase(h: History, dates: seq<int>, cutoff: int, n: nat)
    requires n <= |dates|
    ensures forall r :: r in KeptRaces(KeptRows(h, dates, cutoff, n)) && r.Some? ==>
      forall k :: 0 <= k < |r.value| ==> !IsUpperAscii(r.value[k])
    decreases n
  {
    if n > 0 {
      KeptRacesLowerCase(h, dates, cutoff, n - 1);
      var kept := KeptRows(h, dates, cutoff, n);
      var before := KeptRows(h, dates, cutoff, n - 1);
      forall r | r in KeptRaces(kept) && r.Some?
        ensures forall k :: 0 <= k < |r.value| ==> !IsUpperAscii(r.value[k])
      {
        var j :| 0 <= j < |kept| && kept[j].race == r;
        if j < |before| {
          assert KeptRaces(before)[j] == r;
        }
      }
    }
  }

  /** A successful history pass yields nothing when no row is kept, and otherwise a
      SwitchRace and a ManyGames fact over the same race counts, which add up to the
      number of kept rows, stamped with the latest date of the dateTime column. */
  lemma HistoryFactsShape(p: Player, h: History, cutoff: int)
    requires ExtractHistoryFacts(p, h, cutoff).Ok?
    ensures var fs := ExtractHistoryFacts(p, h, cutoff).value;
      var dates := h.dateTime.value;
      var kept := KeptRows(h, dates, cutoff, |dates|);
      && (fs == [] <==> |kept| == 0)
      && (|kept| > 0 ==>
            && |fs| == 2
            && fs[0].kind == SwitchRace(fs[0].kind.gamesByRace)
            && fs[1].kind == ManyGames(fs[0].kind.gamesByRace)
            && Total(fs[0].kind.gamesByRace) == |kept|
            && fs[0].timestamp == fs[1].timestamp
            && fs[0].timestamp in dates
            && forall i :: 0 <= i < |dates| ==> dates[i] <= fs[0].timestamp)
  {
  }

  /** `parse_player_facts` succeeds exactly when both passes do, and then yields the
      match facts first; a search that finds nobody yields nothing. */
  lemma PlayerFactsComposition(found: Option<Player>, matches: seq<MatchRecord>, h: History, cutoff: int)
    ensures found.None? ==> ExtractPlayerFacts(found, matches, h, cutoff) == Ok([])
    ensures found.Some? ==>
      var p := found.value;
      (ExtractPlayerFacts(found, matches, h, cutoff).Ok? <==>
         ExtractMatchFacts(p, matches, cutoff).Ok? && ExtractHistoryFacts(p, h, cutoff).Ok?)
      && (ExtractPlayerFacts(found, matches, h, cutoff).Ok? ==>
         ExtractPlayerFacts(found, matches, h, cutoff).value ==
           ExtractMatchFacts(p, matches, cutoff).value + ExtractHistoryFacts(p, h, cutoff).value)
  {
  }
}

=== FILE: text.dfy ===
/** Text helpers shared by the renderers: decimal numerals (Python `str(int)`),
    ASCII lower-casing (Python `str.lower` on ASCII text) and prefix tests. */
module Text {

  predicate IsDigit(c: char) {
    '0' <= c <= '9'
  }

  predicate AllDigits(s: string) {
    forall i :: 0 <= i < |s| ==> IsDigit(s[i])
  }

  function DigitChar(d: nat): (c: char)
    requires d < 10
    ensures IsDigit(c) && c as int - '0' as int == d
  {
    (d + '0' as int) as char
  }

  /** Python `str(n)` for a non-negative integer: no leading zeros, at least one digit. */
  function NatToString(n: nat): (s: string)
    ensures |s| >= 1 && AllDigits(s)
    ensures |s| > 1 ==> s[0] != '0'
    decreases n
  {
    if n < 10 then [DigitChar(n)] else NatToString(n / 10) + [DigitChar(n % 10)]
  }

  /** Python `str(i)` for any integer: a minus sign exactly for negative values. */
  function IntToString(i: int): (s: string)
    ensures |s| >= 1
    ensures s[0] == '-' <==> i < 0
    ensures i >= 0 ==> AllDigits(s)
    ensures i < 0 ==> AllDigits(s[1..])
  {
    if i < 0 then "-" + NatToString(-i) else NatToString(i)
  }

  /** Reads a string of decimal digits back as a number; the inverse of NatToString. */
  function DigitsValue(s: string): nat
    requires AllDigits(s)
  {
    if |s| == 0 then 0
    else DigitsValue(s[..|s| - 1]) * 10 + (s[|s| - 1] as int - '0' as int)
  }

  lemma {:induction false} NatToStringRoundTrip(n: nat)
    ensures DigitsValue(NatToString(n)) == n
    decreases n
  {
    var s := NatToString(n);
    if n >= 10 {
      assert s[..|s| - 1] == NatToString(n / 10);
      NatToStringRoundTrip(n / 10);
    }
  }

  /** Distinct numbers print differently. */
  lemma NatToStringInjective(m: nat, n: nat)
    requires NatToString(m) == NatToString(n)
    ensures m == n
  {
    NatToStringRoundTrip(m);
    NatToStringRoundTrip(n);
  }

  predicate IsUpperAscii(c: char) {
    'A' <= c <= 'Z'
  }

  function LowerChar(c: char): (d: char)
    ensures !IsUpperAscii(d)
    ensures !IsUpperAscii(c) ==> d == c
  {
    if IsUpperAscii(c) then (c as int + 32) as char else c
  }

  /** Python `str.lower` restricted to ASCII letters: no upper-case letter is left,
      every other character stays, and each capital becomes its small letter. */
  function Lower(s: string): (r: string)
    ensures |r| == |s|
    ensures forall i :: 0 <= i < |s| ==> r[i] == LowerChar(s[i])
    ensures forall i :: 0 <= i < |r| ==> !IsUpperAscii(r[i])
    ensures forall i :: 0 <= i < |s| && !IsUpperAscii(s[i]) ==> r[i] == s[i]
    ensures forall i :: 0 <= i < |s| && IsUpperAscii(s[i]) ==> 'a' <= r[i] <= 'z' && r[i] as int - s[i] as int == 32
  {
    seq(|s|, i requires 0 <= i < |s| => LowerChar(s[i]))
  }

  /** Lower-casing twice is lower-casing once. */
  lemma LowerIdempotent(s: string)
    ensures Lower(Lower(s)) == Lower(s)
  {
    var once := Lower(s);
    assert forall i :: 0 <= i < |once| ==> Lower(once)[i] == once[i];
  }

  /** Lower-casing works character by character, so it distributes over concatenation. */
  lemma LowerConcat(a: string, b: string)
    ensures Lower(a + b) == Lower(a) + Lower(b)
  {
    assert forall i :: 0 <= i < |a + b| ==> Lower(a + b)[i] == (Lower(a) + Lower(b))[i];
  }

  predicate StartsWith(s: string, prefix: string) {
    |prefix| <= |s| && s[..|prefix|] == prefix
  }

  predicate EndsWith(s: string, suffix: string) {
    |suffix| <= |s| && s[|s| - |suffix|..] == suffix
  }

  lemma EndsWithConcat(a: string, b: string)
    ensures EndsWith(a + b, b)
  {
    assert (a + b)[|a|..] == b;
  }

  lemma EndsWithPrepend(a: string, s: string, suffix: string)
    requires EndsWith(s, suffix)
    ensures EndsWith(a + s, suffix)
  {
    assert (a + s)[|a + s| - |suffix|..] == s[|s| - |suffix|..];
  }

  /** A text made of a word and a rest starts with a word of the same length exactly
      when the two words are equal. */
  lemma StartsWithWord(word: string, rest: string, prefix: string)
    requires |word| == |prefix|
    ensures StartsWith(word + rest, prefix) <==> word == prefix
  {
    assert (word + rest)[..|prefix|] == word;
  }

  lemma StartsWithConcat(a: string, b: string, p: string)
    requires |p| <= |a|
    ensures StartsWith(a + b, p) <==> StartsWith(a, p)
  {
    assert (a + b)[..|p|] == a[..|p|];
  }
}

=== FILE: traverse.dfy ===
/** Nested-key lookup in decoded JSON (modules/traverse.py). */
module Traverse {
  import opened Wrappers

  /** A decoded JSON value; `JNull` is Python's `None`. */
  datatype Json =
    | JNull
    | JBool(b: bool)
    | JNum(n: int)
    | JStr(s: string)
    | JArr(items: seq<Json>)
    | JObj(fields: map<string, Json>)

  /** The Python exceptions a lookup can raise. */
  datatype LookupError =
    | NoKeys        // `nodes[0]` of an empty key tuple: IndexError
    | NotIndexable  // `in` on a number or boolean, or `[key]` on a string or list: TypeError

  predicate IsSubstring(k: string, s: string) {
    exists i, j :: 0 <= i <= j <= |s| && s[i..j] == k
  }

  /** Python's `key in value` for a string key. */
  function Contains(v: Json, key: string): Result<bool, LookupError>
  {
    match v
    case JObj(fields) => Ok(key in fields)
    case JStr(s) => Ok(IsSubstring(key, s))
    case JArr(items) => Ok(JStr(key) in items)
    case JNull => Ok(false)
    case JBool(_) => Err(NotIndexable)
    case JNum(_) => Err(NotIndexable)
  }

  /** `traverse(value, *keys)`: follow `keys` through nested objects; `JNull` when the
      root is null or a key is missing. */
  function Lookup(v: Json, keys: seq<string>): (r: Result<Json, LookupError>)
    ensures v == JNull ==> r == Ok(JNull)
    ensures v != JNull && keys == [] ==> r == Err(NoKeys)
    ensures v.JObj? && |keys| > 0 && keys[0] !in v.fields ==> r == Ok(JNull)
    ensures v.JObj? && |keys| == 1 && keys[0] in v.fields ==> r == Ok(v.fields[keys[0]])
    decreases |keys|
  {
    if v == JNull then Ok(JNull)
    else if |keys| == 0 then Err(NoKeys)
    else match Contains(v, keys[0])
      case Err(e) => Err(e)
      case Ok(false) => Ok(JNull)
      case Ok(true) =>
        if !v.JObj? then Err(NotIndexable)
        else if |keys| == 1 then Ok(v.fields[keys[0]])
        else Lookup(v.fields[keys[0]], keys[1..])
  }

  /** Continue a lookup from an earlier lookup's outcome. */
  function Then(r: Result<Json, LookupError>, keys: seq<string>): Result<Json, LookupError>
  {
    match r
    case Ok(v) => Lookup(v, keys)
    case Err(e) => Err(e)
  }

  /** A multi-key lookup is the lookup of the remaining keys in the child. */
  lemma LookupStep(v: Json, k: string, rest: seq<string>)
    requires v.JObj? && k in v.fields && |rest| > 0
    ensures Lookup(v, [k] + rest) == Lookup(v.fields[k], rest)
  {
    assert ([k] + rest)[1..] == rest;
  }

  /** Path composition: looking up `p + q` is looking up `p`, then `q` in what was found. */
  lemma {:induction false} LookupCompose(v: Json, p: seq<string>, q: seq<string>)
    requires |p| > 0 && |q| > 0
    ensures Lookup(v, p + q) == Then(Lookup(v, p), q)
    decreases |p|
  {
    var pq := p + q;
    assert pq[0] == p[0];
    if v != JNull && Contains(v, p[0]) == Ok(true) && v.JObj? {
      var child := v.fields[p[0]];
      if |p| == 1 {
        assert pq[1..] == q;
      } else {
        assert pq[1..] == p[1..] + q;
        LookupCompose(child, p[1..], q);
      }
    }
  }
}

=== FILE: weekly.dfy ===
/** The weekly report of `post_weekly` (bot.py:168-210): gather every tracked
    account's facts, drop the dull ones, pick them one at a time by impressiveness
    damped per player, and render the first six as a numbered message.

    The selection is written against any score function; `PostWeekly` puts the
    pieces together with the bot's own, a fact's `impressive()`. Sending the message,
    the clock and the saved configuration are outside the model. */
module Weekly {
  import opened Wrappers
  import opened Text
  import opened Factoids

  /** A fact is reported only if its impressiveness exceeds this. */
  const Threshold: real := 5.0
  /** Each pick multiplies its player's penalty by this. */
  const Decay: real := 0.8
  /** At most this many facts appear in the message. */
  const ReportSize: nat := 6

  // ---------------------------------------------------------------------------
  // Gathering and filtering

  /** `player_stats.extend(list(parse_player_facts(...)))` per account, where an
      account whose extraction raised contributes nothing. */
  function GatherFacts<E>(results: seq<Result<seq<Fact>, E>>): (fs: seq<Fact>)
    ensures forall f :: f in fs <==> exists i :: 0 <= i < |results| && results[i].Ok? && f in results[i].value
    decreases |results|
  {
    if |results| == 0 then []
    else
      var init, last := results[..|results| - 1], results[|results| - 1];
      var fs := GatherFacts(init) + (if last.Ok? then last.value else []);
      assert forall i :: 0 <= i < |init| ==> init[i] == results[i];
      fs
  }

  /** `[fact for fact in player_stats if fact.impressive() > 5]`. */
  function Eligible(facts: seq<Fact>, score: Fact -> real): (r: seq<Fact>)
    ensures forall f :: f in r <==> f in facts && score(f) > Threshold
    decreases |facts|
  {
    if |facts| == 0 then []
    else
      var init, last := facts[..|facts| - 1], facts[|facts| - 1];
      assert facts == init + [last];
      Eligible(init, score) + (if score(last) > Threshold then [last] else [])
  }

  /** The filter keeps every copy of a fact above the threshold and no other. */
  lemma {:induction false} EligibleCounts(facts: seq<Fact>, score: Fact -> real, f: Fact)
    ensures multiset(Eligible(facts, score))[f] == if score(f) > Threshold then multiset(facts)[f] else 0
    decreases |facts|
  {
    if |facts| > 0 {
      var init, last := facts[..|facts| - 1], facts[|facts| - 1];
      assert facts == init + [last];
      EligibleCounts(init, score, f);
    }
  }

  // ---------------------------------------------------------------------------
  // One round: the damped score and the stable descending sort

  /** `player_penalties` starts at 1.0 for everyone and is multiplied by 0.8 on every
      pick, so it is always 0.8 to the power of the player's picks so far; the model
      keeps that count (`Picks`) and scales by repeated multiplication. */
  function Picks(picks: map<int, nat>, id: int): nat {
    if id in picks then picks[id] else 0
  }

  /** `x` multiplied `n` times by the decay factor. */
  function Scale(x: real, n: nat): real
    decreases n
  {
    if n == 0 then x else Decay * Scale(x, n - 1)
  }

  /** The sort key of one round: `fact.impressive() * player_penalties[fact.player_id]`. */
  function Damped(picks: map<int, nat>, score: Fact -> real): Fact -> real {
    f => Scale(score(f), Picks(picks, f.playerId))
  }

  /** Insert `x` before the first element whose key does not exceed its own. */
  function Insert(x: Fact, s: seq<Fact>, key: Fact -> real): (r: seq<Fact>)
    ensures multiset(r) == multiset(s) + multiset{x} && |r| == |s| + 1
    decreases |s|
  {
    if |s| == 0 || key(x) >= key(s[0]) then [x] + s
    else
      assert s == [s[0]] + s[1..];
      [s[0]] + Insert(x, s[1..], key)
  }

  /** `list.sort(key=key, reverse=True)`: descending by key, equal keys keeping their
      current relative order. */
  function SortByKey(s: seq<Fact>, key: Fact -> real): (r: seq<Fact>)
    ensures multiset(r) == multiset(s) && |r| == |s|
    decreases |s|
  {
    if |s| == 0 then []
    else
      assert s == [s[0]] + s[1..];
      Insert(s[0], SortByKey(s[1..], key), key)
  }

  predicate Descending(s: seq<Fact>, key: Fact -> real) {
    forall i, j :: 0 <= i < j < |s| ==> key(s[i]) >= key(s[j])
  }

  /** The first position holding the largest key. */
  function FirstMaxIndex(s: seq<Fact>, key: Fact -> real): (k: nat)
    requires |s| > 0
    ensures k < |s|
    ensures forall i :: 0 <= i < |s| ==> key(s[i]) <= key(s[k])
    ensures forall i :: 0 <= i < k ==> key(s[i]) < key(s[k])
    decreases |s|
  {
    if |s| == 1 then 0
    else
      var k := FirstMaxIndex(s[1..], key);
      if key(s[0]) >= key(s[1 + k]) then 0
      else 1 + k
  }

  /** Inserting an element no larger than a bound into a sequence no larger than it
      keeps the bound. */
  lemma {:induction false} InsertBounded(x: Fact, s: seq<Fact>, key: Fact -> real, b: real)
    requires key(x) <= b
    requires forall i :: 0 <= i < |s| ==> key(s[i]) <= b
    ensures forall i :: 0 <= i < |Insert(x, s, key)| ==> key(Insert(x, s, key)[i]) <= b
    decreases |s|
  {
    if |s| > 0 && key(x) < key(s[0]) {
      InsertBounded(x, s[1..], key, b);
      var r := Insert(x, s[1..], key);
      assert Insert(x, s, key) == [s[0]] + r;
    }
  }

  lemma {:induction false} InsertKeepsDescending(x: Fact, s: seq<Fact>, key: Fact -> real)
    requires Descending(s, key)
    ensures Descending(Insert(x, s, key), key)
    ensures Insert(x, s, key)[0] == if |s| == 0 || key(x) >= key(s[0]) then x else s[0]
    decreases |s|
  {
    if |s| > 0 && key(x) < key(s[0]) {
      var tail := s[1..];
      InsertKeepsDescending(x, tail, key);
      var r := Insert(x, tail, key);
      assert forall i :: 0 <= i < |r| ==> key(r[i]) <= key(s[0]) by {
        assert forall i :: 0 <= i < |tail| ==> key(tail[i]) <= key(s[0]);
        InsertBounded(x, tail, key, key(s[0]));
      }
      assert Insert(x, s, key) == [s[0]] + r;
    }
  }

  /** The sort puts the keys in descending order, and its head is the first element
      of the current order that has the largest key. */
  lemma {:induction false} SortPutsFirstMaximumFirst(s: seq<Fact>, key: Fact -> real)
    ensures Descending(SortByKey(s, key), key)
    ensures |s| > 0 ==> SortByKey(s, key)[0] == s[FirstMaxIndex(s, key)]
    decreases |s|
  {
    if |s| > 0 {
      SortPutsFirstMaximumFirst(s[1..], key);
      InsertKeepsDescending(s[0], SortByKey(s[1..], key), key);
    }
  }

  /** The elements of `s` whose key is `v`, in their order in `s`. */
  function KeyFilter(s: seq<Fact>, key: Fact -> real, v: real): (r: seq<Fact>)
    ensures forall f :: f in r <==> f in s && key(f) == v
    decreases |s|
  {
    if |s| == 0 then []
    else (if key(s[0]) == v then [s[0]] else []) + KeyFilter(s[1..], key, v)
  }

  /** Inserting `x` puts it in front of every element with the same key. */
  lemma {:induction false} InsertFilter(x: Fact, s: seq<Fact>, key: Fact -> real, v: real)
    ensures KeyFilter(Insert(x, s, key), key, v) == (if key(x) == v then [x] else []) + KeyFilter(s, key, v)
    decreases |s|
  {
    if |s| == 0 || key(x) >= key(s[0]) {
      KeyFilterCons([x] + s, key, v);
      assert ([x] + s)[1..] == s;
    } else {
      var r := Insert(x, s[1..], key);
      InsertFilter(x, s[1..], key, v);
      KeyFilterCons([s[0]] + r, key, v);
      assert ([s[0]] + r)[1..] == r;
      KeyFilterCons(s, key, v);
      SwapUnlessBoth(if key(s[0]) == v then [s[0]] else [], if key(x) == v then [x] else [], KeyFilter(s[1..], key, v));
    }
  }

  lemma KeyFilterCons(s: seq<Fact>, key: Fact -> real, v: real)
    requires |s| > 0
    ensures KeyFilter(s, key, v) == (if key(s[0]) == v then [s[0]] else []) + KeyFilter(s[1..], key, v)
  {
  }

  lemma SwapUnlessBoth(a: seq<Fact>, b: seq<Fact>, rest: seq<Fact>)
    requires |a| == 0 || |b| == 0
    ensures a + (b + rest) == b + (a + rest)
  {
    if |a| == 0 {
      assert a + (b + rest) == b + rest;
      assert a + rest == rest;
    } else {
      assert b + (a + rest) == a + rest;
      assert b + rest == rest;
    }
  }

  /** `list.sort` is stable: the facts sharing any one key keep their relative order. */
  lemma {:induction false} SortIsStable(s: seq<Fact>, key: Fact -> real, v: real)
    ensures KeyFilter(SortByKey(s, key), key, v) == KeyFilter(s, key, v)
    decreases |s|
  {
    if |s| > 0 {
      SortIsStable(s[1..], key, v);
      InsertFilter(s[0], SortByKey(s[1..], key), key, v);
    }
  }

  // ---------------------------------------------------------------------------
  // The selection loop

  /** `player_penalties[id] *= 0.8`: one more pick for the player. */
  function Damp(picks: map<int, nat>, id: int): map<int, nat> {
    picks[id := Picks(picks, id) + 1]
  }

  /** Every round: sort by damped score, pop the head, damp its player. */
  function Select(s: seq<Fact>, pen: map<int, nat>, score: Fact -> real): seq<Fact>
    decreases |s|
  {
    if |s| == 0 then []
    else
      var sorted := SortByKey(s, Damped(pen, score));
      [sorted[0]] + Select(sorted[1..], Damp(pen, sorted[0].playerId), score)
  }

  /** The damped score of each pick at the moment it was picked. */
  function PickScores(s: seq<Fact>, pen: map<int, nat>, score: Fact -> real): seq<real>
    decreases |s|
  {
    if |s| == 0 then []
    else
      var sorted := SortByKey(s, Damped(pen, score));
      [Damped(pen, score)(sorted[0])] + PickScores(sorted[1..], Damp(pen, sorted[0].playerId), score)
  }

  lemma Assoc<T>(a: seq<T>, b: seq<T>, c: seq<T>)
    ensures a + (b + c) == (a + b) + c
  {
  }

  /** The selection loop of `post_weekly` over the eligible facts. */
  method SelectFacts(facts: seq<Fact>, score: Fact -> real) returns (selected: seq<Fact>)
    ensures selected == Select(Eligible(facts, score), map[], score)
  {
    selected := SelectFrom(Eligible(facts, score), score);
  }

  /** The `while player_stats` loop itself. */
  method SelectFrom(eligible: seq<Fact>, score: Fact -> real) returns (selected: seq<Fact>)
    ensures selected == Select(eligible, map[], score)
  {
    var stats := eligible;
    ghost var target := Select(stats, map[], score);
    var penalties: map<int, nat> := map[];
    selected := [];
    while |stats| > 0
      invariant selected + Select(stats, penalties, score) == target
      decreases |stats|
    {
      SelectRound(selected, stats, penalties, score);
      var sorted := SortByKey(stats, Damped(penalties, score));
      var top := sorted[0];
      selected := selected + [top];
      stats := sorted[1..];
      penalties := Damp(penalties, top.playerId);
    }
    assert selected + [] == selected;
  }

  /** One round of the selection loop keeps `selected + Select(stats, ...)` fixed. */
  lemma SelectRound(selected: seq<Fact>, stats: seq<Fact>, pen: map<int, nat>, score: Fact -> real)
    requires |stats| > 0
    ensures |SortByKey(stats, Damped(pen, score))| == |stats|
    ensures var sorted := SortByKey(stats, Damped(pen, score));
      selected + Select(stats, pen, score)
      == (selected + [sorted[0]]) + Select(sorted[1..], Damp(pen, sorted[0].playerId), score)
  {
    var sorted := SortByKey(stats, Damped(pen, score));
    var later := Select(sorted[1..], Damp(pen, sorted[0].playerId), score);
    assert Select(stats, pen, score) == [sorted[0]] + later;
    Assoc(selected, [sorted[0]], later);
  }

  // ---------------------------------------------------------------------------
  // What the selection promises

  /** Every eligible fact is selected exactly once. */
  lemma {:induction false} SelectIsPermutation(s: seq<Fact>, pen: map<int, nat>, score: Fact -> real)
    ensures multiset(Select(s, pen, score)) == multiset(s)
    decreases |s|
  {
    if |s| > 0 {
      var sorted := SortByKey(s, Damped(pen, score));
      SelectIsPermutation(sorted[1..], Damp(pen, sorted[0].playerId), score);
      assert sorted == [sorted[0]] + sorted[1..];
    }
  }

  /** Each round picks the first fact, in the current order, with the largest damped
      score. */
  lemma SelectPicksFirstMaximum(s: seq<Fact>, pen: map<int, nat>, score: Fact -> real)
    requires |s| > 0
    ensures Select(s, pen, score)[0] == s[FirstMaxIndex(s, Damped(pen, score))]
  {
    SortPutsFirstMaximumFirst(s, Damped(pen, score));
  }

  lemma {:induction false} PickScoresLength(s: seq<Fact>, pen: map<int, nat>, score: Fact -> real)
    ensures |PickScores(s, pen, score)| == |Select(s, pen, score)| == |s|
    decreases |s|
  {
    if |s| > 0 {
      var sorted := SortByKey(s, Damped(pen, score));
      PickScoresLength(sorted[1..], Damp(pen, sorted[0].playerId), score);
    }
  }

  function CountPlayer(s: seq<Fact>, id: int): nat
    decreases |s|
  {
    if |s| == 0 then 0
    else CountPlayer(s[..|s| - 1], id) + (if s[|s| - 1].playerId == id then 1 else 0)
  }

  ghost predicate PenaltiesAfter(pen: map<int, nat>, picked: seq<Fact>) {
    forall id :: Picks(pen, id) == CountPlayer(picked, id)
  }

  lemma DampAfterPick(pen: map<int, nat>, picked: seq<Fact>, top: Fact)
    requires PenaltiesAfter(pen, picked)
    ensures PenaltiesAfter(Damp(pen, top.playerId), picked + [top])
  {
    assert (picked + [top])[..|picked|] == picked;
  }

  /** Scaling `n` times is multiplying by the penalty `0.8 ** n`. */
  lemma {:induction false} ScaleIsPenalty(x: real, n: nat)
    ensures Scale(x, n) == x * Pow(Decay, n)
    decreases n
  {
    if n > 0 {
      ScaleIsPenalty(x, n - 1);
      assert Decay * (x * Pow(Decay, n - 1)) == x * (Decay * Pow(Decay, n - 1));
    }
  }

  /** One round of `Select` and `PickScores`, unfolded. */
  lemma SelectStep(s: seq<Fact>, pen: map<int, nat>, score: Fact -> real)
    requires |s| > 0
    ensures var sorted := SortByKey(s, Damped(pen, score));
      var pen' := Damp(pen, sorted[0].playerId);
      Select(s, pen, score) == [sorted[0]] + Select(sorted[1..], pen', score) &&
      PickScores(s, pen, score) == [Damped(pen, score)(sorted[0])] + PickScores(sorted[1..], pen', score)
  {
  }

  /** A pick's damped score is its own score times 0.8 to the power of the number of
      facts of the same player picked before it. */
  lemma {:induction false} PickScoreIsDecayed(s: seq<Fact>, picked: seq<Fact>, pen: map<int, nat>, score: Fact -> real, i: nat)
    requires PenaltiesAfter(pen, picked) && i < |s|
    ensures |PickScores(s, pen, score)| == |Select(s, pen, score)| == |s|
    ensures var sel := Select(s, pen, score);
      PickScores(s, pen, score)[i] == Scale(score(sel[i]), CountPlayer(picked + sel[..i], sel[i].playerId))
    decreases |s|
  {
    PickScoresLength(s, pen, score);
    var sorted := SortByKey(s, Damped(pen, score));
    var top := sorted[0];
    var pen' := Damp(pen, top.playerId);
    var sel := Select(s, pen, score);
    var sc := PickScores(s, pen, score);
    SelectStep(s, pen, score);
    if i == 0 {
      assert sc[0] == Damped(pen, score)(top);
      assert picked + sel[..0] == picked;
    } else {
      var rest, restScores := Select(sorted[1..], pen', score), PickScores(sorted[1..], pen', score);
      DampAfterPick(pen, picked, top);
      PickScoreIsDecayed(sorted[1..], picked + [top], pen', score, i - 1);
      DecayShift(picked, top, rest, restScores, Damped(pen, score)(top), score, i);
    }
  }

  /** The inductive step of `PickScoreIsDecayed`, on plain sequences. */
  lemma DecayShift(picked: seq<Fact>, top: Fact, rest: seq<Fact>, restScores: seq<real>, first: real, score: Fact -> real, i: nat)
    requires 0 < i <= |rest| == |restScores|
    requires restScores[i - 1] == Scale(score(rest[i - 1]), CountPlayer((picked + [top]) + rest[..i - 1], rest[i - 1].playerId))
    ensures var sel, sc := [top] + rest, [first] + restScores;
      sc[i] == Scale(score(sel[i]), CountPlayer(picked + sel[..i], sel[i].playerId))
  {
    var sel := [top] + rest;
    assert sel[..i] == [top] + rest[..i - 1];
    Assoc(picked, [top], rest[..i - 1]);
  }

  /** The first time a player is picked their fact counts at its full score; the
      second time at 80 %, and so on (`ScaleIsPenalty` turns `Scale` into the
      product with `0.8 ** n`). */
  lemma PicksAreDecayedPerPlayer(s: seq<Fact>, score: Fact -> real)
    ensures var sel := Select(s, map[], score);
      |PickScores(s, map[], score)| == |sel| &&
      forall i :: 0 <= i < |sel| ==>
        PickScores(s, map[], score)[i] == Scale(score(sel[i]), CountPlayer(sel[..i], sel[i].playerId))
  {
    PickScoresLength(s, map[], score);
    var sel := Select(s, map[], score);
    forall i | 0 <= i < |sel|
      ensures PickScores(s, map[], score)[i] == Scale(score(sel[i]), CountPlayer(sel[..i], sel[i].playerId))
    {
      DecayedFromStart(s, score, i);
    }
  }

  /** `PickScoreIsDecayed` from the start of the loop, for one pick. */
  lemma DecayedFromStart(s: seq<Fact>, score: Fact -> real, i: nat)
    requires i < |s|
    ensures |PickScores(s, map[], score)| == |Select(s, map[], score)| == |s|
    ensures var sel := Select(s, map[], score);
      PickScores(s, map[], score)[i] == Scale(score(sel[i]), CountPlayer(sel[..i], sel[i].playerId))
  {
    assert PenaltiesAfter(map[], []);
    PickScoreIsDecayed(s, [], map[], score, i);
    var sel := Select(s, map[], score);
    assert [] + sel[..i] == sel[..i];
  }

  predicate NonNegativeScores(s: seq<Fact>, score: Fact -> real) {
    forall i :: 0 <= i < |s| ==> score(s[i]) >= 0.0
  }

  lemma {:induction false} ScaleNonNegative(x: real, n: nat)
    requires x >= 0.0
    ensures 0.0 <= Scale(x, n) <= x
    decreases n
  {
    if n > 0 {
      ScaleNonNegative(x, n - 1);
    }
  }

  /** Damping one player never raises anyone's damped score. */
  lemma DampingLowers(f: Fact, pen: map<int, nat>, id: int, score: Fact -> real)
    requires score(f) >= 0.0
    ensures Damped(Damp(pen, id), score)(f) <= Damped(pen, score)(f)
  {
    ScaleNonNegative(score(f), Picks(pen, f.playerId));
  }

  /** The damped score at selection time never increases from one pick to the next. */
  predicate NonIncreasing(sc: seq<real>) {
    forall i, j :: 0 <= i < j < |sc| ==> sc[i] >= sc[j]
  }

  lemma ConsNonIncreasing(a: real, rest: seq<real>)
    requires NonIncreasing(rest) && (|rest| > 0 ==> a >= rest[0])
    ensures NonIncreasing([a] + rest)
  {
    var sc := [a] + rest;
    forall i, j | 0 <= i < j < |sc| ensures sc[i] >= sc[j] {
      if i == 0 {
        assert sc[j] == rest[j - 1];
        assert rest[0] >= rest[j - 1] || j == 1;
      } else {
        assert sc[i] == rest[i - 1] && sc[j] == rest[j - 1];
      }
    }
  }

  /** Sorting keeps every fact, so it keeps non-negative scores. */
  lemma SortedNonNegative(s: seq<Fact>, key: Fact -> real, score: Fact -> real)
    requires NonNegativeScores(s, score)
    ensures NonNegativeScores(SortByKey(s, key), score)
  {
    var sorted := SortByKey(s, key);
    forall i | 0 <= i < |sorted| ensures score(sorted[i]) >= 0.0 {
      assert sorted[i] in multiset(s);
      var j :| 0 <= j < |s| && s[j] == sorted[i];
    }
  }

  /** A fact present in a sequence of non-negative scores has a non-negative score. */
  lemma MemberNonNegative(s: seq<Fact>, score: Fact -> real, y: Fact)
    requires NonNegativeScores(s, score) && y in multiset(s)
    ensures score(y) >= 0.0
  {
    var j :| 0 <= j < |s| && s[j] == y;
  }

  /** In a descending sequence nothing behind the head has a larger key. */
  lemma BehindHeadOf(sorted: seq<Fact>, key: Fact -> real, y: Fact)
    requires Descending(sorted, key) && |sorted| > 0 && y in sorted[1..]
    ensures key(y) <= key(sorted[0])
  {
    var rest := sorted[1..];
    var k :| 0 <= k < |rest| && rest[k] == y;
    assert sorted[k + 1] == y;
  }

  /** Whatever the sort leaves behind its head has a key no larger than the head's. */
  lemma BehindHead(s: seq<Fact>, key: Fact -> real, y: Fact)
    requires |s| > 0 && y in SortByKey(s, key)[1..]
    ensures key(y) <= key(SortByKey(s, key)[0])
  {
    SortPutsFirstMaximumFirst(s, key);
    BehindHeadOf(SortByKey(s, key), key, y);
  }

  /** The next round's pick scores no more than this round's. */
  lemma NextPickNoHigher(s: seq<Fact>, pen: map<int, nat>, score: Fact -> real)
    requires |s| > 1 && NonNegativeScores(s, score)
    ensures var sorted := SortByKey(s, Damped(pen, score));
      var pen' := Damp(pen, sorted[0].playerId);
      |PickScores(sorted[1..], pen', score)| > 0 &&
      Damped(pen, score)(sorted[0]) >= PickScores(sorted[1..], pen', score)[0]
  {
    var key := Damped(pen, score);
    var sorted := SortByKey(s, key);
    var top := sorted[0];
    var rest := sorted[1..];
    var pen' := Damp(pen, top.playerId);
    var next := SortByKey(rest, Damped(pen', score))[0];
    assert PickScores(rest, pen', score)[0] == Damped(pen', score)(next);
    assert next in rest by {
      assert next in multiset(rest);
    }
    assert key(next) <= key(top) by {
      BehindHead(s, key, next);
    }
    assert score(next) >= 0.0 by {
      assert next in multiset(s) by {
        assert sorted == [top] + rest;
      }
      MemberNonNegative(s, score, next);
    }
    DampingLowers(next, pen, top.playerId, score);
  }

  /** The damped score at selection time never increases from one pick to the next. */
  lemma {:induction false} PickScoresNonIncreasing(s: seq<Fact>, pen: map<int, nat>, score: Fact -> real)
    requires NonNegativeScores(s, score)
    ensures NonIncreasing(PickScores(s, pen, score))
    decreases |s|
  {
    if |s| > 0 {
      var key := Damped(pen, score);
      var sorted := SortByKey(s, key);
      var top := sorted[0];
      var rest := sorted[1..];
      var pen' := Damp(pen, top.playerId);
      var restScores := PickScores(rest, pen', score);
      assert NonNegativeScores(rest, score) by {
        SortedNonNegative(s, key, score);
        forall i | 0 <= i < |rest| ensures score(rest[i]) >= 0.0 {
          assert rest[i] == sorted[i + 1];
        }
      }
      PickScoresNonIncreasing(rest, pen', score);
      assert |rest| > 0 ==> key(top) >= restScores[0] by {
        if |rest| > 0 {
          NextPickNoHigher(s, pen, score);
        }
      }
      ConsNonIncreasing(key(top), restScores);
      assert PickScores(s, pen, score) == [key(top)] + restScores;
    }
  }


  // ---------------------------------------------------------------------------
  // The message

  /** The player's name, followed by a Discord mention when the battle tag belongs
      to a scanned account. */
  function Mention(f: Fact, accounts: map<string, int>): (m: string)
    ensures StartsWith(m, f.playerName)
    ensures m == f.playerName <==> f.battleTag !in accounts
  {
    if f.battleTag in accounts then f.playerName + " <@" + IntToString(accounts[f.battleTag]) + ">"
    else f.playerName
  }

  /** `f"{i}. {mention} {fact}\n"`; `None` when `str(fact)` raises. */
  function ReportLine(rank: nat, f: Fact, accounts: map<string, int>, t: Transcendental): Option<string>
  {
    match FactText(f.kind, t)
    case None => None
    case Some(text) => Some(NatToString(rank) + ". " + Mention(f, accounts) + " " + text + "\n")
  }

  /** The numbered lines for `facts`, the first one numbered 1. */
  function ReportLines(facts: seq<Fact>, accounts: map<string, int>, t: Transcendental): Option<string>
    decreases |facts|
  {
    if |facts| == 0 then Some("")
    else
      match ReportLines(facts[..|facts| - 1], accounts, t)
      case None => None
      case Some(lines) =>
        match ReportLine(|facts|, facts[|facts| - 1], accounts, t)
        case None => None
        case Some(line) => Some(lines + line)
  }

  function Header(date: string): string {
    "Weekly stats for " + date + ":\n"
  }

  /** Nothing to post, the message to post, or a raise while rendering a fact. */
  datatype Post = Skip | Send(message: string) | Fail

  /** The message for the selected facts; `date` is the already formatted day. */
  function Report(date: string, selected: seq<Fact>, accounts: map<string, int>, t: Transcendental): Post
  {
    if |selected| == 0 then Skip
    else
      var shown := if |selected| < ReportSize then |selected| else ReportSize;
      match ReportLines(selected[..shown], accounts, t)
      case None => Fail
      case Some(lines) => Send(Header(date) + lines)
  }

  /** The message loop of `post_weekly`. */
  method ComposeReport(date: string, selected: seq<Fact>, accounts: map<string, int>, t: Transcendental)
    returns (post: Post)
    ensures post == Report(date, selected, accounts, t)
  {
    if |selected| == 0 {
      return Skip;
    }
    var shown := if |selected| < ReportSize then |selected| else ReportSize;
    var message := Header(date);
    for i := 0 to shown
      invariant ReportLines(selected[..i], accounts, t).Some?
      invariant message == Header(date) + ReportLines(selected[..i], accounts, t).value
    {
      assert selected[..i + 1][..i] == selected[..i];
      var line := ReportLine(i + 1, selected[i], accounts, t);
      if line.None? {
        assert FactText(selected[i].kind, t).None?;
        ReportLinesFailIff(selected[..shown], accounts, t);
        assert selected[..shown][i] == selected[i];
        return Fail;
      }
      assert ReportLines(selected[..i + 1], accounts, t) == Some(ReportLines(selected[..i], accounts, t).value + line.value);
      Assoc(Header(date), ReportLines(selected[..i], accounts, t).value, line.value);
      message := message + line.value;
    }
    assert selected[..shown] == selected[..shown];
    return Send(message);
  }

  /** Only the first six selected facts matter for the message. */
  lemma ReportShowsFirstSix(date: string, selected: seq<Fact>, accounts: map<string, int>, t: Transcendental)
    requires |selected| > ReportSize
    ensures Report(date, selected, accounts, t) == Report(date, selected[..ReportSize], accounts, t)
  {
    assert selected[..ReportSize][..ReportSize] == selected[..ReportSize];
  }

  /** Rendering fails exactly when one of the rendered facts has no text. */
  lemma {:induction false} ReportLinesFailIff(facts: seq<Fact>, accounts: map<string, int>, t: Transcendental)
    ensures ReportLines(facts, accounts, t).None? <==>
      exists i :: 0 <= i < |facts| && FactText(facts[i].kind, t).None?
    decreases |facts|
  {
    if |facts| > 0 {
      var init := facts[..|facts| - 1];
      ReportLinesFailIff(init, accounts, t);
      if exists i :: 0 <= i < |init| && FactText(init[i].kind, t).None? {
        var i :| 0 <= i < |init| && FactText(init[i].kind, t).None?;
        assert facts[i] == init[i];
      }
      if exists i :: 0 <= i < |facts| && FactText(facts[i].kind, t).None? {
        var i :| 0 <= i < |facts| && FactText(facts[i].kind, t).None?;
        if i < |facts| - 1 {
          assert init[i] == facts[i];
        }
      }
    }
  }

  /** The week is skipped exactly when nothing was selected, and the message fails
      exactly when one of the first six picks is a promotion to an unknown league. */
  lemma ReportOutcome(date: string, selected: seq<Fact>, accounts: map<string, int>, t: Transcendental)
    ensures Report(date, selected, accounts, t).Skip? <==> |selected| == 0
    ensures Report(date, selected, accounts, t).Fail? <==>
      exists i :: 0 <= i < |selected| && i < ReportSize && selected[i].kind.Promote? && !(0 <= selected[i].kind.league <= 6)
    ensures Report(date, selected, accounts, t).Send? ==> StartsWith(Report(date, selected, accounts, t).message, Header(date))
  {
    if |selected| > 0 {
      var shown := if |selected| < ReportSize then |selected| else ReportSize;
      ReportLinesFailIff(selected[..shown], accounts, t);
      if exists i :: 0 <= i < |selected| && i < ReportSize && selected[i].kind.Promote? && !(0 <= selected[i].kind.league <= 6) {
        var i :| 0 <= i < |selected| && i < ReportSize && selected[i].kind.Promote? && !(0 <= selected[i].kind.league <= 6);
        FactTextFailsOnlyForUnknownLeague(selected[i].kind, t);
        assert selected[..shown][i] == selected[i];
      }
      if ReportLines(selected[..shown], accounts, t).None? {
        var i :| 0 <= i < shown && FactText(selected[..shown][i].kind, t).None?;
        FactTextFailsOnlyForUnknownLeague(selected[i].kind, t);
      }
    }
  }

  lemma FactTextFailsOnlyForUnknownLeague(k: FactKind, t: Transcendental)
    ensures FactText(k, t).None? <==> k.Promote? && !(0 <= k.league <= 6)
  {
  }

  // ---------------------------------------------------------------------------
  // The whole week

  /** The bot's score: a fact's `impressive()`. */
  function ImpressiveScore(t: Transcendental): Fact -> real {
    (f: Fact) => Impressive(f.kind, t)
  }

  /** The debug listing renders every gathered fact, before any filtering. */
  predicate AllRenderable(facts: seq<Fact>, t: Transcendental) {
    forall i :: 0 <= i < |facts| ==> FactText(facts[i].kind, t).Some?
  }

  /** What one week produces from the per-account extraction results: the debug
      listing raises on a fact without text, otherwise the eligible facts are
      selected and the first six reported. */
  function WeeklyPost<E>(results: seq<Result<seq<Fact>, E>>, accounts: map<string, int>, date: string, t: Transcendental): Post
  {
    var gathered := GatherFacts(results);
    if !AllRenderable(gathered, t) then Fail
    else
      var score := ImpressiveScore(t);
      Report(date, Select(Eligible(gathered, score), map[], score), accounts, t)
  }

  /** The gathering loop: `player_stats.extend(...)` for each account that did not raise. */
  method Gather<E>(results: seq<Result<seq<Fact>, E>>) returns (stats: seq<Fact>)
    ensures stats == GatherFacts(results)
  {
    stats := [];
    for k := 0 to |results|
      invariant stats == GatherFacts(results[..k])
    {
      assert results[..k + 1][..k] == results[..k];
      if results[k].Ok? {
        stats := stats + results[k].value;
      }
    }
    assert results[..|results|] == results;
  }

  /** The debug listing: `str(fact)` for every gathered fact, stopping at the first
      that raises. */
  method ListFacts(stats: seq<Fact>, t: Transcendental) returns (ok: bool)
    ensures ok <==> AllRenderable(stats, t)
  {
    for k := 0 to |stats|
      invariant forall i :: 0 <= i < k ==> FactText(stats[i].kind, t).Some?
    {
      if FactText(stats[k].kind, t).None? {
        return false;
      }
    }
    return true;
  }

  /** `post_weekly` for one server whose week is due. */
  method PostWeekly<E>(results: seq<Result<seq<Fact>, E>>, accounts: map<string, int>, date: string, t: Transcendental)
    returns (post: Post)
    ensures post == WeeklyPost(results, accounts, date, t)
  {
    var stats := Gather(results);
    var listed := ListFacts(stats, t);
    if !listed {
      return Fail;
    }
    var selected := SelectFacts(stats, ImpressiveScore(t));
    post := ComposeReport(date, selected, accounts, t);
  }

  /** A fact renders exactly when it is not a promotion to an unknown league. */
  lemma RenderableIff(facts: seq<Fact>, t: Transcendental)
    ensures AllRenderable(facts, t) <==>
      !exists i :: 0 <= i < |facts| && facts[i].kind.Promote? && !(0 <= facts[i].kind.league <= 6)
  {
    forall i | 0 <= i < |facts| {
      FactTextFailsOnlyForUnknownLeague(facts[i].kind, t);
    }
  }

  /** The selection only reorders the eligible facts, so it renders when they do. */
  lemma SelectionRenders(eligible: seq<Fact>, score: Fact -> real, t: Transcendental)
    requires AllRenderable(eligible, t)
    ensures AllRenderable(Select(eligible, map[], score), t)
    ensures |Select(eligible, map[], score)| == |eligible|
  {
    var selected := Select(eligible, map[], score);
    SelectIsPermutation(eligible, map[], score);
    forall i | 0 <= i < |selected| ensures FactText(selected[i].kind, t).Some? {
      assert selected[i] in multiset(selected);
      assert selected[i] in eligible;
    }
    assert |multiset(selected)| == |multiset(eligible)|;
  }

  /** Eligible facts are gathered facts, so they render when those do. */
  lemma EligibleRenders(gathered: seq<Fact>, score: Fact -> real, t: Transcendental)
    requires AllRenderable(gathered, t)
    ensures AllRenderable(Eligible(gathered, score), t)
  {
    var eligible := Eligible(gathered, score);
    forall i | 0 <= i < |eligible| ensures FactText(eligible[i].kind, t).Some? {
      assert eligible[i] in eligible;
    }
  }

  /** A report of facts that all render is never a failure. */
  lemma ReportOfRenderable(date: string, selected: seq<Fact>, accounts: map<string, int>, t: Transcendental)
    requires AllRenderable(selected, t)
    ensures !Report(date, selected, accounts, t).Fail?
  {
    if |selected| > 0 {
      var shown := if |selected| < ReportSize then |selected| else ReportSize;
      ReportLinesFailIff(selected[..shown], accounts, t);
      assert forall i :: 0 <= i < shown ==> selected[..shown][i] == selected[i];
    }
  }

  /** Nothing is eligible exactly when no gathered fact beats the threshold. */
  lemma NothingEligibleIff(gathered: seq<Fact>, t: Transcendental)
    ensures |Eligible(gathered, ImpressiveScore(t))| == 0 <==>
      forall i :: 0 <= i < |gathered| ==> Impressive(gathered[i].kind, t) <= Threshold
  {
    var score := ImpressiveScore(t);
    var eligible := Eligible(gathered, score);
    if |eligible| > 0 {
      assert eligible[0] in gathered;
    } else {
      forall i | 0 <= i < |gathered| ensures Impressive(gathered[i].kind, t) <= Threshold {
        assert score(gathered[i]) == Impressive(gathered[i].kind, t);
        assert gathered[i] !in eligible;
      }
    }
  }

  /** The week fails exactly when some gathered fact, selected or not, is a promotion
      to an unknown league; it is skipped exactly when everything renders and no
      fact is impressive enough; otherwise the message starts with the header. */
  lemma WeeklyPostOutcome<E>(results: seq<Result<seq<Fact>, E>>, accounts: map<string, int>, date: string, t: Transcendental)
    ensures WeeklyPost(results, accounts, date, t).Fail? <==>
      (exists i :: 0 <= i < |GatherFacts(results)| &&
        GatherFacts(results)[i].kind.Promote? && !(0 <= GatherFacts(results)[i].kind.league <= 6))
    ensures WeeklyPost(results, accounts, date, t).Skip? <==>
      AllRenderable(GatherFacts(results), t) &&
      (forall i :: 0 <= i < |GatherFacts(results)| ==> Impressive(GatherFacts(results)[i].kind, t) <= Threshold)
    ensures WeeklyPost(results, accounts, date, t).Send? ==>
      StartsWith(WeeklyPost(results, accounts, date, t).message, Header(date))
  {
    var gathered := GatherFacts(results);
    RenderableIff(gathered, t);
    if AllRenderable(gathered, t) {
      var score := ImpressiveScore(t);
      var eligible := Eligible(gathered, score);
      EligibleRenders(gathered, score, t);
      SelectionRenders(eligible, score, t);
      var selected := Select(eligible, map[], score);
      ReportOfRenderable(date, selected, accounts, t);
      ReportOutcome(date, selected, accounts, t);
      NothingEligibleIff(gathered, t);
      assert WeeklyPost(results, accounts, date, t) == Report(date, selected, accounts, t);
    } else {
      var i :| 0 <= i < |gathered| && FactText(gathered[i].kind, t).None?;
      FactTextFailsOnlyForUnknownLeague(gathered[i].kind, t);
      assert WeeklyPost(results, accounts, date, t) == Fail;
      assert gathered == GatherFacts(results);
      assert exists j :: 0 <= j < |gathered| && gathered[j].kind.Promote? && !(0 <= gathered[j].kind.league <= 6);
    }
  }

  /** Every eligible fact scores above the threshold, so the bot's picks come out
      with non-increasing damped scores whatever the transcendental functions are. */
  lemma WeeklyPicksNonIncreasing<E>(results: seq<Result<seq<Fact>, E>>, t: Transcendental)
    ensures var score := ImpressiveScore(t);
      NonIncreasing(PickScores(Eligible(GatherFacts(results), score), map[], score))
  {
    var score := ImpressiveScore(t);
    var eligible := Eligible(GatherFacts(results), score);
    forall i | 0 <= i < |eligible| ensures score(eligible[i]) >= 0.0 {
      assert eligible[i] in eligible;
    }
    PickScoresNonIncreasing(eligible, map[], score);
  }
}

=== FILE: wrappers.dfy ===
/** Option and Result, the two failure-carrying datatypes the model uses. */
module Wrappers {

  /** A value that may be absent (Python `None`, a JSON `null`, a missing key). */
  datatype Option<+T> = None | Some(value: T) {
    function GetOr(default: T): T {
      match this
      case Some(v) => v
      case None => default
    }
  }

  /** The outcome of a computation that may raise. */
  datatype Result<+T, +E> = Ok(value: T) | Err(error: E)
}
